=== FILE: README.md ===
# Wayfound itinerary pipeline and screen logic, in Dafny

Wayfound is a React Native trip planner. This project models the part of it
that does real work on data, as pure functions over sequences and strings,
and proves what that code promises.

- **The AI itinerary pipeline** (`app/screens/aiPlannerScreen.tsx`, the
  generate action):
  - the AI's day texts are segmented into activities (`AiParser`);
  - each activity name is cleaned up (`CleanName`) and looked up with a place
    text search (`Enrich`);
  - the activities are grouped by day into day records with one row per
    activity, each day dated from the trip's start date (`Itinerary`,
    `Calendar`).
  - `Itinerary` also models the way a saved itinerary is loaded back.
- **The onboarding swiper** (`components/OnboardingSwiper.tsx`): the
  five-step machine with its field checks, the date-of-birth rewrite, and the
  rule for uploading an avatar (`Onboarding`).
- **The new-trip form** (`app/screens/createTrip.tsx`): field and member-list
  editing, the checks before creating a trip, and the valid-member filter
  (`CreateTrip`).
- **The planner screen's inputs** (`app/screens/aiPlannerScreen.tsx`): the
  interest chips toggle, the comma-separated custom interests, and the
  composition of the pipeline (`AiPlanner`).

Supporting modules:
- `Wrappers`: `Option` and `Result`.
- `JsText`: the JavaScript string built-ins the code relies on:
  - `trim` and `\s`, over the ECMAScript white-space set;
  - `split` on one character;
  - `indexOf`;
  - ASCII case folding, as a regular expression without the `u` flag uses.
- `Scan`: JavaScript `split` and global `replace` with a regular expression,
  over an abstract recogniser, proved once for every expression the code uses.
  Each regular expression in the code is an explicit recogniser at an index:
  - `AiParser.HeaderAt`, `AiParser.TimeRangeAt`;
  - `CleanName.TimeBlockAt`, `CleanName.FillerAt`, `CleanName.AsideAt`,
    `CleanName.RunAt`, `CleanName.QuoteAt`.
  - The lazy `.*?` is a scan for the first closing delimiter. `\b`, `\s` and
    the `i` flag are written out.

The place search, the AI call and every Supabase call are left out or turned
into parameters:
- The search is a function `string -> Option<Place>`. `searchPlace` catches
  its own errors and answers `null`, so a miss and a failure are the same
  `None`.
- The enricher returns, with its result, the queries it searched for, so the
  number of searches can be stated.
- The load takes the two query results as `Option` sequences.

Behaviour of the code that a reader of the screens might not expect:
- A day text with no `Morning (…):`, `Afternoon (…):` or `Evening (…):` header
  yields no activity: there is no plain-text fallback
  (`AiParser.NoHeaderNoActivity`). A name may clean to the empty string and is
  still emitted.
- After a miss, the search is retried when the cleaned name's first word is
  longer than three UTF-16 code units, not when the name has more than one
  word. A one-word name is therefore searched twice with the very same query
  (`Enrich.SingleWordRetriesSameQuery`), and `Old Town Fish Market` is never
  retried, since `Old` has three code units.
- After two misses the original activity is pushed, with its uncleaned name.
- The saved day rows carry neither the address nor the place id the enricher
  found (`Itinerary.RowKeepsActivity`).

JavaScript details modelled explicitly:
- `Object.keys` of the day groups lists array-index keys (0 to 2^32 − 2) in
  ascending order first, then the other keys in insertion order
  (`Itinerary.Keys`, `Itinerary.KeysInsertionOrder`). For the day numbers the parser produces, this is
  ascending order (`Itinerary.KeysAscending`).
- A string's `length` counts UTF-16 code units, so a character outside the
  basic plane counts twice (`JsText.Utf16Length`).
- A `Date` holds at most 10^8 days either side of 1970-01-01.
  - `toISOString` writes a four-digit year for 0 to 9999 and a sign and six
    digits otherwise.
  - On an invalid date it throws `Invalid time value`; that is the save's
    `Failure` (`Itinerary.PlanDays`).
- `updated[index] = …` past the end of the member array leaves holes, and
  `[...prev]` in both member handlers turns every hole into a real
  `undefined` element. A slot of the member list is therefore `Hole`,
  `Undefined` or `Present(member)` (`CreateTrip.Slot`):
  - `filter` skips holes but keeps `undefined` (`CreateTrip.RemoveMember`);
  - `m.name` on `undefined` throws, so the member filter of
    `handleCreateTrip` fails after the trip was inserted
    (`CreateTrip.ValidMembers`, `CreateTrip.CreateTrip`).
- Destructuring `dob.split('-')` into three names gives `undefined` for a
  missing piece. A template literal prints it as `undefined`
  (`Onboarding.ReformatDob`).

## Model

| member | source | states |
|---|---|---|
| AiParser.HeaderAt | lib/aiParser.ts:10-12 | a header match starts with Morning, Afternoon or Evening, has only white space between that word and a `(`, and ends just after the first `):` after the `(`, with no line terminator before it |
| AiParser.HeaderAtComplete | lib/aiParser.ts:10-12 | a period word, white space, `(` and a first `):` with no line terminator before it are always recognised as a header ending just after that `):` |
| AiParser.CloseAt | lib/aiParser.ts:11 | the lazy `.*?\):` stops at the first `):`, and finds none exactly when a line terminator or the end comes first |
| AiParser.Blocks | lib/aiParser.ts:10-14 | every block of a day text lies inside that text |
| AiParser.BlocksAreTheSplit | lib/aiParser.ts:10-16 | the blocks are a split of the day text on header matches, leftmost first, and the only such split; text before the first header belongs to no block |
| AiParser.TimeRangeAt | lib/aiParser.ts:21 | a recognised time range is `(start-end)` at that index, with both captures `\d{1,2}:\d{2}` tokens |
| AiParser.TimeRangeAtComplete | lib/aiParser.ts:21 | every `(start-end)` of two time tokens in a header is recognised where it occurs, with exactly those captures |
| AiParser.FindTimeRange | lib/aiParser.ts:21-24 | the times found are the two captures of the leftmost `(start-end)` of time tokens in the header; none means no index holds one |
| AiParser.RemoveDots | lib/aiParser.ts:29 | no dot is left and every other character keeps its count |
| AiParser.RemoveDotsAppend | lib/aiParser.ts:29 | removal works piece by piece, so the other characters keep their order |
| AiParser.RemoveDotsNoDot | lib/aiParser.ts:29 | a text without a dot is kept whole |
| AiParser.CleanTitle | lib/aiParser.ts:27-30 | an activity name holds no dot and no newline and has no white space at either end |
| AiParser.CleanTitleContent | lib/aiParser.ts:27-30 | apart from white space, the name is the description's characters without the dots, in order |
| AiParser.CleanTitleKeeps | lib/aiParser.ts:27-30 | a trimmed text without dot or newline is its own name |
| AiParser.TextBlocks | lib/aiParser.ts:14-18 | exactly the blocks whose following text is non-empty are kept |
| AiParser.TextBlocksAppend | lib/aiParser.ts:14-18 | the filter works block by block, so the kept blocks stay in header order |
| AiParser.TextBlocksSingle | lib/aiParser.ts:18 | one block is kept exactly when the text after its header is non-empty |
| AiParser.BlockActivity | lib/aiParser.ts:20-38 | the activity of a block has the day's number, the whole day text and the cleaned body as name; it has times exactly when some index of its header holds a `(start-end)` of time tokens, and then they are the captures of the leftmost one |
| AiParser.ParseDay | lib/aiParser.ts:14-39 | every activity of a day is segmented from that day's text, with its number |
| AiParser.ParseDayBlocks | lib/aiParser.ts:14-39 | a day's activities are what the header loop emits: one per block whose text is non-empty, in header order, each built from its own block |
| AiParser.ActivitiesOfTextBlocks | lib/aiParser.ts:14-39 | an activity for each kept block is the loop that skips the blocks with empty text |
| AiParser.NoHeaderNoActivity | lib/aiParser.ts:10-18 | a day text with no header yields no activity |
| AiParser.ParseItinerary | lib/aiParser.ts:3-42 | no days give no activities; every activity's day number is its day's 1-based position, its raw text is that whole day's text, and day numbers never decrease |
| AiParser.ParseItineraryDay | lib/aiParser.ts:6-7 | the activities of day `d` in the output are exactly those segmented from the `d`-th day text, in order |
| CleanName.StripLeading | lib/enrichActivities.ts:16-31 | the result is a suffix of the text; it is shorter exactly when an alternative with its tail matches at index 0, and then the part removed ends where the tail of the first such alternative ends, with no white space left at the start |
| CleanName.AltAtFirst | lib/enrichActivities.ts:16-31 | the alternation tries its words in the order written: a match is that of the first alternative whose tail matches |
| CleanName.DropVerb | lib/enrichActivities.ts:16-19 | exactly when a verb and white space start the text, the first matching verb and all the white space after it are removed, and nothing else |
| CleanName.DropMeal | lib/enrichActivities.ts:22-25 | exactly when a meal word, white space, `at` or `in` and white space start the text, that whole phrase of the first matching meal word is removed, and nothing else |
| CleanName.DropTravel | lib/enrichActivities.ts:28-31 | exactly when a travel phrase and white space start the text, the first matching phrase and all the white space after it are removed, and nothing else |
| CleanName.DropTimeBlocks | lib/enrichActivities.ts:10-13 | the result is the text with each time-block match of the leftmost split cut out and all text between matches kept, in order |
| CleanName.TimeHeaders | lib/enrichActivities.ts:10-13 | the time-block matches are the leftmost split of the text on that expression |
| CleanName.NoParenKeepsTimeBlocks | lib/enrichActivities.ts:10-13 | a text without `(` holds no time block, so the step keeps it whole |
| CleanName.DropFillers | lib/enrichActivities.ts:34-37 | the result is the text with each filler-word match of the leftmost split cut out and all text between matches kept, in order |
| CleanName.FillerWords | lib/enrichActivities.ts:34-37 | the filler-word matches are the leftmost split of the text on that expression |
| CleanName.NoFillerKept | lib/enrichActivities.ts:34-37 | a text with no filler word at any index is kept whole |
| CleanName.DropAsides | lib/enrichActivities.ts:43 | the result is the text with each parenthesised aside of the leftmost split cut out, then trimmed |
| CleanName.Asides | lib/enrichActivities.ts:43 | the aside matches are the leftmost split of the text on that expression |
| CleanName.NoParenKeepsAsides | lib/enrichActivities.ts:43 | a trimmed text without `(` is kept whole |
| CleanName.Collapse | lib/enrichActivities.ts:46 | each run of two or more white-space characters of the leftmost split becomes one space and the result is trimmed; it never has two white-space characters in a row and keeps the non-space characters, in order |
| CleanName.SpaceRuns | lib/enrichActivities.ts:46 | the white-space runs replaced are the leftmost split of the text on that expression |
| CleanName.CollapseNonSpace | lib/enrichActivities.ts:46 | replacing white-space runs by a space keeps the non-space characters, in order |
| CleanName.CollapsedKept | lib/enrichActivities.ts:46 | a trimmed text without doubled white space is kept whole |
| CleanName.FirstPlace | lib/enrichActivities.ts:51-57 | the result is the whole text or a start of it that ` and ` or ` then ` follows; it holds neither separator and stays trimmed and single-spaced |
| CleanName.SingleClauseKept | lib/enrichActivities.ts:51-57 | a text without ` and ` and ` then ` is kept whole |
| CleanName.Prepared | lib/enrichActivities.ts:5-57 | the text before the quoted-name step has no dot, no surrounding or doubled white space, and neither ` and ` nor ` then ` |
| CleanName.FindQuote | lib/enrichActivities.ts:60 | the match found is the leftmost non-empty double-quoted text; none means there is none |
| CleanName.PreferQuoted | lib/enrichActivities.ts:60-64 | without a quoted name the text is kept; otherwise the result is the leftmost quoted text, trimmed, which is a part of the text and free of `"` |
| CleanName.CleanPlaceName | lib/enrichActivities.ts:4-65 | the empty name stays empty; otherwise the result is a part of the rewritten text without dot, surrounding or doubled white space, ` and ` or ` then ` |
| CleanName.QuotedNameWins | lib/enrichActivities.ts:59-63 | when the rewritten text holds a quoted name, the result is exactly the leftmost one, trimmed |
| CleanName.CleanPlainName | lib/enrichActivities.ts:4-65 | a name that is already a bare place name comes back unchanged |
| Enrich.Query | lib/enrichActivities.ts:100-102 | the query starts with the text; it is longer exactly when the destination is non-empty, and then ends with a space and the destination |
| Enrich.QueryInjective | lib/enrichActivities.ts:100-102 | different texts give different queries under the same destination |
| Enrich.QueryEndsWithDestination | lib/enrichActivities.ts:100-102 | a query with a destination ends with a space and the destination |
| Enrich.FirstWord | lib/enrichActivities.ts:122 | the first word is the part of the cleaned name before its first space, or the whole name when it has no space |
| Enrich.EnrichOne | lib/enrichActivities.ts:74-97 | a logistics activity is pushed unchanged with no search; any other activity goes through `SearchCleaned` with its cleaned name; day, text and times are always kept |
| Enrich.SearchCleaned | lib/enrichActivities.ts:94-151 | no search for a cleaned name under 3 UTF-16 code units; otherwise the cleaned-name query, a hit on which supplies the place and ends the searches; after a miss, the first-word query exactly when that word is longer than 3 code units, a hit on which supplies the place; otherwise the activity is pushed unchanged |
| Enrich.EnrichAll | lib/enrichActivities.ts:74-152 | one step per activity, in order |
| Enrich.EnrichActivities | lib/enrichActivities.ts:67-155 | one activity out per activity in, in order, each keeping its day number, raw text and times |
| Enrich.SearchBudget | lib/enrichActivities.ts:106-131 | a run searches at most twice per activity |
| Enrich.NothingFound | lib/enrichActivities.ts:120-150 | when every search misses, the activities come back unchanged |
| Enrich.PlaceFieldsKept | lib/enrichActivities.ts:111-118 | address, coordinates and place id are set together, from one search result |
| Enrich.EnrichQueries | lib/enrichActivities.ts:99-131 | an activity's queries are its cleaned name, then its first word, each with the destination when there is one |
| Enrich.QueriesEndWithDestination | lib/enrichActivities.ts:100-127 | with a destination every query ends with a space and the destination |
| Enrich.QueriesArePartsOfName | lib/enrichActivities.ts:100-127 | without a destination every query is a part of the cleaned name |
| Enrich.SingleWordRetriesSameQuery | lib/enrichActivities.ts:120-131 | a cleaned name of one word longer than 3 UTF-16 code units is, after a miss, searched again with the same query |
| Itinerary.GroupByDay | lib/itineraryService.ts:36-40 | a group exists exactly for each day number that occurs, and no group is empty |
| Activity.OfDay | lib/itineraryService.ts:36-40 | the activities kept are exactly those of the day, none added |
| Itinerary.GroupIsOfDay | lib/itineraryService.ts:36-40 | each group holds exactly that day's activities, in input order |
| Itinerary.FirstAppearance | lib/itineraryService.ts:36-40 | the day numbers in the order they first occur, each once |
| Itinerary.FirstAppearanceOrder | lib/itineraryService.ts:36-40 | the day numbers come in the order of their first activity |
| Itinerary.SortAscending | lib/itineraryService.ts:44 | the result is strictly increasing and holds the same keys |
| Itinerary.Keys | lib/itineraryService.ts:44 | each occurring day number appears once, and array-index keys come first in ascending order |
| Itinerary.KeysInsertionOrder | lib/itineraryService.ts:44 | keys that are not array indices follow in the order of their first activity, that is, insertion order |
| Itinerary.KeyOrder | lib/itineraryService.ts:44 | ordering distinct keys keeps each once, and puts array indices first in ascending order |
| Itinerary.KeyOrderOthers | lib/itineraryService.ts:44 | ordering keeps the keys that are not array indices in their given order |
| Itinerary.KeysAscending | lib/itineraryService.ts:44 | when every day number is an array index, the keys are in ascending order |
| Itinerary.RowKeepsActivity | lib/itineraryService.ts:68-77 | a row keeps the activity's name as title and location name, its raw text as description, and its coordinates and times; reading it back gives the activity without address and place id |
| Itinerary.Rows | lib/itineraryService.ts:68-77 | one row per activity, in order; each row read back gives its activity without address and place id, and its location name is the activity's name |
| Itinerary.DayDate | lib/itineraryService.ts:47-49 | day `n` is dated `n - 1` days after the start date |
| Itinerary.PlanDays | lib/itineraryService.ts:44-77 | the save fails with `Invalid time value` exactly when some day's date is outside the JavaScript date range; otherwise each key gets its rows and its formatted date, in key order |
| Itinerary.PlanRows | lib/itineraryService.ts:68-77 | each day's rows are the rows of that day's activities, and never empty |
| Itinerary.PlanSave | lib/itineraryService.ts:35-86 | no activities save nothing; an unreadable start date fails exactly when there are activities; a readable one succeeds exactly when every day's date stays within what a `Date` holds; on success one day per key with that day's rows |
| Itinerary.SaveSucceeds | lib/itineraryService.ts:35-86 | a readable start date with day numbers from 1 to at most a million always saves |
| Itinerary.PlanDates | lib/itineraryService.ts:47-51 | each saved day's date is the start date moved by its day number minus one, formatted |
| Itinerary.SaveRowCount | lib/itineraryService.ts:67-83 | the rows of all days together number exactly the activities |
| Itinerary.SaveDaysAscending | lib/itineraryService.ts:44-61 | the days are saved in strictly ascending day order, one for each day number that occurs and no other |
| Itinerary.SaveDatesDistinct | lib/itineraryService.ts:47-61 | no two saved days share a date |
| Itinerary.StoredRowsOfDay | lib/itineraryService.ts:79-85 | among all inserted rows, those tagged with a day's id are exactly that day's rows, when the ids are distinct |
| Itinerary.ForDay | lib/itineraryService.ts:126 | exactly the stored activities with that day id are kept |
| Itinerary.LoadItinerary | lib/itineraryService.ts:110-127 | no days load nothing; every day is kept in order with exactly the fetched activities carrying its id, in fetched order, or none when the activity query returned nothing |
| Itinerary.SaveLoadRoundTrip | lib/itineraryService.ts:53-127 | when the rows come back in insertion order, loading what the save inserted, under distinct day ids, gives back every day with exactly its own rows, in order |
| Itinerary.SaveLoadAnyOrder | lib/itineraryService.ts:53-127 | with the days and the rows fetched in any order, as `order("start_time")` returns them, each loaded day holds exactly the rows planned for it, each as often as planned |
| Calendar.NextPrev | lib/itineraryService.ts:49 | the next and previous day are inverse |
| Calendar.AddDays | lib/itineraryService.ts:49 | moving a valid date by any number of days gives a valid date |
| Calendar.OrdinalAdd | lib/itineraryService.ts:49 | moving by `n` days moves the day's serial number by `n` |
| Calendar.AddDaysAdd | lib/itineraryService.ts:49 | moving by `m` and then by `n` days is moving by `m + n` days |
| Calendar.AddDaysInjective | lib/itineraryService.ts:48-49 | different offsets from one date give different dates |
| Calendar.ParseFormat | lib/itineraryService.ts:48-51 | a date of years 0 to 9999 formatted as `YYYY-MM-DD` reads back as itself |
| Calendar.FormatParse | lib/itineraryService.ts:48-51 | a readable `YYYY-MM-DD` text is what formatting its date writes |
| Calendar.FormatInjective | lib/itineraryService.ts:51 | different dates are formatted differently |
| Calendar.ParseDate | lib/itineraryService.ts:48 | a date read from text is a real calendar date of years 0 to 9999 |
| Calendar.FormatDate | lib/itineraryService.ts:51 | a date of years 0 to 9999 is written as ten characters with dashes at positions 4 and 7 |
| Onboarding.InitialForm | components/OnboardingSwiper.tsx:21-25 | the swiper opens with the name and avatar it was given and no date of birth |
| Onboarding.InitialFormNeedsDob | components/OnboardingSwiper.tsx:21-65 | the opening form cannot pass the date-of-birth step: it has no date |
| Onboarding.ValidateStep | components/OnboardingSwiper.tsx:53-76 | step 1 passes exactly with a non-blank name; step 2 passes exactly with a `MM-DD-YYYY` date; every other step passes |
| Onboarding.DobFormatNotBlank | components/OnboardingSwiper.tsx:61-72 | a date in the expected format is never blank, so only the format check decides step 2 |
| Onboarding.Next | components/OnboardingSwiper.tsx:78-87 | Next is refused exactly when the step's check fails; otherwise it moves one step on, or completes on the last step |
| Onboarding.Previous | components/OnboardingSwiper.tsx:89-93 | Previous goes back one step, and does nothing on the first |
| Onboarding.Apply | components/OnboardingSwiper.tsx:35-93 | every event keeps the step within 0 to 4, and a step change leaves the form as it was |
| Onboarding.Run | components/OnboardingSwiper.tsx:78-93 | any series of Next and Previous presses keeps the step within 0 to 4 |
| Onboarding.RunKeepsPassed | components/OnboardingSwiper.tsx:53-93 | after any series of events, every step passed was passed with a valid field |
| Onboarding.CompletionHasValidForm | components/OnboardingSwiper.tsx:78-87 | onboarding completes only with a non-blank name and a `MM-DD-YYYY` date |
| Onboarding.ReformatDob | components/OnboardingSwiper.tsx:99-100 | a `MM-DD-YYYY` date becomes `YYYY-MM-DD` from the same fields; a date without `-` prints `undefined` for the missing pieces |
| Onboarding.DobPieces | components/OnboardingSwiper.tsx:99 | a date in the expected format splits into month, day and year |
| Onboarding.ReformatRoundTrip | components/OnboardingSwiper.tsx:99-100 | reading the rewritten date back in `MM-DD-YYYY` order gives the typed text |
| Onboarding.CompleteProfile | components/OnboardingSwiper.tsx:95-129 | the profile keeps the name, stores the rewritten date, and changes the avatar only to the uploaded URL of a `file://` image |
| Onboarding.RemoteAvatarKept | components/OnboardingSwiper.tsx:103-104 | an `https://` avatar is kept as it is |
| CreateTrip.SetField | app/screens/createTrip.tsx:27-29 | the named field takes the value and every other field keeps its own |
| CreateTrip.SetFieldTwice | app/screens/createTrip.tsx:27-29 | writing a field's own value changes nothing; the second of two writes wins |
| CreateTrip.MemberSet | app/screens/createTrip.tsx:36-37 | the member's named field takes the value and its other fields keep theirs |
| CreateTrip.ChangeMember | app/screens/createTrip.tsx:31-40 | the copied list, holes read as `undefined`, with the member at the index, or a blank one when the slot is not a member, given the field; an index past the end pads the copy with holes; a negative index only copies |
| CreateTrip.ChangeOnlyField | app/screens/createTrip.tsx:31-40 | editing a listed member changes only that field of that member; every other slot is copied, holes becoming `undefined`, and kept as is in a list without holes |
| CreateTrip.ChangeAtEndAppends | app/screens/createTrip.tsx:31-40 | editing one past the last slot appends a member holding just that field to the copy, and to the list itself when it has no holes |
| CreateTrip.Spread | app/screens/createTrip.tsx:33 | `[...prev]` keeps the length and every element, except that each hole becomes `undefined`, so the copy has no holes |
| CreateTrip.SpreadNoHoles | app/screens/createTrip.tsx:33 | copying a list without holes with `[...prev]` gives the same list |
| CreateTrip.AddMember | app/screens/createTrip.tsx:42-44 | one blank member is appended to the copy, holes becoming `undefined`; a list without holes is kept in front of it |
| CreateTrip.RemoveMember | app/screens/createTrip.tsx:46-48 | the result has no holes and only slots of the list, `undefined` ones included; on a list without holes the element at the index is removed and the rest kept in order, and an index out of range changes nothing |
| CreateTrip.AddThenRemove | app/screens/createTrip.tsx:42-48 | on a list without holes, adding a member and removing it again gives back the list |
| CreateTrip.ValidMembers | app/screens/createTrip.tsx:88 | throws exactly when an `undefined` slot is present; otherwise only present members with a name and an email are kept |
| CreateTrip.ValidMembersAppend | app/screens/createTrip.tsx:88 | the filter works piece by piece, so it keeps the order, and throws when either piece would |
| CreateTrip.ValidMembersComplete | app/screens/createTrip.tsx:88 | unless the filter throws, every member with a name and an email is kept |
| CreateTrip.HoleBecomesUndefined | app/screens/createTrip.tsx:31-48 | editing slot 1 of an empty list twice gives `[undefined, member]`; removing a later member keeps the `undefined`; the member filter throws on it |
| CreateTrip.AllValidKept | app/screens/createTrip.tsx:88 | a list of valid members is kept whole |
| CreateTrip.CreateTrip | app/screens/createTrip.tsx:65-100 | refused exactly when no user is signed in or a field is empty, with the right message; otherwise the trip is inserted, and the screen fails with `Failed to create trip` exactly when the member list holds `undefined`; else members are submitted exactly when some are valid and the trip insert returned a row |
| CreateTrip.SubmittedMembersValid | app/screens/createTrip.tsx:88-90 | only valid members are ever submitted |
| AiPlanner.Without | app/screens/aiPlannerScreen.tsx:32 | every occurrence of the value is removed and nothing else |
| AiPlanner.WithoutAppend | app/screens/aiPlannerScreen.tsx:32 | removal works piece by piece, so the others keep their order |
| AiPlanner.Toggle | app/screens/aiPlannerScreen.tsx:30-36 | toggling flips whether the value is selected, touches no other value, and appends an absent value at the end |
| AiPlanner.ToggleTwiceAbsent | app/screens/aiPlannerScreen.tsx:30-36 | toggling an absent value twice gives back the list |
| AiPlanner.ToggleTwicePresent | app/screens/aiPlannerScreen.tsx:30-36 | toggling a present value twice moves it to the end, once |
| AiPlanner.CustomInterests | app/screens/aiPlannerScreen.tsx:148-151 | every custom interest is non-empty, trimmed and free of commas |
| AiPlanner.CustomInterestsJoin | app/screens/aiPlannerScreen.tsx:148-151 | comma-joined trimmed interests are read back exactly |
| AiPlanner.CustomInterestsSingle | app/screens/aiPlannerScreen.tsx:148-151 | a text without a comma is one trimmed interest, or none when blank |
| AiPlanner.TrimAll | app/screens/aiPlannerScreen.tsx:150 | each piece becomes the piece without its surrounding white space: trimmed, found in the piece just after the leading white space with only white space after it, and empty exactly for a blank piece |
| AiPlanner.TrimAllTwice | app/screens/aiPlannerScreen.tsx:150 | trimming twice is trimming once |
| AiPlanner.NonEmpty | app/screens/aiPlannerScreen.tsx:151 | exactly the non-empty pieces are kept, and a list without empty pieces is kept whole |
| AiPlanner.NonEmptyAppend | app/screens/aiPlannerScreen.tsx:151 | the filter works piece by piece, so the kept pieces stay in order |
| AiPlanner.NonEmptySingle | app/screens/aiPlannerScreen.tsx:151 | one piece is kept exactly when it is non-empty |
| AiPlanner.TrimAllKeeps | app/screens/aiPlannerScreen.tsx:150 | trimming already-trimmed pieces changes nothing |
| AiPlanner.FinalInterests | app/screens/aiPlannerScreen.tsx:153 | the selected interests come first, then the custom ones, in order |
| AiPlanner.Generate | app/screens/aiPlannerScreen.tsx:165-179 | an AI answer without activities saves nothing |
| AiPlanner.GenerateSucceeds | app/screens/aiPlannerScreen.tsx:165-179 | with a readable start date, a generate over at most a million AI days saves |
| AiPlanner.SaveEnrichedDays | app/screens/aiPlannerScreen.tsx:169-179 | saving activities enriched from parsed ones gives ascending days within the parsed day range |
| AiPlanner.SaveEnrichedRows | app/screens/aiPlannerScreen.tsx:169-179 | saving enriched activities gives each day as many rows as it had parsed activities |
| AiPlanner.GenerateDays | app/screens/aiPlannerScreen.tsx:165-179 | a successful generate saves days in strictly ascending order, each numbered within the AI's days |
| AiPlanner.GenerateRows | app/screens/aiPlannerScreen.tsx:165-179 | each saved day has as many rows as the parser found that day, and there is one row per parsed activity |
| JsText.Trim | lib/aiParser.ts:30 | the result is trimmed, sits right after the leading white space, has only white space after it, and is empty exactly for an all-white-space text |
| JsText.TrimTrimmed | lib/aiParser.ts:30 | a trimmed text is kept whole |
| JsText.Split | app/screens/aiPlannerScreen.tsx:149 | the pieces hold no separator and joined with it give back the text |
| JsText.SplitUnique | app/screens/aiPlannerScreen.tsx:149 | separator-free pieces joining to the text are its split |
| JsText.BeforeFirst | lib/enrichActivities.ts:51-57 | the part before the first separator, or the text itself when the separator does not occur |
| JsText.ReplaceChar | lib/aiParser.ts:28 | the replaced character is gone, each of its places holds the replacement, and every other character keeps its place; the title's newlines and the place name's dots are replaced this way |
| JsText.ReplaceCharAbsent | lib/enrichActivities.ts:40 | a text without the replaced character is kept whole |
| JsText.ToLower | lib/enrichActivities.ts:76 | the result has no ASCII capital: each capital becomes its lower-case letter in place and every other character is kept |
| JsText.ToLowerIdempotent | lib/enrichActivities.ts:76 | lower-casing twice is lower-casing once |
| JsText.ToLowerNoCapitals | lib/enrichActivities.ts:76 | a text without ASCII capitals is kept whole |
| JsText.Utf16Length | lib/enrichActivities.ts:94 | `.length` counts UTF-16 code units: between one and two per character, one per character for text in the basic plane, and for a single character one inside the basic plane and two outside it |
| JsText.Utf16LengthAppend | lib/enrichActivities.ts:94 | the code units of a concatenation add up |
| JsText.NonSpaceTrim | lib/aiParser.ts:30 | trimming removes white space only |
| Scan.SplitIsSplit | lib/aiParser.ts:10-12 | scanning gives a chain of blocks from each leftmost match to the next |
| Scan.SplitUnique | lib/aiParser.ts:10-12 | that chain is the only one |
| Scan.Split | lib/aiParser.ts:14 | every block of the split lies inside the text |
| Scan.ReplaceAll | lib/enrichActivities.ts:10-13 | a global replace keeps the text before the first match and puts the replacement in place of each match of the leftmost split, keeping the text between matches |
| Scan.ReplaceFromChain | lib/enrichActivities.ts:10-13 | from a match on, replacing gives the replacement and the text after each match of the chain that match opens |
| Scan.ReplaceAllNoMatch | lib/enrichActivities.ts:10-13 | a global replace with no match keeps the text |

## Left out

- The AI call (`generateTripPlan`) is left out. Its day texts are the pipeline's input.
- The place search's HTTP request is left out. The search is a parameter returning the first result or `None`.
- A result missing `formatted_address` is not modelled: the model's `Place` always holds an address.
- Every Supabase call is left out:
  - the deletion of the previous itinerary;
  - the inserts, and the error thrown when one fails;
  - the auth user lookup;
  - the image upload and public URL;
  - the profile update.
  The values they return are parameters.
- The ordering of loaded days by `day_date`, and of activities by `start_time`, is the database's. The fetched order is an input. Itinerary.SaveLoadAnyOrder covers every order. Itinerary.SaveLoadRoundTrip covers only rows fetched in insertion order, which the `start_time` ordering does not in general produce (`"10:00"` sorts before `"9:00"`).
- `new Date(startDate)` is modelled only for `YYYY-MM-DD` with years 0 to 9999. Any other text is treated as an invalid date. This includes text in that form that names no real day, such as `2024-02-30`. ECMAScript leaves such text to the engine, and some engines roll it over to the next month (here, 1 March).
- The local time zone of `setDate` is not modelled: a day is one calendar day, as on a UTC clock. `new Date("YYYY-MM-DD")` is UTC midnight, but `setDate` moves it in local time and `toISOString` reads it back in UTC. So across a daylight-saving change, two days can get the same date. In America/New_York with start `2024-03-05`, days 6 and 7 would both be `2024-03-10`. Itinerary.SaveDatesDistinct and Itinerary.PlanDates therefore hold only when the device clock is on UTC.
- `Number(budget)`, alerts, loading flags, navigation and logging are left out.
- The Skip button (`router.replace`) and `handleDateChange` (a picker's `Date` written with `toISOString`) are left out.
- `handleMemberChange` writes into the previous state's member object. The model is functional, so that aliasing is not modelled.
- Rendering the member list is not modelled. `members.map` reads `member.name` on an `undefined` element too, so a list holding one would also fail to render.
- Enrich.IsLogistics: `toLowerCase` is ASCII lower-casing. Unicode full case mapping, where a character outside ASCII can lower-case to an ASCII letter, is not modelled.
- The sequential `await`s are modelled as a left-to-right fold.
- Enrich.SearchCleaned: the search is a pure function, so a retry with the same query gets the same answer. The real search answers `null` on a transient fetch error as well, and a second call with the same query may then find the place; the model does not cover that.
- Place coordinates are carried as reals and never computed on. The floating-point value of a JavaScript number is not modelled.

=== FILE: activity.dfy ===
/** The records passed between the itinerary pipeline's stages (types/activity.ts). */
module Activity {
  import opened Wrappers

  /** The first result of a place text search: the fields the enricher copies. */
  datatype Place = Place(name: string, address: string, lat: real, lng: real, placeId: string)

  /**
   * An activity extracted from AI itinerary text. `dayNumber` is the
   * 1-based day it belongs to, `rawText` the whole day text it came from;
   * the place fields are filled by the enricher, the times by the parser.
   * Coordinates are only passed through, never computed on.
   */
  datatype ParsedActivity = ParsedActivity(
    dayNumber: int,
    name: string,
    rawText: string,
    address: Option<string>,
    latitude: Option<real>,
    longitude: Option<real>,
    placeId: Option<string>,
    startTime: Option<string>,
    endTime: Option<string>)

  /** `{ ...act, name, address, latitude, longitude, place_id }` from one search result. */
  function WithPlace(a: ParsedActivity, p: Place): ParsedActivity {
    a.(name := p.name, address := Some(p.address), latitude := Some(p.lat),
       longitude := Some(p.lng), placeId := Some(p.placeId))
  }

  /** The place fields are written together or not at all. */
  predicate PlaceFieldsTogether(a: ParsedActivity) {
    && (a.latitude.Some? <==> a.placeId.Some?)
    && (a.longitude.Some? <==> a.placeId.Some?)
    && (a.address.Some? <==> a.placeId.Some?)
  }

  /** Only the fields the enricher may overwrite differ between `a` and `b`. */
  predicate SameOrigin(a: ParsedActivity, b: ParsedActivity) {
    && a.dayNumber == b.dayNumber
    && a.rawText == b.rawText
    && a.startTime == b.startTime
    && a.endTime == b.endTime
  }

  /** The activities of one day, in order. */
  function OfDay(acts: seq<ParsedActivity>, d: int): (r: seq<ParsedActivity>)
    ensures forall a :: a in r ==> a in acts && a.dayNumber == d
    ensures forall a :: a in acts && a.dayNumber == d ==> a in r
    ensures |r| <= |acts|
  {
    if |acts| == 0 then []
    else
      var front := OfDay(acts[..|acts| - 1], d);
      var a := acts[|acts| - 1];
      assert acts == acts[..|acts| - 1] + [a];
      if a.dayNumber == d then front + [a] else front
  }

  lemma {:induction false} OfDayAppend(xs: seq<ParsedActivity>, ys: seq<ParsedActivity>, d: int)
    ensures OfDay(xs + ys, d) == OfDay(xs, d) + OfDay(ys, d)
    decreases |ys|
  {
    if |ys| == 0 {
      assert xs + ys == xs;
    } else {
      var ys' := ys[..|ys| - 1];
      assert (xs + ys)[..|xs + ys| - 1] == xs + ys';
      OfDayAppend(xs, ys', d);
    }
  }

  lemma {:induction false} OfDayAll(xs: seq<ParsedActivity>, d: int)
    requires forall a :: a in xs ==> a.dayNumber == d
    ensures OfDay(xs, d) == xs
    decreases |xs|
  {
    if |xs| > 0 {
      OfDayAll(xs[..|xs| - 1], d);
      assert xs == xs[..|xs| - 1] + [xs[|xs| - 1]];
    }
  }

  lemma {:induction false} OfDayNone(xs: seq<ParsedActivity>, d: int)
    requires forall a :: a in xs ==> a.dayNumber != d
    ensures OfDay(xs, d) == []
    decreases |xs|
  {
    if |xs| > 0 {
      OfDayNone(xs[..|xs| - 1], d);
    }
  }

  /** Sequences with the same day numbers, position by position, have days of the same sizes. */
  lemma {:induction false} OfDaySameDays(xs: seq<ParsedActivity>, ys: seq<ParsedActivity>, d: int)
    requires |xs| == |ys|
    requires forall i :: 0 <= i < |xs| ==> xs[i].dayNumber == ys[i].dayNumber
    ensures |OfDay(xs, d)| == |OfDay(ys, d)|
    decreases |xs|
  {
    if |xs| > 0 {
      OfDaySameDays(xs[..|xs| - 1], ys[..|ys| - 1], d);
    }
  }
}

=== FILE: aiparser.dfy ===
/**
 * The segmenter (lib/aiParser.ts): each day text of an AI itinerary is split
 * on `Morning (…):`, `Afternoon (…):` and `Evening (…):` headers, and every
 * header followed by non-empty text becomes one activity of that day.
 *
 * The regular expression `/(Morning\s*\(.*?\):|Afternoon\s*\(.*?\):|Evening\s*\(.*?\):)/g`
 * is modelled by the recogniser `HeaderAt`, and `String.prototype.split`
 * with it by `Blocks`: one block per header, holding the header's span and
 * the span of the text up to the next header (or the end of the day).
 */
module AiParser {
  import opened Wrappers
  import opened JsText
  import opened Activity
  import Scan
  type Block = Scan.Block

  /** The period words, matched case-sensitively. */
  const Periods: seq<string> := ["Morning", "Afternoon", "Evening"]

  /** `):` starts at `k`, and nowhere in `[from, k)`, where no line terminator occurs either. */
  predicate IsFirstClose(s: string, from: nat, k: nat) {
    && from <= k && k + 1 < |s| && s[k] == ')' && s[k + 1] == ':'
    && forall i :: from <= i < k ==> !IsLineTerminator(s[i]) && !(s[i] == ')' && s[i + 1] == ':')
  }

  /**
   * The lazy `.*?\):` tail of a header, scanning from `from`: the first index
   * at which `):` starts, provided no line terminator comes before it.
   */
  function CloseAt(s: string, from: nat): (r: Option<nat>)
    requires from <= |s|
    ensures r.Some? ==> IsFirstClose(s, from, r.value)
    ensures r.None? ==> forall k :: !IsFirstClose(s, from, k)
    decreases |s| - from
  {
    if from + 1 < |s| && s[from] == ')' && s[from + 1] == ':' then Some(from)
    else if from < |s| && !IsLineTerminator(s[from]) then
      var r := CloseAt(s, from + 1);
      assert forall k :: IsFirstClose(s, from, k) ==> IsFirstClose(s, from + 1, k);
      r
    else None
  }

  /** One of the period words, `n` characters long, starts at `q`. */
  predicate PeriodWordAt(s: string, q: nat, n: nat)
    requires q <= |s|
  {
    exists w :: w in Periods && |w| == n && StartsWith(s[q..], w)
  }

  /** The length of the period word starting at `q`, or 0 when none does. */
  function PeriodLength(s: string, q: nat): (n: nat)
    requires q <= |s|
    ensures n == 0 || PeriodWordAt(s, q, n)
    ensures n > 0 ==> q + n <= |s|
  {
    if StartsWith(s[q..], Periods[0]) then |Periods[0]|
    else if StartsWith(s[q..], Periods[1]) then |Periods[1]|
    else if StartsWith(s[q..], Periods[2]) then |Periods[2]|
    else 0
  }

  /**
   * The header regular expression matched at index `q`: a period word,
   * white space, `(`, any text without a line terminator, and the first
   * `):` after it. The result is the index just past the header.
   */
  function HeaderAt(s: string, q: nat): (r: Option<nat>)
    ensures r.Some? ==> q + 2 <= r.value <= |s|
    ensures r.Some? ==> s[r.value - 2] == ')' && s[r.value - 1] == ':'
    ensures r.Some? ==> PeriodLength(s, q) > 0 && PeriodWordAt(s, q, PeriodLength(s, q))
    ensures r.Some? ==> HeaderOpen(s, q + PeriodLength(s, q), r.value)
  {
    if q >= |s| then None
    else
      var n := PeriodLength(s, q);
      if n == 0 then None else HeaderAfter(s, q + n)
  }

  /** The part of a header after its period word, which ends at `p`. */
  function HeaderAfter(s: string, p: nat): (r: Option<nat>)
    requires p <= |s|
    ensures r.Some? ==> p + 2 <= r.value <= |s|
    ensures r.Some? ==> s[r.value - 2] == ')' && s[r.value - 1] == ':'
    ensures r.Some? ==> HeaderOpen(s, p, r.value)
  {
    var j := SpaceRunEnd(s, p);
    if j < |s| && s[j] == '(' then
      match CloseAt(s, j + 1)
      case Some(k) =>
        HeaderOpenAt(s, p, j, k);
        Some(k + 2)
      case None => None
    else None
  }

  /** The witness for `HeaderOpen`: white space from `p` up to a `(` at `j`, and the first `):` at `k`. */
  lemma {:induction false} HeaderOpenAt(s: string, p: nat, j: nat, k: nat)
    requires p <= j < |s| && s[j] == '('
    requires forall i :: p <= i < j ==> IsSpace(s[i])
    requires IsFirstClose(s, j + 1, k)
    ensures HeaderOpen(s, p, k + 2)
  {
    assert AllSpace(s[p..j]) by {
      forall i | 0 <= i < j - p ensures IsSpace(s[p..j][i]) {
        assert s[p..j][i] == s[p + i];
      }
    }
  }

  /**
   * After the period word ending at `p`: white space up to a `(` at some
   * `j`, then the first `):` after it, which ends at `e`.
   */
  predicate HeaderOpen(s: string, p: nat, e: nat) {
    exists j :: p <= j < |s| && s[j] == '(' && AllSpace(s[p..j]) && e >= 2 && IsFirstClose(s, j + 1, e - 2)
  }

  /**
   * The header recogniser is complete: a period word, white space, `(`, and
   * a first `):` with no line terminator before it form a header.
   */
  lemma {:induction false} HeaderAtComplete(s: string, q: nat, w: string, j: nat, k: nat)
    requires w in Periods && OccursAt(w, s, q)
    requires q + |w| <= j < |s| && s[j] == '(' && AllSpace(s[q + |w|..j])
    requires IsFirstClose(s, j + 1, k)
    ensures HeaderAt(s, q) == Some(k + 2)
  {
    PeriodLengthOf(s, q, w);
    assert q < |s| by { assert |w| > 0; }
    HeaderAfterComplete(s, q + |w|, j, k);
  }

  /** The part after the period word is recognised whenever it is there. */
  lemma {:induction false} HeaderAfterComplete(s: string, p: nat, j: nat, k: nat)
    requires p <= j < |s| && s[j] == '(' && AllSpace(s[p..j])
    requires IsFirstClose(s, j + 1, k)
    ensures HeaderAfter(s, p) == Some(k + 2)
  {
    SpaceRunEndAt(s, p, j);
    CloseAtFirst(s, j + 1, k);
  }

  /** The period word at `q` is recognised whole: no period word is a prefix of another. */
  lemma {:induction false} PeriodLengthOf(s: string, q: nat, w: string)
    requires w in Periods && OccursAt(w, s, q)
    ensures PeriodLength(s, q) == |w|
  {
    assert s[q..][..|w|] == s[q..q + |w|];
    assert s[q] == w[0];
  }

  /** A run of white space followed by a character that is not white space ends at that character. */
  lemma {:induction false} SpaceRunEndAt(s: string, p: nat, j: nat)
    requires p <= j < |s| && AllSpace(s[p..j]) && !IsSpace(s[j])
    ensures SpaceRunEnd(s, p) == j
  {
    forall i | p <= i < j ensures IsSpace(s[i]) {
      assert s[p..j][i - p] == s[i];
    }
  }

  /** `CloseAt` finds the first `):`. */
  lemma {:induction false} CloseAtFirst(s: string, from: nat, k: nat)
    requires from <= |s| && IsFirstClose(s, from, k)
    ensures CloseAt(s, from) == Some(k)
  {
    var r := CloseAt(s, from);
    assert r.Some?;
    assert IsFirstClose(s, from, r.value);
  }

  /** The header recogniser run over `s`. */
  function HeaderMatcher(s: string): Scan.Matcher {
    q => HeaderAt(s, q)
  }

  lemma {:induction false} HeaderMatcherSound(s: string)
    ensures Scan.Sound(HeaderMatcher(s), |s|)
  {
  }

  /** `s` holds no header at all. */
  predicate NoHeader(s: string) {
    forall q :: 0 <= q < |s| ==> HeaderAt(s, q).None?
  }

  /**
   * `dayText.split(headerRegex)` read as header/text pairs: each block is a
   * header and the text up to the next header; the text before the first
   * header is dropped. `Scan.IsSplit` and `Scan.SplitUnique` characterise it.
   */
  function Blocks(s: string): (bs: seq<Block>)
    ensures forall i :: 0 <= i < |bs| ==> Scan.InBounds(|s|, bs[i])
  {
    HeaderMatcherSound(s);
    Scan.Split(HeaderMatcher(s), |s|)
  }

  /** The blocks of `s` split it on headers, and they are the only such split. */
  lemma {:induction false} BlocksAreTheSplit(s: string, bs: seq<Block>)
    ensures Scan.IsSplit(HeaderMatcher(s), |s|, Blocks(s))
    ensures Scan.IsSplit(HeaderMatcher(s), |s|, bs) ==> bs == Blocks(s)
  {
    HeaderMatcherSound(s);
    Scan.SplitIsSplit(HeaderMatcher(s), |s|);
    if Scan.IsSplit(HeaderMatcher(s), |s|, bs) {
      Scan.SplitUnique(HeaderMatcher(s), |s|, bs);
    }
  }

  /** A time token `\d{1,2}:\d{2}`, such as `8:00` or `12:00`. */
  predicate IsTimeToken(t: string) {
    || (|t| == 4 && IsDigit(t[0]) && t[1] == ':' && IsDigit(t[2]) && IsDigit(t[3]))
    || (|t| == 5 && IsDigit(t[0]) && IsDigit(t[1]) && t[2] == ':' && IsDigit(t[3]) && IsDigit(t[4]))
  }

  /** The end of the time token starting at `j`, if one does. */
  function TimeTokenEnd(h: string, j: nat): (r: Option<nat>)
    ensures r.Some? ==> j < r.value <= |h| && IsTimeToken(h[j..r.value])
  {
    if j + 4 <= |h| && IsDigit(h[j]) && h[j + 1] == ':' && IsDigit(h[j + 2]) && IsDigit(h[j + 3]) then
      Some(j + 4)
    else if j + 5 <= |h| && IsDigit(h[j]) && IsDigit(h[j + 1]) && h[j + 2] == ':'
         && IsDigit(h[j + 3]) && IsDigit(h[j + 4]) then
      Some(j + 5)
    else None
  }

  /** The text `(start-end)` whose two times the time-range expression captures. */
  function RangeText(start: string, end: string): string {
    "(" + start + "-" + end + ")"
  }

  /** `/\((\d{1,2}:\d{2})-(\d{1,2}:\d{2})\)/` matched at index `j`, giving the two captures. */
  function TimeRangeAt(h: string, j: nat): (r: Option<(string, string)>)
    ensures r.Some? ==> IsTimeToken(r.value.0) && IsTimeToken(r.value.1)
    ensures r.Some? ==> OccursAt(RangeText(r.value.0, r.value.1), h, j)
  {
    if j < |h| && h[j] == '(' then
      match TimeTokenEnd(h, j + 1)
      case None => None
      case Some(e1) =>
        if e1 < |h| && h[e1] == '-' then
          match TimeTokenEnd(h, e1 + 1)
          case None => None
          case Some(e2) =>
            if e2 < |h| && h[e2] == ')' then
              var r := (h[j + 1..e1], h[e1 + 1..e2]);
              RangeTextAt(h, j, e1, e2);
              Some(r)
            else None
        else None
    else None
  }

  /** The text from an opening parenthesis through a closing one reads as the range of the two pieces between them. */
  lemma {:induction false} RangeTextAt(h: string, j: nat, e1: nat, e2: nat)
    requires j < e1 < e2 < |h| && h[j] == '(' && h[e1] == '-' && h[e2] == ')'
    ensures OccursAt(RangeText(h[j + 1..e1], h[e1 + 1..e2]), h, j)
  {
    var t := RangeText(h[j + 1..e1], h[e1 + 1..e2]);
    assert h[j..e2 + 1] == [h[j]] + h[j + 1..e1] + [h[e1]] + h[e1 + 1..e2] + [h[e2]];
    assert h[j..e2 + 1] == t;
  }

  /** The time-range recogniser is complete: every `(start-end)` of time tokens is recognised where it occurs. */
  lemma {:induction false} TimeRangeAtComplete(h: string, j: nat, start: string, end: string)
    requires IsTimeToken(start) && IsTimeToken(end)
    requires OccursAt(RangeText(start, end), h, j)
    ensures TimeRangeAt(h, j) == Some((start, end))
  {
    var t := RangeText(start, end);
    assert t == ['('] + start + ['-'] + end + [')'];
    var e1 := j + 1 + |start|;
    var e2 := e1 + 1 + |end|;
    assert forall k :: 0 <= k < |t| ==> h[j + k] == t[k] by {
      forall k | 0 <= k < |t| ensures h[j + k] == t[k] {
        assert h[j..j + |t|][k] == h[j + k];
      }
    }
    assert forall k :: 0 <= k < |start| ==> h[j + 1 + k] == start[k] by {
      forall k | 0 <= k < |start| ensures h[j + 1 + k] == start[k] {
        assert t[1 + k] == start[k];
      }
    }
    assert forall k :: 0 <= k < |end| ==> h[e1 + 1 + k] == end[k] by {
      forall k | 0 <= k < |end| ensures h[e1 + 1 + k] == end[k] {
        assert t[2 + |start| + k] == end[k];
        assert h[j + (2 + |start| + k)] == t[2 + |start| + k];
      }
    }
    assert h[j] == '(' by { assert t[0] == '('; }
    assert h[e1] == '-' by { assert t[1 + |start|] == '-'; }
    assert h[e2] == ')' by { assert t[|t| - 1] == ')'; assert h[j + (|t| - 1)] == t[|t| - 1]; }
    assert h[j + 1..e1] == start;
    assert h[e1 + 1..e2] == end;
  }

  /** No time range starts in `[from, j)`. */
  predicate LeftmostRange(h: string, from: nat, j: nat) {
    forall k :: from <= k < j ==> TimeRangeAt(h, k).None?
  }

  /** `header.match(timeRange)`: the leftmost time range at or after `from`. */
  function FindTimeRange(h: string, from: nat): (r: Option<(string, string)>)
    ensures r.Some? ==> IsTimeToken(r.value.0) && IsTimeToken(r.value.1)
    ensures r.Some? ==> Contains(h, RangeText(r.value.0, r.value.1))
    ensures r.Some? ==> exists j :: from <= j && LeftmostRange(h, from, j) && TimeRangeAt(h, j) == r
    ensures r.None? ==> forall j :: from <= j ==> TimeRangeAt(h, j).None?
    decreases |h| - from
  {
    if from >= |h| then None
    else match TimeRangeAt(h, from)
      case Some(p) => Some(p)
      case None => FindTimeRange(h, from + 1)
  }

  /** `d.replace(/\./g, "")`: every dot is dropped. */
  function RemoveDots(d: string): (r: string)
    ensures '.' !in r
    ensures forall c :: c != '.' ==> multiset(r)[c] == multiset(d)[c]
  {
    if |d| == 0 then []
    else
      assert d == [d[0]] + d[1..];
      (if d[0] == '.' then [] else [d[0]]) + RemoveDots(d[1..])
  }

  /** Dropping dots works piece by piece, so the other characters keep their order. */
  lemma {:induction false} RemoveDotsAppend(x: string, y: string)
    ensures RemoveDots(x + y) == RemoveDots(x) + RemoveDots(y)
    decreases |x|
  {
    if |x| > 0 {
      assert (x + y)[1..] == x[1..] + y;
      RemoveDotsAppend(x[1..], y);
    } else {
      assert x + y == y;
    }
  }

  /** A text without dots is kept. */
  lemma {:induction false} RemoveDotsNoDot(d: string)
    requires '.' !in d
    ensures RemoveDots(d) == d
    decreases |d|
  {
    if |d| > 0 {
      RemoveDotsNoDot(d[1..]);
      assert d == [d[0]] + d[1..];
    }
  }

  /** A dot is not white space, so dropping dots and dropping white space commute. */
  lemma {:induction false} NonSpaceRemoveDots(d: string)
    ensures NonSpace(RemoveDots(d)) == RemoveDots(NonSpace(d))
    decreases |d|
  {
    if |d| > 0 {
      var head := if d[0] == '.' then [] else [d[0]];
      NonSpaceRemoveDots(d[1..]);
      NonSpaceAppend(head, RemoveDots(d[1..]));
      var kept := if IsSpace(d[0]) then [] else [d[0]];
      RemoveDotsAppend(kept, NonSpace(d[1..]));
      assert RemoveDots(kept) == NonSpace(head) by {
        if |kept| == 1 {
          assert RemoveDots(kept) == head + RemoveDots(kept[1..]);
        }
      }
    }
  }

  /**
   * The activity title: newlines become spaces, every `.` is dropped, and
   * the result is trimmed. It may be empty.
   */
  function CleanTitle(d: string): (r: string)
    ensures '.' !in r && '\n' !in r && IsTrimmed(r)
  {
    var t := RemoveDots(ReplaceChar(d, '\n', ' '));
    assert '\n' !in t by {
      assert multiset(t)['\n'] == multiset(ReplaceChar(d, '\n', ' '))['\n'] == 0;
    }
    var r := Trim(t);
    assert r == t[LeadingSpace(t)..LeadingSpace(t) + |r|];
    assert forall c :: c in r ==> c in t;
    r
  }

  /** The title keeps every character of the text that is neither white space nor a dot, in order. */
  lemma {:induction false} CleanTitleContent(d: string)
    ensures NonSpace(CleanTitle(d)) == RemoveDots(NonSpace(d))
  {
    var u := ReplaceChar(d, '\n', ' ');
    NonSpaceUpToSpace(d, u);
    NonSpaceRemoveDots(u);
    NonSpaceTrim(RemoveDots(u));
  }

  /** A trimmed one-line text without dots is its own title. */
  lemma {:induction false} CleanTitleKeeps(d: string)
    requires '.' !in d && '\n' !in d && IsTrimmed(d)
    ensures CleanTitle(d) == d
  {
    ReplaceCharAbsent(d, '\n', ' ');
    RemoveDotsNoDot(d);
    TrimTrimmed(d);
  }

  /** The header text of block `b`. */
  function HeaderText(s: string, b: Block): string
    requires b.start <= b.sepEnd <= |s|
  {
    s[b.start..b.sepEnd]
  }

  /** The text following the header of block `b`. */
  function BodyText(s: string, b: Block): string
    requires b.sepEnd <= b.end <= |s|
  {
    s[b.sepEnd..b.end]
  }

  /** The blocks whose following text is non-empty, in header order (`if (!description) continue`). */
  function TextBlocks(s: string, bs: seq<Block>): (r: seq<Block>)
    requires forall i :: 0 <= i < |bs| ==> Scan.InBounds(|s|, bs[i])
    ensures |r| <= |bs|
    ensures forall i :: 0 <= i < |r| ==> Scan.InBounds(|s|, r[i]) && r[i].sepEnd < r[i].end
    ensures forall b :: b in bs && b.sepEnd < b.end ==> b in r
    ensures forall b :: b in r ==> b in bs
  {
    if |bs| == 0 then []
    else if bs[0].sepEnd < bs[0].end then [bs[0]] + TextBlocks(s, bs[1..])
    else TextBlocks(s, bs[1..])
  }

  /** The filter works piece by piece: it keeps the blocks in header order. */
  lemma {:induction false} TextBlocksAppend(s: string, xs: seq<Block>, ys: seq<Block>)
    requires forall i :: 0 <= i < |xs| ==> Scan.InBounds(|s|, xs[i])
    requires forall i :: 0 <= i < |ys| ==> Scan.InBounds(|s|, ys[i])
    ensures TextBlocks(s, xs + ys) == TextBlocks(s, xs) + TextBlocks(s, ys)
    decreases |xs|
  {
    if |xs| > 0 {
      assert (xs + ys)[0] == xs[0];
      assert (xs + ys)[1..] == xs[1..] + ys;
      TextBlocksAppend(s, xs[1..], ys);
    } else {
      assert xs + ys == ys;
    }
  }

  /** A single block is kept exactly when its text is non-empty. */
  lemma {:induction false} TextBlocksSingle(s: string, b: Block)
    requires Scan.InBounds(|s|, b)
    ensures TextBlocks(s, [b]) == (if b.sepEnd < b.end then [b] else [])
  {
    assert [b][1..] == [];
  }

  /** Both times present or both absent; when present they are time tokens. */
  predicate TimesWellFormed(a: ParsedActivity) {
    && (a.startTime.Some? <==> a.endTime.Some?)
    && (a.startTime.Some? ==> IsTimeToken(a.startTime.value) && IsTimeToken(a.endTime.value))
  }

  /** What the segmenter guarantees of every activity it emits for day `dayNumber` with text `dayText`. */
  predicate SegmentedActivity(a: ParsedActivity, dayText: string, dayNumber: int) {
    && a.dayNumber == dayNumber
    && a.rawText == dayText
    && '.' !in a.name && '\n' !in a.name && IsTrimmed(a.name)
    && TimesWellFormed(a)
    && a.address.None? && a.latitude.None? && a.longitude.None? && a.placeId.None?
  }

  /** The activity emitted for block `b` of day `dayNumber`. */
  function BlockActivity(s: string, dayNumber: int, b: Block): (a: ParsedActivity)
    requires Scan.InBounds(|s|, b)
    ensures SegmentedActivity(a, s, dayNumber)
    ensures a.name == CleanTitle(BodyText(s, b))
    ensures a.startTime.Some? ==> Contains(HeaderText(s, b), RangeText(a.startTime.value, a.endTime.value))
    ensures a.startTime.Some? <==> exists j :: TimeRangeAt(HeaderText(s, b), j).Some?
    ensures a.startTime.Some? ==>
      exists j :: LeftmostRange(HeaderText(s, b), 0, j) &&
        TimeRangeAt(HeaderText(s, b), j) == Some((a.startTime.value, a.endTime.value))
  {
    var times := FindTimeRange(HeaderText(s, b), 0);
    ParsedActivity(dayNumber, CleanTitle(BodyText(s, b)), s, None, None, None, None,
      if times.Some? then Some(times.value.0) else None,
      if times.Some? then Some(times.value.1) else None)
  }

  function ActivitiesOf(s: string, dayNumber: int, bs: seq<Block>): (r: seq<ParsedActivity>)
    requires forall i :: 0 <= i < |bs| ==> Scan.InBounds(|s|, bs[i])
    ensures |r| == |bs|
    ensures forall i :: 0 <= i < |bs| ==> r[i] == BlockActivity(s, dayNumber, bs[i])
    ensures forall i :: 0 <= i < |r| ==> SegmentedActivity(r[i], s, dayNumber)
  {
    if |bs| == 0 then []
    else
      var a := BlockActivity(s, dayNumber, bs[0]);
      var rest := ActivitiesOf(s, dayNumber, bs[1..]);
      assert SegmentedActivity(a, s, dayNumber);
      [a] + rest
  }

  /**
   * The activities of one day: one per header followed by non-empty text,
   * in header order, named by the cleaned text and timed by the header's
   * `(start-end)` when it has one.
   */
  function ParseDay(dayText: string, dayNumber: int): (r: seq<ParsedActivity>)
    ensures forall i :: 0 <= i < |r| ==> SegmentedActivity(r[i], dayText, dayNumber)
  {
    ActivitiesOf(dayText, dayNumber, TextBlocks(dayText, Blocks(dayText)))
  }

  /**
   * The loop over one day's blocks read directly: block by block, in header
   * order, an activity for each block whose text is non-empty.
   */
  function BlockLoop(s: string, dayNumber: int, bs: seq<Block>): seq<ParsedActivity>
    requires forall i :: 0 <= i < |bs| ==> Scan.InBounds(|s|, bs[i])
  {
    if |bs| == 0 then []
    else
      assert Scan.InBounds(|s|, bs[0]);
      (if bs[0].sepEnd < bs[0].end then [BlockActivity(s, dayNumber, bs[0])] else [])
      + BlockLoop(s, dayNumber, bs[1..])
  }

  lemma {:induction false} ActivitiesOfTextBlocks(s: string, dayNumber: int, bs: seq<Block>)
    requires forall i :: 0 <= i < |bs| ==> Scan.InBounds(|s|, bs[i])
    ensures ActivitiesOf(s, dayNumber, TextBlocks(s, bs)) == BlockLoop(s, dayNumber, bs)
    decreases |bs|
  {
    if |bs| > 0 {
      var b, tail := bs[0], bs[1..];
      ActivitiesOfTextBlocks(s, dayNumber, tail);
      var rest := TextBlocks(s, tail);
      assert Scan.InBounds(|s|, b);
      if b.sepEnd < b.end {
        var kept := [b] + rest;
        assert TextBlocks(s, bs) == kept;
        assert BlockLoop(s, dayNumber, bs) == [BlockActivity(s, dayNumber, b)] + BlockLoop(s, dayNumber, tail);
        assert kept[1..] == rest;
        assert ActivitiesOf(s, dayNumber, kept) == [BlockActivity(s, dayNumber, b)] + ActivitiesOf(s, dayNumber, rest);
      } else {
        assert TextBlocks(s, bs) == rest;
        assert BlockLoop(s, dayNumber, bs) == BlockLoop(s, dayNumber, tail);
      }
    }
  }

  /**
   * The day's activities are what the loop over its header blocks emits:
   * one per header followed by non-empty text, in header order, each named
   * and timed from its own block.
   */
  lemma {:induction false} ParseDayBlocks(dayText: string, dayNumber: int)
    ensures ParseDay(dayText, dayNumber) == BlockLoop(dayText, dayNumber, Blocks(dayText))
  {
    ActivitiesOfTextBlocks(dayText, dayNumber, Blocks(dayText));
  }

  /** A day text without any header contributes no activity. */
  lemma {:induction false} NoHeaderNoActivity(dayText: string, dayNumber: int)
    requires NoHeader(dayText)
    ensures ParseDay(dayText, dayNumber) == []
  {
    assert Scan.IsSplit(HeaderMatcher(dayText), |dayText|, []);
    BlocksAreTheSplit(dayText, []);
  }

  /** Activities appear in non-decreasing day order. */
  predicate DayOrdered(acts: seq<ParsedActivity>) {
    forall i, j :: 0 <= i < j < |acts| ==> acts[i].dayNumber <= acts[j].dayNumber
  }

  lemma {:induction false} OrderedConcat(here: seq<ParsedActivity>, rest: seq<ParsedActivity>, d: int)
    requires forall i :: 0 <= i < |here| ==> here[i].dayNumber == d
    requires forall i :: 0 <= i < |rest| ==> d < rest[i].dayNumber
    requires DayOrdered(rest)
    ensures DayOrdered(here + rest)
  {
    var r := here + rest;
    forall i, j | 0 <= i < j < |r| ensures r[i].dayNumber <= r[j].dayNumber {
      if j < |here| {
        assert r[i] == here[i] && r[j] == here[j];
      } else if i < |here| {
        assert r[i] == here[i] && r[j] == rest[j - |here|];
      } else {
        assert r[i] == rest[i - |here|] && r[j] == rest[j - |here|];
      }
    }
  }

  /** Activity `a` was segmented from the day text its own day number points at. */
  predicate FromItsDay(a: ParsedActivity, days: seq<string>) {
    1 <= a.dayNumber <= |days| && SegmentedActivity(a, days[a.dayNumber - 1], a.dayNumber)
  }

  lemma {:induction false} DaysConcat(days: seq<string>, from: nat, here: seq<ParsedActivity>, rest: seq<ParsedActivity>)
    requires from < |days|
    requires forall i :: 0 <= i < |here| ==> SegmentedActivity(here[i], days[from], from + 1)
    requires forall i :: 0 <= i < |rest| ==>
      from + 2 <= rest[i].dayNumber && FromItsDay(rest[i], days)
    requires DayOrdered(rest)
    ensures forall i :: 0 <= i < |here + rest| ==>
      from + 1 <= (here + rest)[i].dayNumber && FromItsDay((here + rest)[i], days)
    ensures DayOrdered(here + rest)
  {
    var r := here + rest;
    assert forall i :: 0 <= i < |here| ==> r[i] == here[i];
    assert forall i :: |here| <= i < |r| ==> r[i] == rest[i - |here|];
    OrderedConcat(here, rest, from + 1);
  }

  /** The activities of days `from`, `from + 1`, … (0-based), in order. */
  function ParseFrom(days: seq<string>, from: nat): (r: seq<ParsedActivity>)
    requires from <= |days|
    ensures forall i :: 0 <= i < |r| ==>
      from + 1 <= r[i].dayNumber && FromItsDay(r[i], days)
    ensures DayOrdered(r)
    decreases |days| - from
  {
    if from == |days| then []
    else
      var here := ParseDay(days[from], from + 1);
      var rest := ParseFrom(days, from + 1);
      var r := here + rest;
      DaysConcat(days, from, here, rest);
      r
  }

  /**
   * `parseAIItinerary`: the activities of every day, in day order, the day
   * at (0-based) position `i` getting `dayNumber` `i + 1`.
   */
  function ParseItinerary(days: seq<string>): (r: seq<ParsedActivity>)
    ensures |days| == 0 ==> r == []
    ensures forall i :: 0 <= i < |r| ==>
      FromItsDay(r[i], days)
    ensures DayOrdered(r)
  {
    ParseFrom(days, 0)
  }

  /** Filtering a day-ordered concatenation: day `d0`'s activities come only from the front part. */
  lemma {:induction false} OfDayConcat(here: seq<ParsedActivity>, rest: seq<ParsedActivity>, d0: int, d: int)
    requires forall i :: 0 <= i < |here| ==> here[i].dayNumber == d0
    requires forall i :: 0 <= i < |rest| ==> d0 < rest[i].dayNumber
    ensures OfDay(here + rest, d) == if d == d0 then here else OfDay(rest, d)
  {
    OfDayAppend(here, rest, d);
    if d == d0 {
      OfDayAll(here, d);
      OfDayNone(rest, d);
    } else {
      OfDayNone(here, d);
    }
  }

  lemma {:induction false} ParseFromDay(days: seq<string>, from: nat, d: int)
    requires from < d <= |days|
    ensures OfDay(ParseFrom(days, from), d) == ParseDay(days[d - 1], d)
    decreases |days| - from
  {
    var here := ParseDay(days[from], from + 1);
    var rest := ParseFrom(days, from + 1);
    assert ParseFrom(days, from) == here + rest;
    OfDayConcat(here, rest, from + 1, d);
    if d != from + 1 {
      ParseFromDay(days, from + 1, d);
    }
  }

  /** Day `d`'s activities in the parsed itinerary are exactly what its own day text parses to. */
  lemma {:induction false} ParseItineraryDay(days: seq<string>, d: int)
    requires 1 <= d <= |days|
    ensures OfDay(ParseItinerary(days), d) == ParseDay(days[d - 1], d)
  {
    ParseFromDay(days, 0, d);
  }
}

=== FILE: aiplanner.dfy ===
/**
 * The AI planner screen (app/screens/aiPlannerScreen.tsx): the interest
 * chips toggled on and off, the free-text interests split at commas, and
 * the generate action, which parses the AI's day texts, enriches the
 * activities with places and saves them as the trip's itinerary.
 *
 * The AI call itself is left out: its day texts are a parameter.
 */
module AiPlanner {
  import opened Wrappers
  import opened JsText
  import opened Activity
  import AiParser
  import Enrich
  import Itinerary
  import Calendar

  /** `interests.filter(i => i !== value)`. */
  function Without(xs: seq<string>, v: string): (r: seq<string>)
    ensures v !in r
    ensures forall x :: x != v ==> (x in r <==> x in xs)
    ensures v !in xs ==> r == xs
  {
    if |xs| == 0 then []
    else
      var front := Without(xs[..|xs| - 1], v);
      var last := xs[|xs| - 1];
      assert xs == xs[..|xs| - 1] + [last];
      if last == v then front else front + [last]
  }

  /** Removing a value works piece by piece: what is left keeps its order. */
  lemma {:induction false} WithoutAppend(xs: seq<string>, ys: seq<string>, v: string)
    ensures Without(xs + ys, v) == Without(xs, v) + Without(ys, v)
    decreases |ys|
  {
    if |ys| == 0 {
      assert xs + ys == xs;
    } else {
      var ys' := ys[..|ys| - 1];
      assert (xs + ys)[..|xs + ys| - 1] == xs + ys';
      WithoutAppend(xs, ys', v);
    }
  }

  /** `toggleInterest(value)`: drop every copy of a selected value, or append an unselected one. */
  function Toggle(interests: seq<string>, v: string): (r: seq<string>)
    ensures v in r <==> v !in interests
    ensures forall x :: x != v ==> (x in r <==> x in interests)
    ensures v !in interests ==> r == interests + [v]
  {
    if v in interests then Without(interests, v) else interests + [v]
  }

  /** Toggling an unselected value twice gives back the selection. */
  lemma {:induction false} ToggleTwiceAbsent(interests: seq<string>, v: string)
    requires v !in interests
    ensures Toggle(Toggle(interests, v), v) == interests
  {
    WithoutAppend(interests, [v], v);
  }

  /** Toggling a selected value off and on again moves it, once, to the end. */
  lemma {:induction false} ToggleTwicePresent(interests: seq<string>, v: string)
    requires v in interests
    ensures Toggle(Toggle(interests, v), v) == Without(interests, v) + [v]
  {
  }

  /**
   * `t` is `p` without the white space around it: it has none of its own,
   * sits in `p` just after the leading white space, only white space
   * surrounds it there, and it is empty exactly when `p` is blank.
   */
  predicate TrimmedPiece(p: string, t: string) {
    && IsTrimmed(t)
    && OccursAt(t, p, LeadingSpace(p))
    && AllSpace(p[..LeadingSpace(p)])
    && AllSpace(p[LeadingSpace(p) + |t|..])
    && (t == [] <==> AllSpace(p))
  }

  /**
   * `.map(i => i.trim())`: each piece without the white space around it,
   * empty exactly when the piece is blank.
   */
  function TrimAll(parts: seq<string>): (r: seq<string>)
    ensures |r| == |parts|
    ensures forall i :: 0 <= i < |parts| ==> r[i] == Trim(parts[i])
    ensures forall i :: 0 <= i < |parts| ==> TrimmedPiece(parts[i], r[i])
  {
    seq(|parts|, i requires 0 <= i < |parts| => Trim(parts[i]))
  }

  /** `.filter(i => i.length > 0)`. */
  function NonEmpty(parts: seq<string>): (r: seq<string>)
    ensures forall p :: p in r ==> p != [] && p in parts
    ensures forall p :: p in parts && p != [] ==> p in r
    ensures (forall i :: 0 <= i < |parts| ==> parts[i] != []) ==> r == parts
  {
    if |parts| == 0 then []
    else
      var front := NonEmpty(parts[..|parts| - 1]);
      var last := parts[|parts| - 1];
      assert parts == parts[..|parts| - 1] + [last];
      if last != [] then front + [last] else front
  }

  /** The filter works piece by piece, so the kept pieces stay in order. */
  lemma {:induction false} NonEmptyAppend(xs: seq<string>, ys: seq<string>)
    ensures NonEmpty(xs + ys) == NonEmpty(xs) + NonEmpty(ys)
    decreases |ys|
  {
    if |ys| == 0 {
      assert xs + ys == xs;
    } else {
      var front := ys[..|ys| - 1];
      assert (xs + ys)[..|xs + ys| - 1] == xs + front;
      NonEmptyAppend(xs, front);
    }
  }

  /** A single piece is kept exactly when it is non-empty. */
  lemma {:induction false} NonEmptySingle(p: string)
    ensures NonEmpty([p]) == if p == [] then [] else [p]
  {
    assert [p][..0] == [];
  }

  /** The interests typed as free text: the comma-separated pieces, trimmed, without empty ones. */
  function CustomInterests(text: string): (r: seq<string>)
    ensures forall p :: p in r ==> p != [] && IsTrimmed(p) && ',' !in p
  {
    var pieces := Split(text, ',');
    var r := NonEmpty(TrimAll(pieces));
    assert forall p :: p in r ==> IsTrimmed(p) && ',' !in p by {
      forall p | p in r ensures IsTrimmed(p) && ',' !in p {
        var i :| 0 <= i < |pieces| && TrimAll(pieces)[i] == p;
        assert OccursAt(p, pieces[i], LeadingSpace(pieces[i]));
        PartChars(pieces[i], p);
      }
    }
    r
  }

  lemma {:induction false} TrimAllKeeps(xs: seq<string>)
    requires forall i :: 0 <= i < |xs| ==> IsTrimmed(xs[i])
    ensures TrimAll(xs) == xs
  {
    forall i | 0 <= i < |xs| ensures Trim(xs[i]) == xs[i] {
      TrimTrimmed(xs[i]);
    }
  }

  /** Trimming every piece twice is trimming once. */
  lemma {:induction false} TrimAllTwice(xs: seq<string>)
    ensures TrimAll(TrimAll(xs)) == TrimAll(xs)
  {
    TrimAllKeeps(TrimAll(xs));
  }

  /** Interests written out with commas between them are read back exactly. */
  lemma {:induction false} CustomInterestsJoin(xs: seq<string>)
    requires forall i :: 0 <= i < |xs| ==> xs[i] != [] && IsTrimmed(xs[i]) && ',' !in xs[i]
    ensures CustomInterests(Join(xs, ',')) == xs
  {
    if |xs| == 0 {
      assert Split([], ',') == [[]];
      assert AllSpace([]);
      assert TrimAll([[]]) == [[]];
    } else {
      SplitUnique(Join(xs, ','), ',', xs);
      TrimAllKeeps(xs);
    }
  }

  /** Free text without a comma is one interest, or none when it is blank. */
  lemma {:induction false} CustomInterestsSingle(text: string)
    requires ',' !in text
    ensures CustomInterests(text) == if Trim(text) == [] then [] else [Trim(text)]
  {
    assert Split(text, ',') == [text];
    assert TrimAll([text]) == [Trim(text)];
  }

  /** `[...interests, ...extra]`: the chips first, then the typed interests, in order. */
  function FinalInterests(selected: seq<string>, text: string): (r: seq<string>)
    ensures |r| == |selected| + |CustomInterests(text)|
    ensures r[..|selected|] == selected && r[|selected|..] == CustomInterests(text)
  {
    selected + CustomInterests(text)
  }

  /** The generate action after the AI call: parse, enrich, then the save's day rows or its error. */
  function Generate(days: seq<string>, destination: Option<string>, search: Enrich.Search, startDate: string): (r: Result<seq<Itinerary.DayPlan>, string>)
    ensures AiParser.ParseItinerary(days) == [] ==> r == Success([])
  {
    Itinerary.PlanSave(startDate, Enrich.EnrichActivities(AiParser.ParseItinerary(days), destination, search))
  }

  /**
   * With a readable start date, a generate over at most a million AI days
   * saves: the parser numbers days from 1 and the enricher keeps them.
   */
  lemma {:induction false} GenerateSucceeds(days: seq<string>, destination: Option<string>, search: Enrich.Search, startDate: string)
    requires Calendar.ParseDate(startDate).Some?
    requires |days| <= 1000000
    ensures Generate(days, destination, search, startDate).Success?
  {
    var parsed := AiParser.ParseItinerary(days);
    var enriched := Enrich.EnrichActivities(parsed, destination, search);
    forall i | 0 <= i < |enriched| ensures 1 <= enriched[i].dayNumber <= |days| {
      assert SameOrigin(parsed[i], enriched[i]) && AiParser.FromItsDay(parsed[i], days);
    }
    Itinerary.SaveSucceeds(startDate, enriched, |days|);
  }

  /**
   * Saving enriched activities: the enricher keeps every day number, so the
   * save creates one day per parsed day with activities, in day order.
   */
  lemma {:induction false} SaveEnrichedDays(parsed: seq<ParsedActivity>, enriched: seq<ParsedActivity>, startDate: string, bound: int)
    requires bound <= Itinerary.MaxArrayIndex
    requires forall i :: 0 <= i < |parsed| ==> 1 <= parsed[i].dayNumber <= bound
    requires |enriched| == |parsed|
    requires forall i :: 0 <= i < |parsed| ==> SameOrigin(parsed[i], enriched[i])
    requires Itinerary.PlanSave(startDate, enriched).Success?
    ensures var ps := Itinerary.PlanSave(startDate, enriched).value;
      && (forall i, j :: 0 <= i < j < |ps| ==> ps[i].dayNumber < ps[j].dayNumber)
      && (forall i :: 0 <= i < |ps| ==> 1 <= ps[i].dayNumber <= bound)
  {
    Itinerary.SaveDaysAscending(startDate, enriched, bound);
  }

  /** Each saved day has as many rows as that day has parsed activities, and none is lost. */
  lemma {:induction false} SaveEnrichedRows(parsed: seq<ParsedActivity>, enriched: seq<ParsedActivity>, startDate: string)
    requires |enriched| == |parsed|
    requires forall i :: 0 <= i < |parsed| ==> SameOrigin(parsed[i], enriched[i])
    requires Itinerary.PlanSave(startDate, enriched).Success?
    ensures var ps := Itinerary.PlanSave(startDate, enriched).value;
      && (forall i :: 0 <= i < |ps| ==> |ps[i].rows| == |OfDay(parsed, ps[i].dayNumber)|)
      && Itinerary.TotalRows(ps) == |parsed|
  {
    var ps := Itinerary.PlanSave(startDate, enriched).value;
    Itinerary.SaveRowCount(startDate, enriched);
    forall i | 0 <= i < |ps| ensures |ps[i].rows| == |OfDay(parsed, ps[i].dayNumber)| {
      OfDaySameDays(enriched, parsed, ps[i].dayNumber);
    }
  }

  /**
   * A successful generate saves one day per AI day that yields activities,
   * in day order.
   */
  lemma {:induction false} GenerateDays(days: seq<string>, destination: Option<string>, search: Enrich.Search, startDate: string)
    requires |days| <= Itinerary.MaxArrayIndex
    requires Generate(days, destination, search, startDate).Success?
    ensures var ps := Generate(days, destination, search, startDate).value;
      && (forall i, j :: 0 <= i < j < |ps| ==> ps[i].dayNumber < ps[j].dayNumber)
      && (forall i :: 0 <= i < |ps| ==> 1 <= ps[i].dayNumber <= |days|)
  {
    var parsed := AiParser.ParseItinerary(days);
    var enriched := Enrich.EnrichActivities(parsed, destination, search);
    var ps := Generate(days, destination, search, startDate).value;
    assert Itinerary.PlanSave(startDate, enriched) == Success(ps);
    SaveEnrichedDays(parsed, enriched, startDate, |days|);
  }

  /**
   * Each day a successful generate saves has as many rows as the parser
   * found that day (`AiParser.ParseItineraryDay` names them), and there is
   * one row per parsed activity overall.
   */
  lemma {:induction false} GenerateRows(days: seq<string>, destination: Option<string>, search: Enrich.Search, startDate: string)
    requires Generate(days, destination, search, startDate).Success?
    ensures var ps := Generate(days, destination, search, startDate).value;
      && (forall i :: 0 <= i < |ps| ==> |ps[i].rows| == |OfDay(AiParser.ParseItinerary(days), ps[i].dayNumber)|)
      && Itinerary.TotalRows(ps) == |AiParser.ParseItinerary(days)|
  {
    var parsed := AiParser.ParseItinerary(days);
    var enriched := Enrich.EnrichActivities(parsed, destination, search);
    var ps := Generate(days, destination, search, startDate).value;
    assert Itinerary.PlanSave(startDate, enriched) == Success(ps);
    SaveEnrichedRows(parsed, enriched, startDate);
  }
}

=== FILE: calendar.dfy ===
/**
 * Proleptic Gregorian calendar days, as JavaScript's `Date` counts them in
 * UTC: day addition (`setDate(getDate() + n)`), the serial day number
 * that makes addition exact, the range of dates a `Date` can hold, and the
 * `YYYY-MM-DD` text used for trip and itinerary dates.
 */
module Calendar {
  import opened Wrappers
  import opened JsText

  datatype Date = Date(year: int, month: int, day: int)

  predicate IsLeap(y: int) {
    y % 4 == 0 && (y % 100 != 0 || y % 400 == 0)
  }

  function DaysInMonth(y: int, m: int): (n: int)
    requires 1 <= m <= 12
    ensures 28 <= n <= 31
  {
    if m == 2 then (if IsLeap(y) then 29 else 28)
    else if m == 4 || m == 6 || m == 9 || m == 11 then 30
    else 31
  }

  predicate Valid(d: Date) {
    1 <= d.month <= 12 && 1 <= d.day <= DaysInMonth(d.year, d.month)
  }

  /** The day after `d`. */
  function NextDay(d: Date): (r: Date)
    requires Valid(d)
    ensures Valid(r)
  {
    if d.day < DaysInMonth(d.year, d.month) then d.(day := d.day + 1)
    else if d.month < 12 then Date(d.year, d.month + 1, 1)
    else Date(d.year + 1, 1, 1)
  }

  /** The day before `d`. */
  function PrevDay(d: Date): (r: Date)
    requires Valid(d)
    ensures Valid(r)
  {
    if d.day > 1 then d.(day := d.day - 1)
    else if d.month > 1 then Date(d.year, d.month - 1, DaysInMonth(d.year, d.month - 1))
    else Date(d.year - 1, 12, 31)
  }

  lemma {:induction false} NextPrev(d: Date)
    requires Valid(d)
    ensures PrevDay(NextDay(d)) == d
    ensures NextDay(PrevDay(d)) == d
  {
  }

  /** `d` moved by `n` days, forwards or backwards. */
  function AddDays(d: Date, n: int): (r: Date)
    requires Valid(d)
    ensures Valid(r)
    decreases if n >= 0 then n else -n
  {
    if n == 0 then d
    else if n > 0 then AddDays(NextDay(d), n - 1)
    else AddDays(PrevDay(d), n + 1)
  }

  /** Leap years among the years before `y` (counting from year 0, negatively for negative `y`). */
  function LeapsBefore(y: int): int {
    (y + 3) / 4 - (y + 99) / 100 + (y + 399) / 400
  }

  /** The days of the years before `y`, counted from 0000-01-01. */
  function DaysBeforeYear(y: int): int {
    365 * y + LeapsBefore(y)
  }

  /** The days of the months before `m` in year `y`. */
  function DaysBeforeMonth(y: int, m: int): (n: int)
    requires 1 <= m <= 13
  {
    [0, 31, 59, 90, 120, 151, 181, 212, 243, 273, 304, 334, 365][m - 1] + (if m > 2 && IsLeap(y) then 1 else 0)
  }

  /** The serial number of day `d`: 0000-01-01 is day 0. */
  function Ordinal(d: Date): int
    requires Valid(d)
  {
    DaysBeforeYear(d.year) + DaysBeforeMonth(d.year, d.month) + d.day - 1
  }

  lemma {:induction false} Step4(y: int)
    ensures (y + 4) / 4 - (y + 3) / 4 == if y % 4 == 0 then 1 else 0
  {
  }

  lemma {:induction false} Step100(y: int)
    ensures (y + 100) / 100 - (y + 99) / 100 == if y % 100 == 0 then 1 else 0
  {
  }

  lemma {:induction false} Step400(y: int)
    ensures (y + 400) / 400 - (y + 399) / 400 == if y % 400 == 0 then 1 else 0
  {
  }

  lemma {:induction false} Mod100Mod4(y: int)
    requires y % 100 == 0
    ensures y % 4 == 0
  {
    assert y == 4 * (25 * (y / 100));
  }

  lemma {:induction false} Mod400Mod100(y: int)
    requires y % 400 == 0
    ensures y % 100 == 0
  {
    assert y == 100 * (4 * (y / 400));
  }

  /** A leap year is counted as one among the years before the next year. */
  lemma {:induction false} LeapStep(y: int)
    ensures LeapsBefore(y + 1) - LeapsBefore(y) == if IsLeap(y) then 1 else 0
  {
    Step4(y);
    Step100(y);
    Step400(y);
    if y % 100 == 0 { Mod100Mod4(y); }
    if y % 400 == 0 { Mod400Mod100(y); }
  }

  /** A year holds 366 days when it is a leap year and 365 otherwise. */
  lemma {:induction false} YearLength(y: int)
    ensures DaysBeforeYear(y + 1) - DaysBeforeYear(y) == if IsLeap(y) then 366 else 365
  {
    LeapStep(y);
  }

  /** The day after has the next serial number. */
  lemma {:induction false} OrdinalNext(d: Date)
    requires Valid(d)
    ensures Ordinal(NextDay(d)) == Ordinal(d) + 1
  {
    if d.day == DaysInMonth(d.year, d.month) && d.month == 12 {
      YearLength(d.year);
    }
  }

  /** Adding `n` days adds `n` to the serial number. */
  lemma {:induction false} OrdinalAdd(d: Date, n: int)
    requires Valid(d)
    ensures Ordinal(AddDays(d, n)) == Ordinal(d) + n
    decreases if n >= 0 then n else -n
  {
    if n > 0 {
      var e := NextDay(d);
      assert AddDays(d, n) == AddDays(e, n - 1);
      OrdinalNext(d);
      OrdinalAdd(e, n - 1);
    } else if n < 0 {
      var e := PrevDay(d);
      assert AddDays(d, n) == AddDays(e, n + 1);
      NextPrev(d);
      OrdinalNext(e);
      OrdinalAdd(e, n + 1);
    }
  }

  /** The serial numbers of a year's days lie between those of its first day and the next year's. */
  lemma {:induction false} OrdinalInYear(d: Date)
    requires Valid(d)
    ensures DaysBeforeYear(d.year) <= Ordinal(d) < DaysBeforeYear(d.year + 1)
  {
    YearLength(d.year);
    MonthsBefore(d.year, d.month, 13);
  }

  lemma {:induction false} MonthsBefore(y: int, m: int, k: int)
    requires 1 <= m < k <= 13
    ensures DaysBeforeMonth(y, m) + DaysInMonth(y, m) <= DaysBeforeMonth(y, k)
    decreases k - m
  {
    if m + 1 < k {
      MonthsBefore(y, m + 1, k);
    }
  }

  lemma {:induction false} YearsBefore(y: int, z: int)
    requires y < z
    ensures DaysBeforeYear(y + 1) <= DaysBeforeYear(z)
    decreases z - y
  {
    if y + 1 < z {
      YearLength(y + 1);
      YearsBefore(y + 1, z);
    }
  }

  /** Distinct days have distinct serial numbers. */
  lemma {:induction false} OrdinalInjective(a: Date, b: Date)
    requires Valid(a) && Valid(b) && Ordinal(a) == Ordinal(b)
    ensures a == b
  {
    assert a.year == b.year by {
      OrdinalInYear(a);
      OrdinalInYear(b);
      if a.year < b.year {
        YearsBefore(a.year, b.year);
      } else if b.year < a.year {
        YearsBefore(b.year, a.year);
      }
    }
    assert a.month == b.month by {
      if a.month < b.month {
        MonthsBefore(a.year, a.month, b.month);
      } else if b.month < a.month {
        MonthsBefore(a.year, b.month, a.month);
      }
    }
  }

  /** Adding different numbers of days to the same date gives different dates. */
  lemma {:induction false} AddDaysInjective(d: Date, m: int, n: int)
    requires Valid(d) && m != n
    ensures AddDays(d, m) != AddDays(d, n)
  {
    OrdinalAdd(d, m);
    OrdinalAdd(d, n);
  }

  /** Moving by `m` and then by `n` days is moving by `m + n` days. */
  lemma {:induction false} AddDaysAdd(d: Date, m: int, n: int)
    requires Valid(d)
    ensures AddDays(AddDays(d, m), n) == AddDays(d, m + n)
  {
    var a := AddDays(d, m);
    var b := AddDays(a, n);
    var c := AddDays(d, m + n);
    OrdinalAdd(d, m);
    OrdinalAdd(a, n);
    OrdinalAdd(d, m + n);
    OrdinalInjective(b, c);
  }

  /** 1970-01-01, the day a `Date`'s time value counts from. */
  const Epoch: Date := Date(1970, 1, 1)

  /**
   * A `Date` holds at most 100,000,000 days either side of 1970-01-01
   * (8.64e15 milliseconds); outside that range it is an invalid date, and
   * `toISOString` throws.
   */
  predicate InJsRange(d: Date)
    requires Valid(d)
  {
    -100000000 <= Ordinal(d) - Ordinal(Epoch) <= 100000000
  }

  function Pow10(n: nat): (p: nat)
    ensures p >= 1
  {
    if n == 0 then 1 else 10 * Pow10(n - 1)
  }

  function DigitChar(k: int): char
    requires 0 <= k <= 9
  {
    ('0' as int + k) as char
  }

  /** `n` in decimal, padded with leading zeros to `width` digits. */
  function Pad(n: nat, width: nat): (s: string)
    requires n < Pow10(width)
    ensures |s| == width
    ensures forall i :: 0 <= i < |s| ==> IsDigit(s[i])
  {
    if width == 0 then [] else Pad(n / 10, width - 1) + [DigitChar(n % 10)]
  }

  /** The value of a string of decimal digits; `None` when a character is not a digit. */
  function ReadDigits(s: string): (r: Option<nat>)
    ensures r.Some? <==> forall i :: 0 <= i < |s| ==> IsDigit(s[i])
    ensures r.Some? ==> r.value < Pow10(|s|)
  {
    if |s| == 0 then Some(0)
    else
      var c := s[|s| - 1];
      match ReadDigits(s[..|s| - 1])
      case None => None
      case Some(v) =>
        if IsDigit(c) then Some(10 * v + (c as int - '0' as int)) else None
  }

  lemma {:induction false} ReadPad(n: nat, width: nat)
    requires n < Pow10(width)
    ensures ReadDigits(Pad(n, width)) == Some(n)
    decreases width
  {
    if width > 0 {
      ReadPad(n / 10, width - 1);
      var s := Pad(n, width);
      assert s[..|s| - 1] == Pad(n / 10, width - 1);
    }
  }

  lemma {:induction false} PadRead(s: string)
    requires ReadDigits(s).Some?
    ensures Pad(ReadDigits(s).value, |s|) == s
    decreases |s|
  {
    if |s| > 0 {
      var front := s[..|s| - 1];
      var c := s[|s| - 1];
      var v := ReadDigits(front).value;
      var n := ReadDigits(s).value;
      assert n == 10 * v + (c as int - '0' as int);
      assert n / 10 == v;
      assert n % 10 == c as int - '0' as int;
      assert DigitChar(n % 10) == c;
      PadRead(front);
      assert s == front + [c];
    }
  }

  /** The year field of `toISOString`: four digits for 0000 to 9999, otherwise a sign and six digits. */
  function YearText(y: int): (s: string)
    requires -1000000 < y < 1000000
  {
    if 0 <= y <= 9999 then Pad(y, 4)
    else if y < 0 then "-" + Pad(-y, 6)
    else "+" + Pad(y, 6)
  }

  /** The date part of `toISOString()`, i.e. `toISOString().split("T")[0]`. */
  function FormatDate(d: Date): (s: string)
    requires Valid(d) && -1000000 < d.year < 1000000
    ensures 0 <= d.year <= 9999 ==> |s| == 10 && s[4] == '-' && s[7] == '-'
  {
    YearText(d.year) + "-" + Pad(d.month, 2) + "-" + Pad(d.day, 2)
  }

  /** A date string in the `YYYY-MM-DD` form naming a real calendar day, read as that day. */
  function ParseDate(s: string): (r: Option<Date>)
    ensures r.Some? ==> Valid(r.value) && 0 <= r.value.year <= 9999
  {
    if |s| == 10 && s[4] == '-' && s[7] == '-' then
      match (ReadDigits(s[..4]), ReadDigits(s[5..7]), ReadDigits(s[8..]))
      case (Some(y), Some(m), Some(d)) =>
        if Valid(Date(y, m, d)) then Some(Date(y, m, d)) else None
      case _ => None
    else None
  }

  /** Formatting a four-digit-year day and reading it back gives the same day. */
  lemma {:induction false} ParseFormat(d: Date)
    requires Valid(d) && 0 <= d.year <= 9999
    ensures ParseDate(FormatDate(d)) == Some(d)
  {
    var s := FormatDate(d);
    assert s[..4] == Pad(d.year, 4);
    assert s[5..7] == Pad(d.month, 2);
    assert s[8..] == Pad(d.day, 2);
    ReadPad(d.year, 4);
    ReadPad(d.month, 2);
    ReadPad(d.day, 2);
  }

  /** A date string that reads as a day is exactly that day's text. */
  lemma {:induction false} FormatParse(s: string)
    requires ParseDate(s).Some?
    ensures FormatDate(ParseDate(s).value) == s
  {
    PadRead(s[..4]);
    PadRead(s[5..7]);
    PadRead(s[8..]);
    assert s == s[..4] + "-" + s[5..7] + "-" + s[8..];
  }

  /** Every day a `Date` can hold lies within 300,000 years of year 0, so its year fits `toISOString`'s six digits. */
  lemma {:induction false} JsRangeYear(d: Date)
    requires Valid(d) && InJsRange(d)
    ensures -300000 < d.year < 300000
  {
    OrdinalInYear(d);
    assert d.year >= 300000 ==> LeapsBefore(d.year) >= 0;
    assert d.year <= -300000 ==> LeapsBefore(d.year + 1) <= 0;
  }

  lemma {:induction false} YearTextInjective(y: int, z: int)
    requires -1000000 < y < 1000000 && -1000000 < z < 1000000
    requires YearText(y) == YearText(z)
    ensures y == z
  {
    var t := YearText(y);
    if |t| == 4 {
      ReadPad(y, 4);
      ReadPad(z, 4);
    } else {
      assert t[1..] == Pad(if y < 0 then -y else y, 6) == Pad(if z < 0 then -z else z, 6);
      ReadPad(if y < 0 then -y else y, 6);
      ReadPad(if z < 0 then -z else z, 6);
    }
  }

  /** Different days have different date texts. */
  lemma {:induction false} FormatInjective(a: Date, b: Date)
    requires Valid(a) && -1000000 < a.year < 1000000
    requires Valid(b) && -1000000 < b.year < 1000000
    requires FormatDate(a) == FormatDate(b)
    ensures a == b
  {
    var s := FormatDate(a);
    var n := |s|;
    assert s[..n - 6] == YearText(a.year) == YearText(b.year);
    YearTextInjective(a.year, b.year);
    assert s[n - 5..n - 3] == Pad(a.month, 2) == Pad(b.month, 2);
    ReadPad(a.month, 2);
    ReadPad(b.month, 2);
    assert s[n - 2..] == Pad(a.day, 2) == Pad(b.day, 2);
    ReadPad(a.day, 2);
    ReadPad(b.day, 2);
  }
}

=== FILE: cleanname.dfy ===
/**
 * `cleanPlaceName` (lib/enrichActivities.ts): turns an activity name into a
 * place search query. In order it deletes `Morning (…):`-style time
 * headers, one leading verb, one leading meal phrase, one leading travel
 * phrase, every filler word, every dot (replaced by a space) and every
 * parenthesised aside; it collapses runs of white space, keeps the text
 * before the first ` and ` and the first ` then `, and finally prefers the
 * first double-quoted name when there is one.
 *
 * Each regular expression is a recogniser at an index. An alternation
 * `(w1|w2|…)` followed by a tail is tried word by word in the written
 * order, the first word whose tail also matches winning, as a backtracking
 * matcher does. The words are matched with ASCII case folding: the `i`
 * flag without `u`.
 */
module CleanName {
  import opened Wrappers
  import opened JsText
  import Scan

  /** `w`, written in lower case, occurs at `q` when ASCII case is ignored. */
  predicate WordAt(s: string, q: nat, w: string) {
    q + |w| <= |s| && ToLower(s[q..q + |w|]) == w
  }

  /** None of the alternatives is empty. */
  predicate Words(ws: seq<string>) {
    forall k :: 0 <= k < |ws| ==> |ws[k]| > 0
  }

  const TimeWords: seq<string> := ["morning", "afternoon", "evening", "night"]
  const Verbs: seq<string> :=
    ["visit", "explore", "enjoy", "walk", "discover", "experience", "take", "wander", "head to", "go to", "stop at"]
  const Meals: seq<string> := ["lunch", "dinner", "breakfast", "brunch"]
  const Travel: seq<string> := ["arrive at", "depart from", "return to", "check into", "check-in at"]
  const Fillers: seq<string> := ["afterward", "afterwards", "then", "later", "followed by", "before heading to"]

  /** What follows the alternation in each of the expressions. */
  datatype Tail =
    | SpaceRun   // `\s+`
    | WordEnd    // `\b` after a word that ends in a letter
    | TimeTail   // `\s*\([^)]*\)\s*:`
    | MealTail   // `\s+(at|in)\s+`

  /** `\s+` at `p`: the end of a non-empty run of white space. */
  function SpacesAt(s: string, p: nat): (r: Option<nat>)
    requires p <= |s|
    ensures r.Some? ==> p < r.value <= |s| && (r.value == |s| || !IsSpace(s[r.value]))
    ensures r.Some? ==> forall i :: p <= i < r.value ==> IsSpace(s[i])
    ensures r.None? <==> p == |s| || !IsSpace(s[p])
  {
    if p < |s| && IsSpace(s[p]) then Some(SpaceRunEnd(s, p)) else None
  }

  /**
   * The tail `t` matched at `p`. Each `\s*`, `\s+` and `[^)]*` is greedy and
   * is followed by a character it cannot consume, so the greedy run is the
   * only run that can succeed.
   */
  function TailAt(t: Tail, s: string, p: nat): (r: Option<nat>)
    requires p <= |s|
    ensures r.Some? ==> p <= r.value <= |s|
    ensures r.Some? && (t == SpaceRun || t == MealTail) ==> r.value == |s| || !IsSpace(s[r.value])
  {
    match t
    case SpaceRun => SpacesAt(s, p)
    case WordEnd => if p == |s| || !IsWordChar(s[p]) then Some(p) else None
    case TimeTail =>
      var j := SpaceRunEnd(s, p);
      if j < |s| && s[j] == '(' then
        var c := NextChar(s, j + 1, ')');
        if c < |s| then
          var e := SpaceRunEnd(s, c + 1);
          if e < |s| && s[e] == ':' then Some(e + 1) else None
        else None
      else None
    case MealTail =>
      match SpacesAt(s, p)
      case None => None
      case Some(j) => if WordAt(s, j, "at") || WordAt(s, j, "in") then SpacesAt(s, j + 2) else None
  }

  /** The alternative `w` followed by its tail `t` matches at `q`. */
  predicate AltMatch(s: string, q: nat, w: string, t: Tail) {
    WordAt(s, q, w) && TailAt(t, s, q + |w|).Some?
  }

  /**
   * `(words[i]|words[i + 1]|…)` followed by `t`, matched at `q`: the match
   * of the first alternative, in written order, whose tail also matches.
   */
  function AltAt(s: string, q: nat, words: seq<string>, t: Tail, i: nat): (r: Option<nat>)
    requires q <= |s| && i <= |words| && Words(words)
    ensures r.Some? ==> q < r.value <= |s|
    ensures r.Some? ==> exists k :: i <= k < |words| && AltMatch(s, q, words[k], t) && TailAt(t, s, q + |words[k]|) == r
    ensures r.None? ==> forall k :: i <= k < |words| ==> !AltMatch(s, q, words[k], t)
    ensures r.Some? && (t == SpaceRun || t == MealTail) ==> r.value == |s| || !IsSpace(s[r.value])
    decreases |words| - i
  {
    if i == |words| then None
    else if AltMatch(s, q, words[i], t) then TailAt(t, s, q + |words[i]|)
    else AltAt(s, q, words, t, i + 1)
  }

  /** Alternative `k` is the first from `i` on, in written order, that matches at `q` with its tail. */
  predicate FirstAlt(s: string, q: nat, words: seq<string>, t: Tail, i: nat, k: nat) {
    i <= k < |words| && AltMatch(s, q, words[k], t) && forall j :: i <= j < k ==> !AltMatch(s, q, words[j], t)
  }

  /** The alternation's match comes from the first alternative, in written order, whose tail matches. */
  lemma {:induction false} AltAtFirst(s: string, q: nat, words: seq<string>, t: Tail, i: nat)
    requires q <= |s| && i <= |words| && Words(words)
    ensures AltAt(s, q, words, t, i).Some? ==>
      exists k: nat :: FirstAlt(s, q, words, t, i, k) && TailAt(t, s, q + |words[k]|) == AltAt(s, q, words, t, i)
    decreases |words| - i
  {
    if i < |words| {
      if AltMatch(s, q, words[i], t) {
        assert FirstAlt(s, q, words, t, i, i);
      } else {
        AltAtFirst(s, q, words, t, i + 1);
        var r := AltAt(s, q, words, t, i + 1);
        assert AltAt(s, q, words, t, i) == r;
        if r.Some? {
          var k: nat :| FirstAlt(s, q, words, t, i + 1, k) && TailAt(t, s, q + |words[k]|) == r;
          assert FirstAlt(s, q, words, t, i, k);
        }
      }
    }
  }

  /** Some word of `words` followed by `t` matches at the start of `s`. */
  predicate LeadingMatch(s: string, words: seq<string>, t: Tail) {
    exists k :: 0 <= k < |words| && AltMatch(s, 0, words[k], t)
  }

  /**
   * `e` is where the match at the start of `s` ends: alternative `k`, the
   * first in written order whose tail matches, together with its tail.
   */
  predicate FirstAltEnd(s: string, words: seq<string>, t: Tail, e: nat) {
    exists k: nat :: k < |words| && FirstAlt(s, 0, words, t, 0, k) && TailAt(t, s, |words[k]|) == Some(e)
  }

  /**
   * A non-global `replace(/^(…)tail/i, "")`: the first match at the start of
   * `s` is deleted. The result is what follows a prefix of `s`, and it is
   * shorter exactly when some alternative matches there.
   */
  function StripLeading(s: string, words: seq<string>, t: Tail): (r: string)
    requires Words(words)
    ensures OccursAt(r, s, |s| - |r|)
    ensures |r| < |s| <==> LeadingMatch(s, words, t)
    ensures |r| < |s| ==> FirstAltEnd(s, words, t, |s| - |r|)
    ensures |r| < |s| && (t == SpaceRun || t == MealTail) ==> r == [] || !IsSpace(r[0])
  {
    AltAtFirst(s, 0, words, t, 0);
    match AltAt(s, 0, words, t, 0)
    case Some(e) => s[e..]
    case None => s
  }

  /** `(morning|afternoon|evening|night)\s*\([^)]*\)\s*:` with the `i` flag, at `q`. */
  function TimeBlockAt(s: string, q: nat): (r: Option<nat>)
    ensures r.Some? ==> q < r.value <= |s|
  {
    if q < |s| then AltAt(s, q, TimeWords, TimeTail, 0) else None
  }

  /** `\b(afterward|afterwards|then|later|followed by|before heading to)\b` with the `i` flag, at `q`. */
  function FillerAt(s: string, q: nat): (r: Option<nat>)
    ensures r.Some? ==> q < r.value <= |s|
  {
    if q < |s| && (q == 0 || !IsWordChar(s[q - 1])) then AltAt(s, q, Fillers, WordEnd, 0) else None
  }

  /** The lazy `.*?\)` from `from`: the first `)`, provided no line terminator comes before it. */
  function LazyClose(s: string, from: nat): (r: Option<nat>)
    ensures r.Some? ==> from <= r.value < |s| && s[r.value] == ')'
    ensures r.Some? ==> forall i :: from <= i < r.value ==> s[i] != ')' && !IsLineTerminator(s[i])
    decreases |s| - from
  {
    if from >= |s| then None
    else if s[from] == ')' then Some(from)
    else if IsLineTerminator(s[from]) then None
    else LazyClose(s, from + 1)
  }

  /** `\(.*?\)` at `q`. */
  function AsideAt(s: string, q: nat): (r: Option<nat>)
    ensures r.Some? ==> q < r.value <= |s| && s[q] == '('
  {
    if q < |s| && s[q] == '(' then
      match LazyClose(s, q + 1)
      case Some(k) => Some(k + 1)
      case None => None
    else None
  }

  /** `\s{2,}` at `q`: a run of at least two white-space characters, taken whole. */
  function RunAt(s: string, q: nat): (r: Option<nat>)
    ensures r.Some? ==> q + 2 <= r.value <= |s|
    ensures r.Some? ==> r.value == |s| || !IsSpace(s[r.value])
    ensures r.Some? <==> q + 1 < |s| && SpacePairAt(s, q)
  {
    if q + 1 < |s| && IsSpace(s[q]) && IsSpace(s[q + 1]) then Some(SpaceRunEnd(s, q)) else None
  }

  function TimeBlockMatcher(s: string): Scan.Matcher { q => TimeBlockAt(s, q) }
  function FillerMatcher(s: string): Scan.Matcher { q => FillerAt(s, q) }
  function AsideMatcher(s: string): Scan.Matcher { q => AsideAt(s, q) }
  function RunMatcher(s: string): Scan.Matcher { q => RunAt(s, q) }

  lemma {:induction false} MatchersSound(s: string)
    ensures Scan.Sound(TimeBlockMatcher(s), |s|)
    ensures Scan.Sound(FillerMatcher(s), |s|)
    ensures Scan.Sound(AsideMatcher(s), |s|)
    ensures Scan.Sound(RunMatcher(s), |s|)
  {
  }

  /** The time headers of `s`, leftmost first, each with the text up to the next one. */
  function TimeHeaders(s: string): (bs: seq<Scan.Block>)
    ensures forall i :: 0 <= i < |bs| ==> Scan.InBounds(|s|, bs[i])
    ensures Scan.IsSplit(TimeBlockMatcher(s), |s|, bs)
  {
    MatchersSound(s);
    Scan.SplitIsSplit(TimeBlockMatcher(s), |s|);
    Scan.Split(TimeBlockMatcher(s), |s|)
  }

  /** The filler words of `s` standing on their own, leftmost first. */
  function FillerWords(s: string): (bs: seq<Scan.Block>)
    ensures forall i :: 0 <= i < |bs| ==> Scan.InBounds(|s|, bs[i])
    ensures Scan.IsSplit(FillerMatcher(s), |s|, bs)
  {
    MatchersSound(s);
    Scan.SplitIsSplit(FillerMatcher(s), |s|);
    Scan.Split(FillerMatcher(s), |s|)
  }

  /** The one-line parenthesised asides of `s`, leftmost first. */
  function Asides(s: string): (bs: seq<Scan.Block>)
    ensures forall i :: 0 <= i < |bs| ==> Scan.InBounds(|s|, bs[i])
    ensures Scan.IsSplit(AsideMatcher(s), |s|, bs)
  {
    MatchersSound(s);
    Scan.SplitIsSplit(AsideMatcher(s), |s|);
    Scan.Split(AsideMatcher(s), |s|)
  }

  /** The maximal runs of two or more white-space characters of `s`, leftmost first. */
  function SpaceRuns(s: string): (bs: seq<Scan.Block>)
    ensures forall i :: 0 <= i < |bs| ==> Scan.InBounds(|s|, bs[i])
    ensures Scan.IsSplit(RunMatcher(s), |s|, bs)
  {
    MatchersSound(s);
    Scan.SplitIsSplit(RunMatcher(s), |s|);
    Scan.Split(RunMatcher(s), |s|)
  }

  /** Step 1: every time header is deleted; the text around them is kept. */
  function DropTimeBlocks(s: string): (r: string)
    ensures forall c :: c in r ==> c in s
    ensures r == Scan.Spliced(s, TimeHeaders(s), "")
  {
    MatchersSound(s);
    Scan.ReplaceAll(TimeBlockMatcher(s), s, "")
  }

  /** Step 2: one leading verb and all the white space after it are deleted. */
  function DropVerb(s: string): (r: string)
    ensures OccursAt(r, s, |s| - |r|)
    ensures |r| < |s| <==> LeadingMatch(s, Verbs, SpaceRun)
    ensures |r| < |s| ==> FirstAltEnd(s, Verbs, SpaceRun, |s| - |r|) && (r == [] || !IsSpace(r[0]))
  {
    StripLeading(s, Verbs, SpaceRun)
  }

  /** Step 3: one leading `lunch at`, `dinner in`, … is deleted with the white space around it, keeping the place. */
  function DropMeal(s: string): (r: string)
    ensures OccursAt(r, s, |s| - |r|)
    ensures |r| < |s| <==> LeadingMatch(s, Meals, MealTail)
    ensures |r| < |s| ==> FirstAltEnd(s, Meals, MealTail, |s| - |r|) && (r == [] || !IsSpace(r[0]))
  {
    StripLeading(s, Meals, MealTail)
  }

  /** Step 4: one leading travel phrase such as `arrive at` and all the white space after it are deleted. */
  function DropTravel(s: string): (r: string)
    ensures OccursAt(r, s, |s| - |r|)
    ensures |r| < |s| <==> LeadingMatch(s, Travel, SpaceRun)
    ensures |r| < |s| ==> FirstAltEnd(s, Travel, SpaceRun, |s| - |r|) && (r == [] || !IsSpace(r[0]))
  {
    StripLeading(s, Travel, SpaceRun)
  }

  /** Step 5: every filler word standing on its own is deleted; the text around them is kept. */
  function DropFillers(s: string): (r: string)
    ensures forall c :: c in r ==> c in s
    ensures r == Scan.Spliced(s, FillerWords(s), "")
  {
    MatchersSound(s);
    Scan.ReplaceAll(FillerMatcher(s), s, "")
  }

  /** Step 7: every parenthesised aside on one line is deleted, then the text is trimmed. */
  function DropAsides(s: string): (r: string)
    ensures IsTrimmed(r)
    ensures forall c :: c in r ==> c in s
    ensures r == Trim(Scan.Spliced(s, Asides(s), ""))
  {
    MatchersSound(s);
    var t := Scan.ReplaceAll(AsideMatcher(s), s, "");
    var r := Trim(t);
    PartChars(t, r);
    r
  }

  /**
   * Step 8: each run of two or more white-space characters becomes one
   * space, then the text is trimmed; every other character survives, in
   * order.
   */
  function Collapse(s: string): (r: string)
    ensures IsTrimmed(r) && NoAdjacentSpaces(r)
    ensures forall c :: c in r ==> c in s || c == ' '
    ensures r == Trim(Scan.Spliced(s, SpaceRuns(s), " "))
    ensures NonSpace(r) == NonSpace(s)
  {
    MatchersSound(s);
    var t := Scan.ReplaceAll(RunMatcher(s), s, " ");
    CollapseFrom(s, 0);
    CollapseNonSpace(s, 0);
    assert s[0..] == s;
    var r := Trim(t);
    NonSpaceTrim(t);
    PartChars(t, r);
    PartNoAdjacentSpaces(t, r);
    r
  }

  /** Replacing white-space runs by one space from `from` keeps the non-space characters. */
  lemma {:induction false} CollapseNonSpace(s: string, from: nat)
    requires from <= |s| && Scan.Sound(RunMatcher(s), |s|)
    ensures NonSpace(Scan.ReplaceFrom(RunMatcher(s), s, from, " ")) == NonSpace(s[from..])
    decreases |s| - from
  {
    if from < |s| {
      match RunAt(s, from)
      case Some(e) =>
        var rest := Scan.ReplaceFrom(RunMatcher(s), s, e, " ");
        CollapseNonSpace(s, e);
        NonSpaceAppend(" ", rest);
        assert NonSpace(" ") == [];
        assert s[from..] == s[from..e] + s[e..];
        NonSpaceAppend(s[from..e], s[e..]);
        NonSpaceAllSpace(s[from..e]);
      case None =>
        var rest := Scan.ReplaceFrom(RunMatcher(s), s, from + 1, " ");
        CollapseNonSpace(s, from + 1);
        assert s[from..][1..] == s[from + 1..];
    }
  }

  /** Prepending one character keeps a text free of adjacent white space when the two do not form a pair. */
  lemma {:induction false} ConsNoAdjacent(c: char, rest: string)
    requires NoAdjacentSpaces(rest)
    requires IsSpace(c) && |rest| > 0 ==> !IsSpace(rest[0])
    ensures NoAdjacentSpaces([c] + rest)
  {
    var r := [c] + rest;
    forall i | 0 <= i < |r| - 1 ensures !SpacePairAt(r, i) {
      if i > 0 {
        assert r[i] == rest[i - 1] && r[i + 1] == rest[i];
        assert !SpacePairAt(rest, i - 1);
      }
    }
  }

  /**
   * Replacing white-space runs from `from` leaves no two adjacent
   * white-space characters, and the output starts with white space exactly
   * when the input does there.
   */
  lemma {:induction false} CollapseFrom(s: string, from: nat)
    requires from <= |s| && Scan.Sound(RunMatcher(s), |s|)
    ensures NoAdjacentSpaces(Scan.ReplaceFrom(RunMatcher(s), s, from, " "))
    ensures from < |s| ==>
      |Scan.ReplaceFrom(RunMatcher(s), s, from, " ")| > 0
      && (IsSpace(Scan.ReplaceFrom(RunMatcher(s), s, from, " ")[0]) <==> IsSpace(s[from]))
    decreases |s| - from
  {
    if from < |s| {
      match RunAt(s, from)
      case Some(e) =>
        CollapseFrom(s, e);
        ConsNoAdjacent(' ', Scan.ReplaceFrom(RunMatcher(s), s, e, " "));
      case None =>
        CollapseFrom(s, from + 1);
        ConsNoAdjacent(s[from], Scan.ReplaceFrom(RunMatcher(s), s, from + 1, " "));
    }
  }

  /**
   * Steps 9 and 10: the text before the first ` and `, then before the
   * first ` then ` (the whole text when the separator does not occur).
   */
  function FirstPlace(s: string): (r: string)
    ensures Contains(s, r) && OccursAt(r, s, 0)
    ensures r == s || OccursAt(r + " and ", s, 0) || OccursAt(r + " then ", s, 0)
    ensures !Contains(r, " and ") && !Contains(r, " then ")
    ensures IsTrimmed(s) && NoAdjacentSpaces(s) ==> IsTrimmed(r) && NoAdjacentSpaces(r)
  {
    var a := BeforeFirst(s, " and ");
    var r := BeforeFirst(a, " then ");
    BeforeFirstPart(s, " and ");
    BeforeFirstPart(a, " then ");
    ContainsTrans(s, a, r);
    PartLacks(a, r, " and ");
    assert OccursAt(a, s, 0) by {
      if Contains(s, " and ") {
        assert s[..|a + " and "|][..|a|] == a;
      }
    }
    assert OccursAt(r, a, 0) by {
      if Contains(a, " then ") {
        assert a[..|r + " then "|][..|r|] == r;
      }
    }
    assert s[..|r|] == s[..|a|][..|r|];
    assert Contains(a, " then ") ==> OccursAt(r + " then ", s, 0) by {
      if Contains(a, " then ") {
        assert s[..|r + " then "|] == s[..|a|][..|r + " then "|];
      }
    }
    r
  }

  /** `/"([^"]+)"/` at `q`: the index of the closing quote of a non-empty quoted text opening at `q`. */
  function QuoteAt(s: string, q: nat): (r: Option<nat>)
    ensures r.Some? ==> q + 1 < r.value < |s| && s[q] == '"' && s[r.value] == '"'
    ensures r.Some? ==> forall i :: q < i < r.value ==> s[i] != '"'
  {
    if q < |s| && s[q] == '"' then
      var k := NextChar(s, q + 1, '"');
      if q + 1 < k < |s| then Some(k) else None
    else None
  }

  /** `s.match(/"([^"]+)"/)`: the leftmost quoted text at or after `from`, as its opening and closing indices. */
  function FindQuote(s: string, from: nat): (r: Option<(nat, nat)>)
    ensures r.Some? ==> from <= r.value.0 && QuoteAt(s, r.value.0) == Some(r.value.1)
    ensures r.Some? ==> forall q :: from <= q < r.value.0 ==> QuoteAt(s, q).None?
    ensures r.None? ==> forall q :: from <= q ==> QuoteAt(s, q).None?
    decreases |s| - from
  {
    if from >= |s| then None
    else match QuoteAt(s, from)
      case Some(k) => Some((from, k))
      case None => FindQuote(s, from + 1)
  }

  /** `r` is the trimmed text between the quote marks `f` finds, or all of `p` when there are none. */
  predicate QuotedChoice(p: string, f: Option<(nat, nat)>, r: string)
  {
    match f
    case None => r == p
    case Some((q, k)) => q + 1 <= k <= |p| && r == Trim(p[q + 1..k])
  }

  /** Steps 1 to 10: the text the quoted-name rule is applied to. */
  function Prepared(name: string): (r: string)
    ensures '.' !in r && IsTrimmed(r) && NoAdjacentSpaces(r)
    ensures !Contains(r, " and ") && !Contains(r, " then ")
  {
    // Step 6: every `.` becomes a space.
    var d := ReplaceChar(DropFillers(DropTravel(DropMeal(DropVerb(DropTimeBlocks(name))))), '.', ' ');
    var c := Collapse(DropAsides(d));
    var r := FirstPlace(c);
    PartChars(c, r);
    r
  }

  /**
   * Step 11: the trimmed first quoted name when there is one, otherwise
   * the text itself. Either way the result is a part of the text.
   */
  function PreferQuoted(p: string): (r: string)
    ensures Contains(p, r)
    ensures FindQuote(p, 0).None? ==> r == p
    ensures FindQuote(p, 0).Some? ==> IsTrimmed(r) && '"' !in r
    ensures QuotedChoice(p, FindQuote(p, 0), r)
  {
    var f := FindQuote(p, 0);
    if f.None? then
      PrefixIsPart(p, |p|);
      assert p[..|p|] == p;
      p
    else
      var q, k := f.value.0, f.value.1;
      QuotedPart(p, q, k);
      Trim(p[q + 1..k])
  }

  /**
   * `cleanPlaceName`: the empty name stays empty; otherwise the prepared
   * text, or the trimmed first quoted name in it. Either way the result is
   * a part of the prepared text, has no dot, no surrounding or doubled
   * white space, and no ` and ` or ` then ` left in it.
   */
  function CleanPlaceName(name: string): (r: string)
    ensures name == [] ==> r == []
    ensures name != [] ==> Contains(Prepared(name), r)
    ensures '.' !in r && IsTrimmed(r) && NoAdjacentSpaces(r)
    ensures !Contains(r, " and ") && !Contains(r, " then ")
  {
    if name == [] then []
    else
      var p := Prepared(name);
      var r := PreferQuoted(p);
      PartChars(p, r);
      PartNoAdjacentSpaces(p, r);
      PartLacks(p, r, " and ");
      PartLacks(p, r, " then ");
      r
  }

  /**
   * When the prepared text holds a quoted name, the leftmost one opening
   * at `q` and closing at `k`, the cleaned name is exactly that name, trimmed.
   */
  lemma {:induction false} QuotedNameWins(name: string, q: nat, k: nat)
    requires name != []
    requires QuoteAt(Prepared(name), q) == Some(k)
    requires forall j :: 0 <= j < q ==> QuoteAt(Prepared(name), j).None?
    ensures CleanPlaceName(name) == Trim(Prepared(name)[q + 1..k])
  {
    var p := Prepared(name);
    FindLeftmostQuote(p, q, k);
    CleanPlaceNameOfPrepared(name);
  }

  lemma {:induction false} CleanPlaceNameOfPrepared(name: string)
    requires name != []
    ensures CleanPlaceName(name) == PreferQuoted(Prepared(name))
  {
  }


  /** The search finds the leftmost quoted name. */
  lemma {:induction false} FindLeftmostQuote(s: string, q: nat, k: nat)
    requires QuoteAt(s, q) == Some(k)
    requires forall j :: 0 <= j < q ==> QuoteAt(s, j).None?
    ensures FindQuote(s, 0) == Some((q, k))
  {
  }

  /**
   * A name that already reads as a bare place name: trimmed, white space
   * never doubled, no dot, parenthesis or double quote, no leading verb,
   * meal or travel phrase, no filler word, and neither ` and ` nor ` then `.
   */
  predicate PlainName(s: string) {
    && IsTrimmed(s) && NoAdjacentSpaces(s)
    && '.' !in s && '(' !in s && '"' !in s
    && !LeadingMatch(s, Verbs, SpaceRun)
    && !LeadingMatch(s, Meals, MealTail)
    && !LeadingMatch(s, Travel, SpaceRun)
    && (forall q: nat :: q < |s| ==> FillerAt(s, q).None?)
    && !Contains(s, " and ") && !Contains(s, " then ")
  }

  /** Without a `(` no time header matches: every time header holds one. */
  lemma {:induction false} TimeTailNeedsParen(s: string, p: nat)
    requires p <= |s| && '(' !in s
    ensures TailAt(TimeTail, s, p).None?
  {
    var j := SpaceRunEnd(s, p);
    assert j < |s| ==> s[j] != '(';
  }

  /** Without a `(` no time block matches, from any alternative `i` on. */
  lemma {:induction false} TimeBlockNeedsParen(s: string, q: nat, words: seq<string>, i: nat)
    requires q <= |s| && i <= |words| && Words(words) && '(' !in s
    ensures AltAt(s, q, words, TimeTail, i).None?
    decreases |words| - i
  {
    if i < |words| {
      if q + |words[i]| <= |s| {
        TimeTailNeedsParen(s, q + |words[i]|);
      }
      TimeBlockNeedsParen(s, q, words, i + 1);
    }
  }

  /** What follows a prefix of `s` and is as long as `s` is `s`. */
  lemma {:induction false} WholeSuffix(s: string, r: string)
    requires OccursAt(r, s, |s| - |r|) && |r| == |s|
    ensures r == s
  {
    assert s[0..|s|] == s;
  }

  /** Without a `(` there is no time header to delete. */
  lemma {:induction false} NoParenKeepsTimeBlocks(s: string)
    requires '(' !in s
    ensures DropTimeBlocks(s) == s
  {
    MatchersSound(s);
    forall q: nat | q < |s| ensures TimeBlockAt(s, q).None? {
      TimeBlockNeedsParen(s, q, TimeWords, 0);
    }
    Scan.ReplaceAllNoMatch(TimeBlockMatcher(s), s, "");
  }

  /** Without a filler word there is nothing for the filler step to delete. */
  lemma {:induction false} NoFillerKept(s: string)
    requires forall q: nat :: q < |s| ==> FillerAt(s, q).None?
    ensures DropFillers(s) == s
  {
    MatchersSound(s);
    Scan.ReplaceAllNoMatch(FillerMatcher(s), s, "");
  }

  /** A trimmed text without `(` loses no aside. */
  lemma {:induction false} NoParenKeepsAsides(s: string)
    requires '(' !in s && IsTrimmed(s)
    ensures DropAsides(s) == s
  {
    MatchersSound(s);
    Scan.ReplaceAllNoMatch(AsideMatcher(s), s, "");
    TrimTrimmed(s);
  }

  /** A trimmed text without doubled white space has nothing to collapse. */
  lemma {:induction false} CollapsedKept(s: string)
    requires IsTrimmed(s) && NoAdjacentSpaces(s)
    ensures Collapse(s) == s
  {
    MatchersSound(s);
    forall q: nat | q < |s| ensures RunAt(s, q).None? {
      if q + 1 < |s| { assert !SpacePairAt(s, q); }
    }
    Scan.ReplaceAllNoMatch(RunMatcher(s), s, " ");
    TrimTrimmed(s);
  }

  lemma {:induction false} SingleClauseKept(s: string)
    requires !Contains(s, " and ") && !Contains(s, " then ")
    ensures FirstPlace(s) == s
  {
  }

  lemma {:induction false} NoQuoteKept(s: string)
    requires '"' !in s
    ensures PreferQuoted(s) == s
  {
    assert FindQuote(s, 0).None?;
  }

  /** The cleaner leaves a bare place name as it is. */
  lemma {:induction false} CleanPlainName(name: string)
    requires PlainName(name)
    ensures CleanPlaceName(name) == name
  {
    if name != [] {
      NoParenKeepsTimeBlocks(name);
      WholeSuffix(name, DropVerb(name));
      WholeSuffix(name, DropMeal(name));
      WholeSuffix(name, DropTravel(name));
      NoFillerKept(name);
      ReplaceCharAbsent(name, '.', ' ');
      NoParenKeepsAsides(name);
      CollapsedKept(name);
      SingleClauseKept(name);
      NoQuoteKept(name);
    }
  }

  /** A quoted name, trimmed, is a part of the text and holds no quote mark. */
  lemma {:induction false} QuotedPart(p: string, q: nat, k: nat)
    requires QuoteAt(p, q) == Some(k)
    ensures Contains(p, Trim(p[q + 1..k])) && '"' !in Trim(p[q + 1..k])
  {
    var inner := p[q + 1..k];
    assert Contains(p, inner) by { assert OccursAt(inner, p, q + 1); }
    ContainsTrans(p, inner, Trim(inner));
    assert '"' !in inner by {
      forall i | 0 <= i < |inner| ensures inner[i] != '"' {
        assert inner[i] == p[q + 1 + i];
      }
    }
    PartChars(inner, Trim(inner));
  }
}

=== FILE: createtrip.dfy ===
/**
 * The new-trip form (app/screens/createTrip.tsx): four text fields, an
 * editable list of members to invite, and the checks made before the trip
 * and its members are submitted.
 *
 * `handleMemberChange` writes to `updated[index]`, which for an index past
 * the end leaves holes in the array, and both member handlers copy the
 * list with `[...prev]`, which turns every hole into a real `undefined`
 * element. A slot of the member list is therefore a `Hole`, `Undefined`
 * or a `Present` member: `filter` skips holes but visits `undefined`, and
 * reading `m.name` off `undefined` throws. The screen only calls the
 * handlers with indices of members it shows, so lists built through the
 * screen hold only present members.
 */
module CreateTrip {
  import opened Wrappers

  datatype TripField = Title | Destination | StartDate | EndDate

  datatype TripForm = TripForm(title: string, destination: string, startDate: string, endDate: string)

  const EmptyForm: TripForm := TripForm("", "", "", "")

  function Get(form: TripForm, field: TripField): string {
    match field
    case Title => form.title
    case Destination => form.destination
    case StartDate => form.startDate
    case EndDate => form.endDate
  }

  /** `handleInputChange`: only the named field changes. */
  function SetField(form: TripForm, field: TripField, value: string): (r: TripForm)
    ensures Get(r, field) == value
    ensures forall other :: other != field ==> Get(r, other) == Get(form, other)
  {
    match field
    case Title => form.(title := value)
    case Destination => form.(destination := value)
    case StartDate => form.(startDate := value)
    case EndDate => form.(endDate := value)
  }

  /** Setting a field to what it holds changes nothing; setting it twice keeps the second value. */
  lemma {:induction false} SetFieldTwice(form: TripForm, field: TripField, v: string, w: string)
    ensures SetField(form, field, Get(form, field)) == form
    ensures SetField(SetField(form, field, v), field, w) == SetField(form, field, w)
  {
  }

  datatype MemberField = Name | Email

  datatype Member = Member(name: string, email: string)

  const BlankMember: Member := Member("", "")

  function MemberGet(m: Member, f: MemberField): string {
    match f
    case Name => m.name
    case Email => m.email
  }

  function MemberSet(m: Member, f: MemberField, v: string): (r: Member)
    ensures MemberGet(r, f) == v
    ensures forall g :: g != f ==> MemberGet(r, g) == MemberGet(m, g)
  {
    match f
    case Name => m.(name := v)
    case Email => m.(email := v)
  }

  /** One element of the member array. */
  datatype Slot = Hole | Undefined | Present(member: Member)

  /** A list without holes, as `[...prev]` and `filter` return. */
  predicate NoHoles(ms: seq<Slot>) {
    forall k :: 0 <= k < |ms| ==> !ms[k].Hole?
  }

  /** A list of present members only. */
  predicate AllPresent(ms: seq<Slot>) {
    forall k :: 0 <= k < |ms| ==> ms[k].Present?
  }

  /** What `[...prev]` makes of one element: a hole is read as `undefined`. */
  function Copied(s: Slot): Slot {
    if s.Hole? then Undefined else s
  }

  /** `[...prev]`: every hole becomes `undefined`, everything else stays in place. */
  function Spread(ms: seq<Slot>): (r: seq<Slot>)
    ensures |r| == |ms| && NoHoles(r)
    ensures forall k :: 0 <= k < |ms| ==> (r[k] == ms[k] <==> !ms[k].Hole?)
    ensures forall k :: 0 <= k < |ms| ==> (r[k].Undefined? <==> !ms[k].Present?)
  {
    seq(|ms|, k requires 0 <= k < |ms| => Copied(ms[k]))
  }

  /** A list without holes is its own copy. */
  lemma {:induction false} SpreadNoHoles(ms: seq<Slot>)
    requires NoHoles(ms)
    ensures Spread(ms) == ms
  {
    var r := Spread(ms);
    forall k | 0 <= k < |ms| ensures r[k] == ms[k] {
      assert !ms[k].Hole?;
    }
  }

  /** The member `handleMemberChange` edits: the one at the index, or a blank one when the slot is falsy. */
  function Editable(s: Slot): Member {
    if s.Present? then s.member else BlankMember
  }

  /**
   * `handleMemberChange(index, field, value)`: the copied list, with the
   * member at `index`, or a blank one when there is none, given `field`
   * set to `value`. An index past the end extends the copy with holes up
   * to it; a negative index names no element, so only the copy is made.
   */
  function ChangeMember(ms: seq<Slot>, index: int, f: MemberField, v: string): (r: seq<Slot>)
    ensures index < 0 ==> r == Spread(ms)
    ensures index >= 0 ==> |r| == if index < |ms| then |ms| else index + 1
    ensures index >= 0 ==> r[index] == Present(MemberSet(if index < |ms| then Editable(ms[index]) else BlankMember, f, v))
    ensures forall k :: 0 <= k < |r| && k != index ==> r[k] == if k < |ms| then Copied(ms[k]) else Hole
  {
    var copy := Spread(ms);
    if index < 0 then copy
    else if index < |ms| then copy[index := Present(MemberSet(Editable(copy[index]), f, v))]
    else copy + seq(index - |ms|, _ => Hole) + [Present(MemberSet(BlankMember, f, v))]
  }

  /**
   * Editing a listed member changes only that field of that member; every
   * other slot is copied, which keeps it when the list has no holes.
   */
  lemma {:induction false} ChangeOnlyField(ms: seq<Slot>, index: int, f: MemberField, v: string)
    requires 0 <= index < |ms| && ms[index].Present?
    ensures var r := ChangeMember(ms, index, f, v);
      && |r| == |ms|
      && r[index].Present?
      && MemberGet(r[index].member, f) == v
      && (forall g :: g != f ==> MemberGet(r[index].member, g) == MemberGet(ms[index].member, g))
      && (forall k :: 0 <= k < |ms| && k != index ==> r[k] == Copied(ms[k]))
      && (NoHoles(ms) ==> forall k :: 0 <= k < |ms| && k != index ==> r[k] == ms[k])
  {
    var r := ChangeMember(ms, index, f, v);
    if NoHoles(ms) {
      forall k | 0 <= k < |ms| && k != index ensures r[k] == ms[k] {
        assert !ms[k].Hole?;
      }
    }
  }

  /**
   * Editing one past the last slot appends a member holding just that
   * field to the copy; a list without holes is kept in front of it.
   */
  lemma {:induction false} ChangeAtEndAppends(ms: seq<Slot>, f: MemberField, v: string)
    ensures ChangeMember(ms, |ms|, f, v) == Spread(ms) + [Present(MemberSet(BlankMember, f, v))]
    ensures NoHoles(ms) ==> ChangeMember(ms, |ms|, f, v) == ms + [Present(MemberSet(BlankMember, f, v))]
  {
    var r := ChangeMember(ms, |ms|, f, v);
    assert r == Spread(ms) + [Present(MemberSet(BlankMember, f, v))];
    if NoHoles(ms) {
      SpreadNoHoles(ms);
    }
  }

  /** `addMemberField`: one blank member after the copied list. */
  function AddMember(ms: seq<Slot>): (r: seq<Slot>)
    ensures |r| == |ms| + 1 && NoHoles(r) && r[|ms|] == Present(BlankMember)
    ensures forall k :: 0 <= k < |ms| ==> r[k] == Copied(ms[k])
    ensures NoHoles(ms) ==> r == ms + [Present(BlankMember)]
  {
    assert NoHoles(ms) ==> Spread(ms) == ms;
    Spread(ms) + [Present(BlankMember)]
  }

  /**
   * `removeMemberField(index)`: `filter((_, i) => i !== index)`, which
   * skips holes and keeps `undefined` elements.
   */
  function RemoveMember(ms: seq<Slot>, index: int): (r: seq<Slot>)
    ensures NoHoles(r) && |r| <= |ms|
    ensures forall s :: s in r ==> s in ms
    ensures NoHoles(ms) && 0 <= index < |ms| ==> r == ms[..index] + ms[index + 1..]
    ensures NoHoles(ms) && !(0 <= index < |ms|) ==> r == ms
  {
    if |ms| == 0 then []
    else
      var front := RemoveMember(ms[..|ms| - 1], index);
      var last := ms[|ms| - 1];
      var r := if |ms| - 1 != index && !last.Hole? then front + [last] else front;
      assert NoHoles(ms) ==> NoHoles(ms[..|ms| - 1]);
      assert NoHoles(ms) && 0 <= index < |ms| - 1 ==> ms[..|ms| - 1][..index] + ms[..|ms| - 1][index + 1..] + [last] == ms[..index] + ms[index + 1..];
      assert NoHoles(ms) && index == |ms| - 1 ==> ms[..index] + ms[index + 1..] == ms[..|ms| - 1];
      assert ms == ms[..|ms| - 1] + [last];
      r
  }

  /** Adding a member and removing it again gives back a list without holes. */
  lemma {:induction false} AddThenRemove(ms: seq<Slot>)
    requires NoHoles(ms)
    ensures RemoveMember(AddMember(ms), |ms|) == ms
  {
    var r := AddMember(ms);
    assert r[..|ms|] == ms;
  }

  predicate IsValidMember(m: Member) {
    m.name != [] && m.email != []
  }

  /**
   * `members.filter(m => m.name && m.email)`: holes are skipped, and an
   * `undefined` element makes it throw, which is `None`.
   */
  function ValidMembers(ms: seq<Slot>): (r: Option<seq<Member>>)
    ensures r.None? <==> Undefined in ms
    ensures r.Some? ==> |r.value| <= |ms|
    ensures r.Some? ==> forall m :: m in r.value ==> IsValidMember(m) && Present(m) in ms
  {
    if |ms| == 0 then Some([])
    else
      var front := ValidMembers(ms[..|ms| - 1]);
      var last := ms[|ms| - 1];
      assert ms == ms[..|ms| - 1] + [last];
      ValidMembersStep(front, last)
  }

  /** The filter's verdict after one more element. */
  function ValidMembersStep(front: Option<seq<Member>>, last: Slot): Option<seq<Member>> {
    if last.Undefined? || front.None? then None
    else if last.Present? && IsValidMember(last.member) then Some(front.value + [last.member])
    else front
  }

  /** The filter works piece by piece, and throws when either piece holds `undefined`. */
  lemma {:induction false} ValidMembersAppend(xs: seq<Slot>, ys: seq<Slot>)
    ensures ValidMembers(xs + ys) ==
      if ValidMembers(xs).Some? && ValidMembers(ys).Some? then Some(ValidMembers(xs).value + ValidMembers(ys).value) else None
    decreases |ys|
  {
    if |ys| == 0 {
      assert xs + ys == xs;
      assert ValidMembers(ys) == Some([]);
      if ValidMembers(xs).Some? {
        assert ValidMembers(xs).value + [] == ValidMembers(xs).value;
      }
    } else {
      var ys' := ys[..|ys| - 1];
      assert (xs + ys)[..|xs + ys| - 1] == xs + ys';
      assert (xs + ys)[|xs + ys| - 1] == ys[|ys| - 1];
      ValidMembersAppend(xs, ys');
      assert ValidMembers(ys) == ValidMembersStep(ValidMembers(ys'), ys[|ys| - 1]);
      assert ValidMembers(xs + ys) == ValidMembersStep(ValidMembers(xs + ys'), ys[|ys| - 1]);
      if ValidMembers(xs).Some? && ValidMembers(ys').Some? && ys[|ys| - 1].Present? {
        var a, b, m := ValidMembers(xs).value, ValidMembers(ys').value, ys[|ys| - 1].member;
        assert a + (b + [m]) == a + b + [m];
      }
    }
  }

  /** Unless the filter throws, every valid member in the list is kept. */
  lemma {:induction false} ValidMembersComplete(ms: seq<Slot>, k: int)
    requires 0 <= k < |ms| && ms[k].Present? && IsValidMember(ms[k].member)
    ensures ValidMembers(ms).Some? ==> ms[k].member in ValidMembers(ms).value
    decreases |ms|
  {
    if k < |ms| - 1 {
      assert ms[..|ms| - 1][k] == ms[k];
      ValidMembersComplete(ms[..|ms| - 1], k);
    }
  }

  /** A list of valid members is kept whole and in order. */
  lemma {:induction false} AllValidKept(ms: seq<Member>)
    requires forall k :: 0 <= k < |ms| ==> IsValidMember(ms[k])
    ensures ValidMembers(seq(|ms|, k requires 0 <= k < |ms| => Present(ms[k]))) == Some(ms)
    decreases |ms|
  {
    if |ms| > 0 {
      var front := ms[..|ms| - 1];
      AllValidKept(front);
      var wrapped := seq(|ms|, k requires 0 <= k < |ms| => Present(ms[k]));
      assert wrapped[..|ms| - 1] == seq(|front|, k requires 0 <= k < |front| => Present(front[k]));
      assert ValidMembers(wrapped) == ValidMembersStep(Some(front), Present(ms[|ms| - 1]));
      assert ms == front + [ms[|ms| - 1]];
    }
  }

  /** Editing slot 1 of an empty list leaves a hole in front of the new member. */
  lemma {:induction false} EditPastEnd()
    ensures ChangeMember([], 1, Name, "a") == [Hole, Present(Member("a", ""))]
  {
    var r := ChangeMember([], 1, Name, "a");
    assert r[0] == Hole && r[1] == Present(Member("a", ""));
  }

  /** Copying `[Hole, m]` turns its hole into `undefined`. */
  lemma {:induction false} SpreadHole(m: Member)
    ensures Spread([Hole, Present(m)]) == [Undefined, Present(m)]
  {
    var r := Spread([Hole, Present(m)]);
    assert r[0] == Undefined && r[1] == Present(m);
  }

  /**
   * Editing a slot past the end and then the slot the edit created leaves
   * an `undefined` in front of the member, and removing a later member
   * keeps it: the spread made the hole a real element, and the member
   * filter throws on it.
   */
  lemma {:induction false} HoleBecomesUndefined()
    ensures ChangeMember(ChangeMember([], 1, Name, "a"), 1, Email, "b") == [Undefined, Present(Member("a", "b"))]
    ensures RemoveMember(AddMember(ChangeMember([], 1, Name, "a")), 2) == [Undefined, Present(Member("a", ""))]
    ensures ValidMembers([Undefined, Present(Member("a", "b"))]).None?
  {
    EditPastEnd();
    var once: seq<Slot> := [Hole, Present(Member("a", ""))];
    SpreadHole(Member("a", ""));
    var twice := ChangeMember(once, 1, Email, "b");
    assert twice[0] == Undefined && twice[1] == Present(Member("a", "b"));
    var added := AddMember(once);
    assert added == [Undefined, Present(Member("a", "")), Present(BlankMember)];
    assert added[..2] == [Undefined, Present(Member("a", ""))];
    assert added[..2][..1] == [Undefined];
  }

  /** All four fields are non-empty strings. */
  predicate Filled(form: TripForm) {
    form.title != [] && form.destination != [] && form.startDate != [] && form.endDate != []
  }

  const NotLoggedIn: string := "You must be logged in to create a trip"
  const FillAllFields: string := "Please fill in all fields"

  /** The members call: the new trip's id and the members to add to it. */
  datatype MemberCall = MemberCall(tripId: string, members: seq<Member>)

  /** The alert shown when anything after the refusals throws. */
  const CreateFailed: string := "Failed to create trip"

  /**
   * The outcome: a refusal before anything is stored, a trip inserted and
   * its members (if any) submitted, or a trip inserted after which the
   * member filter threw and the screen shows `CreateFailed`.
   */
  datatype Creation =
    | Refused(message: string)
    | Submitted(form: TripForm, userId: string, memberCall: Option<MemberCall>)
    | Failed(form: TripForm, userId: string, message: string)

  /**
   * `handleCreateTrip`: `user` is the signed-in user's id; `created` the
   * ids of the rows the trip insert returned, or `None` when it returned
   * no data.
   */
  function CreateTrip(user: Option<string>, form: TripForm, ms: seq<Slot>, created: Option<seq<string>>): (r: Creation)
    ensures r.Refused? <==> user.None? || !Filled(form)
    ensures user.None? ==> r == Refused(NotLoggedIn)
    ensures user.Some? && !Filled(form) ==> r == Refused(FillAllFields)
    ensures r.Failed? <==> user.Some? && Filled(form) && Undefined in ms
    ensures r.Failed? ==> r == Failed(form, user.value, CreateFailed)
    ensures r.Submitted? ==> r.form == form && r.userId == user.value
    ensures r.Submitted? ==>
      (r.memberCall.Some? <==> ValidMembers(ms).value != [] && created.Some? && created.value != [])
    ensures r.Submitted? && r.memberCall.Some? ==>
      r.memberCall.value == MemberCall(created.value[0], ValidMembers(ms).value)
  {
    if user.None? then Refused(NotLoggedIn)
    else if !Filled(form) then Refused(FillAllFields)
    else
      match ValidMembers(ms)
      case None => Failed(form, user.value, CreateFailed)
      case Some(valid) =>
        var call := if |valid| > 0 && created.Some? && |created.value| > 0 then Some(MemberCall(created.value[0], valid)) else None;
        Submitted(form, user.value, call)
  }

  /** Only valid members are ever submitted. */
  lemma {:induction false} SubmittedMembersValid(user: Option<string>, form: TripForm, ms: seq<Slot>, created: Option<seq<string>>)
    requires CreateTrip(user, form, ms, created).Submitted?
    requires CreateTrip(user, form, ms, created).memberCall.Some?
    ensures forall m :: m in CreateTrip(user, form, ms, created).memberCall.value.members ==> IsValidMember(m)
  {
  }
}

=== FILE: enrich.dfy ===
/**
 * `enrichActivities` (lib/enrichActivities.ts): every parsed activity is
 * looked up with a place text search and, when a place is found, takes the
 * place's name, address, coordinates and id. Travel logistics and names
 * that clean to fewer than three characters are passed through without a
 * search; after a miss the search is retried once with the first word of
 * the cleaned name when that word is longer than three characters.
 *
 * The place search is a parameter: a function from the query to the first
 * result, or `None`. `searchPlace` catches its own errors and answers
 * `null`, so a miss and a failure look the same.
 */
module Enrich {
  import opened Wrappers
  import opened JsText
  import opened Activity
  import CleanName

  type Search = string -> Option<Place>

  /** The outcome for one activity: the activity pushed and the queries searched for it, in order. */
  datatype Step = Step(act: ParsedActivity, queries: seq<string>)

  /** The prefixes that mark an activity as pure travel logistics, in lower case. */
  const LogisticsPrefixes: seq<string> := ["arrive", "check into", "check-in", "depart", "return to"]

  /** `lower.startsWith(…) || …` on the ASCII-lower-cased, trimmed name. */
  predicate IsLogistics(name: string) {
    exists k :: 0 <= k < |LogisticsPrefixes| && StartsWith(Trim(ToLower(name)), LogisticsPrefixes[k])
  }

  /** The destination is appended when it is present and non-empty (a truthy string). */
  predicate HasDestination(destination: Option<string>) {
    destination.Some? && destination.value != []
  }

  /**
   * `` destination ? `${text} ${destination}` : text ``: the query starts
   * with the text, and is longer exactly when a destination is appended,
   * after one space.
   */
  function Query(text: string, destination: Option<string>): (q: string)
    ensures OccursAt(text, q, 0)
    ensures HasDestination(destination) <==> |q| > |text|
    ensures HasDestination(destination) ==>
      EndsWith(q, " " + destination.value) && |q| == |text| + 1 + |destination.value|
  {
    if HasDestination(destination) then
      var q := text + " " + destination.value;
      assert q[..|text|] == text;
      assert q[|q| - |" " + destination.value|..] == " " + destination.value;
      q
    else
      assert text[..|text|] == text;
      text
  }

  /** Different texts give different queries for the same destination. */
  lemma {:induction false} QueryInjective(x: string, y: string, destination: Option<string>)
    requires Query(x, destination) == Query(y, destination)
    ensures x == y
  {
    var q := Query(x, destination);
    assert |x| == |y|;
    assert x == q[..|x|] == y;
  }

  /** `cleaned.split(" ")[0]`: the first word of the cleaned name. */
  function FirstWord(cleaned: string): (w: string)
    ensures OccursAt(w, cleaned, 0) && ' ' !in w
    ensures ' ' !in cleaned ==> w == cleaned
    ensures ' ' in cleaned ==> OccursAt(w + " ", cleaned, 0)
  {
    var w := BeforeFirst(cleaned, " ");
    assert ' ' !in w by {
      if ' ' in w {
        var i :| 0 <= i < |w| && w[i] == ' ';
        assert OccursAt(" ", w, i);
      }
    }
    assert Contains(cleaned, " ") ==> ' ' in cleaned by {
      if Contains(cleaned, " ") {
        var at :| 0 <= at <= |cleaned| - 1 && OccursAt(" ", cleaned, at);
        assert cleaned[at..at + 1][0] == cleaned[at];
      }
    }
    assert cleaned[..|w|] == w by {
      if Contains(cleaned, " ") {
        assert cleaned[..|w + " "|][..|w|] == w;
      }
    }
    assert ' ' in cleaned ==> Contains(cleaned, " ") by {
      if ' ' in cleaned {
        var i :| 0 <= i < |cleaned| && cleaned[i] == ' ';
        assert OccursAt(" ", cleaned, i);
      }
    }
    w
  }

  /**
   * The loop body for one activity. Logistics and names that clean to fewer
   * than three UTF-16 code units are pushed without a search. A hit on the
   * cleaned name supplies the place; after a miss, a first word of more
   * than three code units is searched once more, and a hit there supplies
   * the place. Otherwise the original activity is pushed.
   */
  function EnrichOne(a: ParsedActivity, destination: Option<string>, search: Search): (r: Step)
    ensures SameOrigin(a, r.act)
    ensures IsLogistics(a.name) ==> r == Step(a, [])
    ensures !IsLogistics(a.name) ==> r == SearchCleaned(a, CleanName.CleanPlaceName(a.name), destination, search)
  {
    if IsLogistics(a.name) then Step(a, [])
    else SearchCleaned(a, CleanName.CleanPlaceName(a.name), destination, search)
  }

  /**
   * The searches for an activity that is not logistics, given its cleaned
   * name: none when the name is shorter than three code units; else the
   * cleaned name, and after a miss the first word when it is longer than
   * three code units.
   */
  function SearchCleaned(a: ParsedActivity, cleaned: string, destination: Option<string>, search: Search): (r: Step)
    ensures SameOrigin(a, r.act)
    ensures |r.queries| <= 2
    ensures r.queries == [] <==> Utf16Length(cleaned) < 3
    ensures r.queries == [] ==> r.act == a
    ensures r.act == a || (|r.queries| > 0 && search(r.queries[|r.queries| - 1]).Some?
                           && r.act == WithPlace(a, search(r.queries[|r.queries| - 1]).value))
    ensures r.queries != [] ==> r.queries[0] == Query(cleaned, destination)
    ensures r.queries != [] && search(r.queries[0]).Some? ==>
      r.queries == [r.queries[0]] && r.act == WithPlace(a, search(r.queries[0]).value)
    ensures r.queries != [] && search(r.queries[0]).None? ==>
      (|r.queries| == 2 <==> Utf16Length(FirstWord(cleaned)) > 3)
    ensures |r.queries| == 1 && search(r.queries[0]).None? ==> r.act == a
    ensures |r.queries| == 2 ==>
      && search(r.queries[0]).None?
      && r.queries[1] == Query(FirstWord(cleaned), destination)
      && Utf16Length(FirstWord(cleaned)) > 3
      && r.act == (if search(r.queries[1]).Some? then WithPlace(a, search(r.queries[1]).value) else a)
  {
    if Utf16Length(cleaned) < 3 then Step(a, [])
    else
      var q := Query(cleaned, destination);
      match search(q)
      case Some(p) => Step(WithPlace(a, p), [q])
      case None =>
        var first := FirstWord(cleaned);
        if Utf16Length(first) > 3 then
          var retry := Query(first, destination);
          match search(retry)
          case Some(p) => Step(WithPlace(a, p), [q, retry])
          case None => Step(a, [q, retry])
        else Step(a, [q])
  }

  /** The activities pushed, in order. */
  function Acts(steps: seq<Step>): (r: seq<ParsedActivity>)
    ensures |r| == |steps|
    ensures forall i :: 0 <= i < |steps| ==> r[i] == steps[i].act
  {
    seq(|steps|, i requires 0 <= i < |steps| => steps[i].act)
  }

  /** All queries searched, in order. */
  function Trace(steps: seq<Step>): seq<string> {
    if |steps| == 0 then [] else steps[0].queries + Trace(steps[1..])
  }

  /** `enrichActivities`: one step per activity, in order. */
  function EnrichAll(acts: seq<ParsedActivity>, destination: Option<string>, search: Search): (r: seq<Step>)
    ensures |r| == |acts|
    ensures forall i :: 0 <= i < |acts| ==> r[i] == EnrichOne(acts[i], destination, search)
  {
    if |acts| == 0 then []
    else [EnrichOne(acts[0], destination, search)] + EnrichAll(acts[1..], destination, search)
  }

  /** `enrichActivities`' result: the activities, each keeping its day, text and times. */
  function EnrichActivities(acts: seq<ParsedActivity>, destination: Option<string>, search: Search): (r: seq<ParsedActivity>)
    ensures |r| == |acts|
    ensures forall i :: 0 <= i < |acts| ==> SameOrigin(acts[i], r[i])
  {
    Acts(EnrichAll(acts, destination, search))
  }

  /** At most two searches are made per activity. */
  lemma {:induction false} TraceBound(steps: seq<Step>)
    requires forall i :: 0 <= i < |steps| ==> |steps[i].queries| <= 2
    ensures |Trace(steps)| <= 2 * |steps|
    decreases |steps|
  {
    if |steps| > 0 {
      TraceBound(steps[1..]);
    }
  }

  /** The whole run searches at most twice per activity. */
  lemma {:induction false} SearchBudget(acts: seq<ParsedActivity>, destination: Option<string>, search: Search)
    ensures |Trace(EnrichAll(acts, destination, search))| <= 2 * |acts|
  {
    TraceBound(EnrichAll(acts, destination, search));
  }

  /** With a search that never finds anything, enrichment hands the activities back unchanged. */
  lemma {:induction false} NothingFound(acts: seq<ParsedActivity>, destination: Option<string>, search: Search)
    requires forall q :: search(q).None?
    ensures EnrichActivities(acts, destination, search) == acts
  {
  }

  /** Enrichment fills the place fields all together or leaves them as they were. */
  lemma {:induction false} PlaceFieldsKept(a: ParsedActivity, destination: Option<string>, search: Search)
    requires PlaceFieldsTogether(a)
    ensures PlaceFieldsTogether(EnrichOne(a, destination, search).act)
  {
  }

  /** A query with a destination is the text, one space and the destination. */
  lemma {:induction false} QueryEndsWithDestination(text: string, destination: Option<string>)
    requires HasDestination(destination)
    ensures EndsWith(Query(text, destination), " " + destination.value)
    ensures Query(text, destination) == text + " " + destination.value
  {
    var q := Query(text, destination);
    assert q[..|text|] == text;
    assert q[|text|..] == " " + destination.value;
    assert q == q[..|text|] + q[|text|..];
  }

  /** The queries an activity may be searched with: its cleaned name, then its first word. */
  predicate QueriesFrom(queries: seq<string>, cleaned: string, destination: Option<string>) {
    && |queries| <= 2
    && (|queries| > 0 ==> queries[0] == Query(cleaned, destination))
    && (|queries| > 1 ==> queries[1] == Query(FirstWord(cleaned), destination))
  }

  lemma {:induction false} EnrichQueries(a: ParsedActivity, destination: Option<string>, search: Search)
    ensures QueriesFrom(EnrichOne(a, destination, search).queries, CleanName.CleanPlaceName(a.name), destination)
  {
  }

  /** Every query of a trip with a destination ends with a space and the destination. */
  lemma {:induction false} QueriesEndWithDestination(queries: seq<string>, cleaned: string, destination: Option<string>)
    requires QueriesFrom(queries, cleaned, destination) && HasDestination(destination)
    ensures forall i :: 0 <= i < |queries| ==> EndsWith(queries[i], " " + destination.value)
  {
    if |queries| > 0 { QueryEndsWithDestination(cleaned, destination); }
    if |queries| > 1 { QueryEndsWithDestination(FirstWord(cleaned), destination); }
  }

  /** Without a destination every query is a part of the cleaned name. */
  lemma {:induction false} QueriesArePartsOfName(queries: seq<string>, cleaned: string, destination: Option<string>)
    requires QueriesFrom(queries, cleaned, destination) && !HasDestination(destination)
    ensures forall i :: 0 <= i < |queries| ==> Contains(cleaned, queries[i])
  {
    PrefixIsPart(cleaned, |cleaned|);
    assert cleaned[..|cleaned|] == cleaned;
    PrefixIsPart(cleaned, |FirstWord(cleaned)|);
    assert cleaned[..|FirstWord(cleaned)|] == FirstWord(cleaned);
  }

  /**
   * A name that cleans to a single word of more than three characters is,
   * after a miss, searched a second time with exactly the same query.
   */
  lemma {:induction false} SingleWordRetriesSameQuery(a: ParsedActivity, destination: Option<string>, search: Search)
    requires !IsLogistics(a.name)
    requires var c := CleanName.CleanPlaceName(a.name);
      Utf16Length(c) > 3 && ' ' !in c && search(Query(c, destination)).None?
    ensures |EnrichOne(a, destination, search).queries| == 2
    ensures EnrichOne(a, destination, search).queries[0] == EnrichOne(a, destination, search).queries[1]
  {
  }
}

=== FILE: itinerary.dfy ===
/**
 * The pure shaping in lib/itineraryService.ts. Saving groups the
 * activities by day number, visits the groups in `Object.keys` order, dates
 * each day `dayNumber - 1` days after the trip start, and maps every
 * activity to one activity row. Loading attaches to each fetched day the
 * fetched activity rows that carry its id.
 *
 * The tables themselves are not modelled: a save is the list of day rows
 * it would insert, and a load works on the rows the two queries return.
 */
module Itinerary {
  import opened Wrappers
  import opened Activity
  import Calendar

  predicate Distinct<T(==)>(s: seq<T>) {
    forall i, j :: 0 <= i < j < |s| ==> s[i] != s[j]
  }

  predicate Increasing(s: seq<int>) {
    forall i, j :: 0 <= i < j < |s| ==> s[i] < s[j]
  }

  /** Some activity belongs to day `d`. */
  predicate HasDay(acts: seq<ParsedActivity>, d: int) {
    exists i :: 0 <= i < |acts| && acts[i].dayNumber == d
  }

  lemma {:induction false} HasDayPrefix(acts: seq<ParsedActivity>)
    requires |acts| > 0
    ensures forall d :: HasDay(acts, d) <==> HasDay(acts[..|acts| - 1], d) || acts[|acts| - 1].dayNumber == d
  {
    var front := acts[..|acts| - 1];
    forall d ensures HasDay(acts, d) <==> HasDay(front, d) || acts[|acts| - 1].dayNumber == d {
      if HasDay(acts, d) && acts[|acts| - 1].dayNumber != d {
        var i :| 0 <= i < |acts| && acts[i].dayNumber == d;
        assert front[i] == acts[i];
      }
      if HasDay(front, d) {
        var i :| 0 <= i < |front| && front[i].dayNumber == d;
        assert acts[i] == front[i];
      }
    }
  }

  /**
   * `activities.reduce(…)` into `acc[act.dayNumber]`: the activities are
   * added one by one, each to the end of its day's group, which is created
   * on first use.
   */
  function GroupByDay(acts: seq<ParsedActivity>): (g: map<int, seq<ParsedActivity>>)
    ensures forall d :: d in g <==> HasDay(acts, d)
    ensures forall d :: d in g ==> |g[d]| > 0
  {
    if |acts| == 0 then map[]
    else
      var acc := GroupByDay(acts[..|acts| - 1]);
      var a := acts[|acts| - 1];
      HasDayPrefix(acts);
      acc[a.dayNumber := (if a.dayNumber in acc then acc[a.dayNumber] else []) + [a]]
  }

  /** Each group holds exactly its day's activities, in input order. */
  lemma {:induction false} GroupIsOfDay(acts: seq<ParsedActivity>, d: int)
    ensures d in GroupByDay(acts) ==> GroupByDay(acts)[d] == OfDay(acts, d)
    ensures d !in GroupByDay(acts) ==> OfDay(acts, d) == []
    decreases |acts|
  {
    if |acts| > 0 {
      GroupIsOfDay(acts[..|acts| - 1], d);
    }
  }

  /** The index of the first activity of day `d`. */
  function FirstDayIndex(acts: seq<ParsedActivity>, d: int): (i: nat)
    requires HasDay(acts, d)
    ensures i < |acts| && acts[i].dayNumber == d
    ensures forall k :: 0 <= k < i ==> acts[k].dayNumber != d
  {
    if acts[0].dayNumber == d then 0
    else
      assert HasDay(acts[1..], d) by {
        var i :| 0 <= i < |acts| && acts[i].dayNumber == d;
        assert acts[1..][i - 1] == acts[i];
      }
      var i := 1 + FirstDayIndex(acts[1..], d);
      assert forall k :: 1 <= k < i ==> acts[k] == acts[1..][k - 1];
      i
  }

  /** The first index is the least index holding the day. */
  lemma {:induction false} FirstDayIndexIs(acts: seq<ParsedActivity>, d: int, i: nat)
    requires i < |acts| && acts[i].dayNumber == d
    requires forall k :: 0 <= k < i ==> acts[k].dayNumber != d
    ensures HasDay(acts, d) && FirstDayIndex(acts, d) == i
  {
    var j := FirstDayIndex(acts, d);
    assert acts[j].dayNumber == d;
  }

  /** Appending an activity does not move the first activity of a day already present. */
  lemma {:induction false} FirstDayIndexPrefix(acts: seq<ParsedActivity>, d: int)
    requires |acts| > 0 && HasDay(acts[..|acts| - 1], d)
    ensures HasDay(acts, d) && FirstDayIndex(acts, d) == FirstDayIndex(acts[..|acts| - 1], d)
  {
    var front := acts[..|acts| - 1];
    var j := FirstDayIndex(front, d);
    assert acts[j] == front[j];
    assert forall k :: 0 <= k < j ==> acts[k] == front[k];
    FirstDayIndexIs(acts, d, j);
  }

  /** The day numbers in the order their first activity appears: the insertion order of the keys. */
  function FirstAppearance(acts: seq<ParsedActivity>): (ds: seq<int>)
    ensures Distinct(ds)
    ensures forall d :: d in ds <==> HasDay(acts, d)
  {
    if |acts| == 0 then []
    else
      var front := FirstAppearance(acts[..|acts| - 1]);
      var d := acts[|acts| - 1].dayNumber;
      HasDayPrefix(acts);
      if d in front then front else front + [d]
  }

  /** The days come in the order of their first activities. */
  lemma {:induction false} FirstAppearanceOrder(acts: seq<ParsedActivity>)
    ensures forall i, j :: 0 <= i < j < |FirstAppearance(acts)| ==>
      FirstDayIndex(acts, FirstAppearance(acts)[i]) < FirstDayIndex(acts, FirstAppearance(acts)[j])
    decreases |acts|
  {
    if |acts| > 0 {
      var n := |acts|;
      var front := acts[..n - 1];
      var fs := FirstAppearance(front);
      var ds := FirstAppearance(acts);
      var d := acts[n - 1].dayNumber;
      FirstAppearanceOrder(front);
      forall x | x in fs ensures HasDay(acts, x) && FirstDayIndex(acts, x) == FirstDayIndex(front, x) {
        FirstDayIndexPrefix(acts, x);
      }
      if d !in fs {
        assert ds == fs + [d];
        assert !HasDay(front, d);
        assert forall k :: 0 <= k < n - 1 ==> acts[k].dayNumber != d by {
          forall k | 0 <= k < n - 1 ensures acts[k].dayNumber != d {
            assert front[k] == acts[k];
          }
        }
        FirstDayIndexIs(acts, d, n - 1);
        forall i, j | 0 <= i < j < |ds| ensures FirstDayIndex(acts, ds[i]) < FirstDayIndex(acts, ds[j]) {
          assert ds[i] == fs[i] && ds[i] in fs;
          if j < |fs| {
            assert ds[j] == fs[j] && ds[j] in fs;
          }
        }
      } else {
        assert ds == fs;
        forall i, j | 0 <= i < j < |ds| ensures FirstDayIndex(acts, ds[i]) < FirstDayIndex(acts, ds[j]) {
          assert ds[i] in fs && ds[j] in fs;
        }
      }
    }
  }

  /** The index of `x` in `ds`. */
  function Pos(ds: seq<int>, x: int): (k: nat)
    requires x in ds
    ensures k < |ds| && ds[k] == x
  {
    if ds[0] == x then 0 else 1 + Pos(ds[1..], x)
  }

  /** The largest array index, 2^32 - 2. */
  const MaxArrayIndex: int := 4294967294

  /** Keys that are array indices are listed by `Object.keys` before all others, in ascending order. */
  predicate IsArrayIndex(n: int) {
    0 <= n <= MaxArrayIndex
  }

  function IndexKeys(ds: seq<int>): (r: seq<int>)
    requires Distinct(ds)
    ensures Distinct(r)
    ensures forall d :: d in r <==> d in ds && IsArrayIndex(d)
  {
    if |ds| == 0 then []
    else
      var rest := IndexKeys(ds[1..]);
      assert forall d :: d in ds[1..] ==> d != ds[0];
      if IsArrayIndex(ds[0]) then [ds[0]] + rest else rest
  }

  function OtherKeys(ds: seq<int>): (r: seq<int>)
    requires Distinct(ds)
    ensures Distinct(r)
    ensures forall d :: d in r <==> d in ds && !IsArrayIndex(d)
  {
    if |ds| == 0 then []
    else
      var rest := OtherKeys(ds[1..]);
      assert forall d :: d in ds[1..] ==> d != ds[0];
      if !IsArrayIndex(ds[0]) then [ds[0]] + rest else rest
  }

  /** The non-index keys keep their relative order. */
  lemma {:induction false} OtherKeysInOrder(ds: seq<int>)
    requires Distinct(ds)
    ensures forall i, j :: 0 <= i < j < |OtherKeys(ds)| ==> Pos(ds, OtherKeys(ds)[i]) < Pos(ds, OtherKeys(ds)[j])
    decreases |ds|
  {
    if |ds| > 0 {
      var tail := ds[1..];
      var rest := OtherKeys(tail);
      OtherKeysInOrder(tail);
      if !IsArrayIndex(ds[0]) {
        OtherKeysConsOrder(ds, rest);
      } else {
        assert OtherKeys(ds) == rest;
        assert forall y :: y in rest ==> y in tail;
        forall i, j | 0 <= i < j < |rest| ensures Pos(ds, rest[i]) < Pos(ds, rest[j]) {
          assert rest[i] in rest && rest[j] in rest;
          PosTail(ds, rest[i]);
          PosTail(ds, rest[j]);
        }
      }
    }
  }

  /** Past the first element, positions shift by one. */
  lemma {:induction false} PosTail(ds: seq<int>, y: int)
    requires Distinct(ds) && |ds| > 0 && y in ds[1..]
    ensures y in ds && Pos(ds, y) == 1 + Pos(ds[1..], y)
  {
    var k := Pos(ds[1..], y);
    assert ds[k + 1] == y;
    assert ds[0] != ds[k + 1];
  }

  lemma {:induction false} OtherKeysConsOrder(ds: seq<int>, rest: seq<int>)
    requires Distinct(ds) && |ds| > 0 && !IsArrayIndex(ds[0]) && rest == OtherKeys(ds[1..])
    requires forall i, j :: 0 <= i < j < |rest| ==> Pos(ds[1..], rest[i]) < Pos(ds[1..], rest[j])
    ensures forall i, j :: 0 <= i < j < |OtherKeys(ds)| ==> Pos(ds, OtherKeys(ds)[i]) < Pos(ds, OtherKeys(ds)[j])
  {
    var r := OtherKeys(ds);
    assert r == [ds[0]] + rest;
    forall k | 0 <= k < |rest| ensures Pos(ds, rest[k]) == 1 + Pos(ds[1..], rest[k]) {
      assert rest[k] in rest;
      PosTail(ds, rest[k]);
    }
    forall i, j | 0 <= i < j < |r| ensures Pos(ds, r[i]) < Pos(ds, r[j]) {
      assert r[j] == rest[j - 1];
      if i > 0 {
        assert r[i] == rest[i - 1];
      }
    }
  }

  /** `x` put in its place in the increasing sequence `s`. */
  function Insert(x: int, s: seq<int>): (r: seq<int>)
    requires Increasing(s) && x !in s
    ensures Increasing(r) && |r| == |s| + 1
    ensures forall y :: y in r <==> y == x || y in s
  {
    if |s| == 0 then [x]
    else if x < s[0] then [x] + s
    else
      var rest := Insert(x, s[1..]);
      assert x != s[0];
      assert forall k :: 0 <= k < |rest| ==> s[0] < rest[k] by {
        forall k | 0 <= k < |rest| ensures s[0] < rest[k] {
          assert rest[k] in rest;
        }
      }
      [s[0]] + rest
  }

  /** The distinct numbers `xs` in ascending order. */
  function SortAscending(xs: seq<int>): (r: seq<int>)
    requires Distinct(xs)
    ensures Increasing(r) && |r| == |xs|
    ensures forall y :: y in r <==> y in xs
  {
    if |xs| == 0 then []
    else
      var front := xs[..|xs| - 1];
      assert xs[|xs| - 1] !in front;
      Insert(xs[|xs| - 1], SortAscending(front))
  }

  /**
   * The key order of an object whose integer keys were inserted in the
   * order `ds`: the array-index keys first and ascending, the other keys
   * after them in insertion order.
   */
  function KeyOrder(ds: seq<int>): (ks: seq<int>)
    requires Distinct(ds)
    ensures Distinct(ks)
    ensures forall d :: d in ks <==> d in ds
    ensures forall i, j :: 0 <= i < j < |ks| && IsArrayIndex(ks[j]) ==> IsArrayIndex(ks[i]) && ks[i] < ks[j]
  {
    var a := SortAscending(IndexKeys(ds));
    var b := OtherKeys(ds);
    var ks := a + b;
    forall i, j | 0 <= i < j < |ks| ensures ks[i] != ks[j] {
      if j < |a| {
      } else if i >= |a| {
        assert ks[i] == b[i - |a|] && ks[j] == b[j - |a|];
      } else {
        assert ks[i] in a && ks[j] in b;
      }
    }
    assert forall j :: |a| <= j < |ks| ==> ks[j] == b[j - |a|] && !IsArrayIndex(ks[j]);
    ks
  }

  /** The keys that are not array indices keep their insertion order. */
  lemma {:induction false} KeyOrderOthers(ds: seq<int>)
    requires Distinct(ds)
    ensures forall i, j :: 0 <= i < j < |KeyOrder(ds)| && !IsArrayIndex(KeyOrder(ds)[i]) && !IsArrayIndex(KeyOrder(ds)[j]) ==>
      Pos(ds, KeyOrder(ds)[i]) < Pos(ds, KeyOrder(ds)[j])
  {
    var a := SortAscending(IndexKeys(ds));
    var b := OtherKeys(ds);
    var ks := KeyOrder(ds);
    assert ks == a + b;
    OtherKeysInOrder(ds);
    forall i, j | 0 <= i < j < |ks| && !IsArrayIndex(ks[i]) && !IsArrayIndex(ks[j])
      ensures Pos(ds, ks[i]) < Pos(ds, ks[j])
    {
      IndexKeysFirst(ds);
      NonIndexAfter(a, b, i);
      NonIndexAfter(a, b, j);
    }
  }

  lemma {:induction false} IndexKeysFirst(ds: seq<int>)
    requires Distinct(ds)
    ensures forall i :: 0 <= i < |SortAscending(IndexKeys(ds))| ==> IsArrayIndex(SortAscending(IndexKeys(ds))[i])
  {
    var a := SortAscending(IndexKeys(ds));
    forall i | 0 <= i < |a| ensures IsArrayIndex(a[i]) {
      assert a[i] in a;
    }
  }

  lemma {:induction false} NonIndexAfter(a: seq<int>, b: seq<int>, k: int)
    requires forall i :: 0 <= i < |a| ==> IsArrayIndex(a[i])
    requires 0 <= k < |a + b| && !IsArrayIndex((a + b)[k])
    ensures |a| <= k && (a + b)[k] == b[k - |a|]
  {
  }

  /** `Object.keys(groupedByDay)`: every day number once, in the key order of its first appearance. */
  function Keys(acts: seq<ParsedActivity>): (ks: seq<int>)
    ensures Distinct(ks)
    ensures forall d :: d in ks <==> HasDay(acts, d)
    ensures forall i, j :: 0 <= i < j < |ks| && IsArrayIndex(ks[j]) ==> IsArrayIndex(ks[i]) && ks[i] < ks[j]
  {
    KeyOrder(FirstAppearance(acts))
  }

  /** The keys that are not array indices come in the order their days first appear. */
  lemma {:induction false} KeysInsertionOrder(acts: seq<ParsedActivity>)
    ensures forall i, j :: 0 <= i < j < |Keys(acts)| && !IsArrayIndex(Keys(acts)[i]) && !IsArrayIndex(Keys(acts)[j]) ==>
      FirstDayIndex(acts, Keys(acts)[i]) < FirstDayIndex(acts, Keys(acts)[j])
  {
    var ds := FirstAppearance(acts);
    var ks := Keys(acts);
    assert ks == KeyOrder(ds);
    KeyOrderOthers(ds);
    FirstAppearanceOrder(acts);
    forall i, j | 0 <= i < j < |ks| && !IsArrayIndex(ks[i]) && !IsArrayIndex(ks[j])
      ensures FirstDayIndex(acts, ks[i]) < FirstDayIndex(acts, ks[j])
    {
      assert ks[i] in ks && ks[j] in ks;
      var pi, pj := Pos(ds, ks[i]), Pos(ds, ks[j]);
      assert pi < pj;
      assert FirstDayIndex(acts, ds[pi]) < FirstDayIndex(acts, ds[pj]);
    }
  }

  /** When every day number is an array index (as the parser's 1-based numbers are), the days are visited in ascending order. */
  lemma {:induction false} KeysAscending(acts: seq<ParsedActivity>)
    requires forall i :: 0 <= i < |acts| ==> IsArrayIndex(acts[i].dayNumber)
    ensures Increasing(Keys(acts))
  {
    var ks := Keys(acts);
    forall j | 0 <= j < |ks| ensures IsArrayIndex(ks[j]) {
      assert HasDay(acts, ks[j]);
    }
  }

  /** One row of the `activities` table, without its day id. */
  datatype ActivityRow = ActivityRow(
    title: string,
    description: string,
    locationName: string,
    latitude: Option<real>,
    longitude: Option<real>,
    startTime: Option<string>,
    endTime: Option<string>)

  /** The row inserted for activity `a`; absent optional fields are stored as `null`. */
  function ToRow(a: ParsedActivity): ActivityRow {
    ActivityRow(a.name, a.rawText, a.name, a.latitude, a.longitude, a.startTime, a.endTime)
  }

  /** The activity a stored row of day `dayNumber` stands for. */
  function FromRow(r: ActivityRow, dayNumber: int): ParsedActivity {
    ParsedActivity(dayNumber, r.title, r.description, None, r.latitude, r.longitude, None, r.startTime, r.endTime)
  }

  /** Everything but the address and the place id survives the trip through a row. */
  lemma {:induction false} RowKeepsActivity(a: ParsedActivity)
    ensures FromRow(ToRow(a), a.dayNumber) == a.(address := None, placeId := None)
    ensures ToRow(a).locationName == ToRow(a).title == a.name
  {
  }

  /**
   * `groupedByDay[dayNumber].map(…)`: one row per activity, in order; each
   * row reads back as its activity without address and place id, and its
   * location is the activity's name.
   */
  function Rows(acts: seq<ParsedActivity>): (rs: seq<ActivityRow>)
    ensures |rs| == |acts|
    ensures forall i :: 0 <= i < |acts| ==> rs[i] == ToRow(acts[i])
    ensures forall i :: 0 <= i < |acts| ==>
      FromRow(rs[i], acts[i].dayNumber) == acts[i].(address := None, placeId := None) && rs[i].locationName == acts[i].name
  {
    seq(|acts|, i requires 0 <= i < |acts| => ToRow(acts[i]))
  }

  /** The `itinerary_days` row of one day and the activity rows inserted under it. */
  datatype DayPlan = DayPlan(dayNumber: int, date: string, rows: seq<ActivityRow>)

  /** The message of the `RangeError` that `toISOString` throws for an invalid date. */
  const InvalidTime: string := "Invalid time value"

  /** The date of day `dayNumber` of a trip starting on `start`: `setDate(getDate() + dayNumber - 1)`. */
  function DayDate(start: Calendar.Date, dayNumber: int): (d: Calendar.Date)
    requires Calendar.Valid(start)
    ensures Calendar.Valid(d)
    ensures Calendar.Ordinal(d) == Calendar.Ordinal(start) + dayNumber - 1
  {
    Calendar.OrdinalAdd(start, dayNumber - 1);
    Calendar.AddDays(start, dayNumber - 1)
  }

  /** The loop over the keys: a day whose date falls outside what a `Date` can hold makes the save throw. */
  function PlanDays(start: Calendar.Date, keys: seq<int>, groups: map<int, seq<ParsedActivity>>): (r: Result<seq<DayPlan>, string>)
    requires Calendar.Valid(start)
    requires forall k :: k in keys ==> k in groups
    ensures r.Failure? <==> exists i :: 0 <= i < |keys| && !Calendar.InJsRange(DayDate(start, keys[i]))
    ensures r.Failure? ==> r.error == InvalidTime
    ensures r.Success? ==> |r.value| == |keys|
    ensures r.Success? ==> forall i :: 0 <= i < |keys| ==>
      && r.value[i].dayNumber == keys[i]
      && r.value[i].rows == Rows(groups[keys[i]])
      && Calendar.InJsRange(DayDate(start, keys[i]))
      && -300000 < DayDate(start, keys[i]).year < 300000
      && r.value[i].date == Calendar.FormatDate(DayDate(start, keys[i]))
  {
    if |keys| == 0 then Success([])
    else
      var date := DayDate(start, keys[0]);
      if !Calendar.InJsRange(date) then Failure(InvalidTime)
      else
        Calendar.JsRangeYear(date);
        match PlanDays(start, keys[1..], groups)
        case Failure(e) => Failure(e)
        case Success(rest) =>
          Success([DayPlan(keys[0], Calendar.FormatDate(date), Rows(groups[keys[0]]))] + rest)
  }

  lemma {:induction false} PlanRows(start: Calendar.Date, keys: seq<int>, groups: map<int, seq<ParsedActivity>>, acts: seq<ParsedActivity>)
    requires Calendar.Valid(start)
    requires forall k :: k in keys ==> k in groups && groups[k] == OfDay(acts, k) && groups[k] != []
    ensures var r := PlanDays(start, keys, groups);
      r.Success? ==> forall i :: 0 <= i < |r.value| ==>
        r.value[i].rows == Rows(OfDay(acts, keys[i])) && r.value[i].rows != []
  {
    var r := PlanDays(start, keys, groups);
    if r.Success? {
      forall i | 0 <= i < |r.value| ensures r.value[i].rows == Rows(OfDay(acts, keys[i])) && r.value[i].rows != [] {
        assert keys[i] in keys;
      }
    }
  }

  /**
   * The pure part of `saveItinerary`: the day rows it would insert, in
   * order, or the error it would throw. A start date that does not read as
   * a day makes every day's date invalid, so any activity makes it throw.
   */
  function PlanSave(startDate: string, acts: seq<ParsedActivity>): (r: Result<seq<DayPlan>, string>)
    ensures acts == [] ==> r == Success([])
    ensures Calendar.ParseDate(startDate).None? ==> (r.Failure? <==> acts != [])
    ensures Calendar.ParseDate(startDate).Some? ==>
      (r.Success? <==> forall k :: k in Keys(acts) ==> Calendar.InJsRange(DayDate(Calendar.ParseDate(startDate).value, k)))
    ensures r.Success? ==> |r.value| == |Keys(acts)|
    ensures r.Success? ==> forall i :: 0 <= i < |r.value| ==>
      && r.value[i].dayNumber == Keys(acts)[i]
      && r.value[i].rows == Rows(OfDay(acts, Keys(acts)[i]))
      && r.value[i].rows != []
  {
    var keys := Keys(acts);
    if |keys| == 0 then Success([])
    else
      assert HasDay(acts, keys[0]);
      match Calendar.ParseDate(startDate)
      case None => Failure(InvalidTime)
      case Some(start) =>
        var groups := GroupByDay(acts);
        forall k | k in keys ensures groups[k] == OfDay(acts, k) {
          GroupIsOfDay(acts, k);
        }
        PlanRows(start, keys, groups, acts);
        PlanDays(start, keys, groups)
  }

  /**
   * A readable start date and day numbers from 1 to at most a million keep
   * every day's date within what a `Date` can hold, so the save goes through.
   */
  lemma {:induction false} SaveSucceeds(startDate: string, acts: seq<ParsedActivity>, bound: int)
    requires Calendar.ParseDate(startDate).Some?
    requires bound <= 1000000
    requires forall i :: 0 <= i < |acts| ==> 1 <= acts[i].dayNumber <= bound
    ensures PlanSave(startDate, acts).Success?
  {
    var start := Calendar.ParseDate(startDate).value;
    Calendar.OrdinalInYear(start);
    assert Calendar.Ordinal(Calendar.Epoch) == 719528;
    assert 0 <= Calendar.Ordinal(start) < 4000000 by {
      assert 0 <= Calendar.DaysBeforeYear(start.year);
      assert Calendar.DaysBeforeYear(start.year + 1) <= Calendar.DaysBeforeYear(10000) == 3652425;
    }
    forall k | k in Keys(acts) ensures Calendar.InJsRange(DayDate(start, k)) {
      assert HasDay(acts, k);
    }
  }

  /** Each planned day is dated `dayNumber - 1` days after the start date. */
  lemma {:induction false} PlanDates(startDate: string, acts: seq<ParsedActivity>)
    requires PlanSave(startDate, acts).Success? && acts != []
    ensures Calendar.ParseDate(startDate).Some?
    ensures var ps := PlanSave(startDate, acts).value;
      forall i :: 0 <= i < |ps| ==>
        && var d := DayDate(Calendar.ParseDate(startDate).value, ps[i].dayNumber);
        && -300000 < d.year < 300000
        && ps[i].date == Calendar.FormatDate(d)
  {
  }

  /** The activities whose day is one of `ks`. */
  function CountIn(acts: seq<ParsedActivity>, ks: seq<int>): (n: nat)
    ensures n <= |acts|
  {
    if |acts| == 0 then 0
    else CountIn(acts[..|acts| - 1], ks) + (if acts[|acts| - 1].dayNumber in ks then 1 else 0)
  }

  lemma {:induction false} CountSplit(acts: seq<ParsedActivity>, k: int, rest: seq<int>)
    requires k !in rest
    ensures CountIn(acts, [k] + rest) == |OfDay(acts, k)| + CountIn(acts, rest)
    decreases |acts|
  {
    if |acts| > 0 {
      CountSplit(acts[..|acts| - 1], k, rest);
    }
  }

  lemma {:induction false} CountAll(acts: seq<ParsedActivity>, ks: seq<int>)
    requires forall i :: 0 <= i < |acts| ==> acts[i].dayNumber in ks
    ensures CountIn(acts, ks) == |acts|
    decreases |acts|
  {
    if |acts| > 0 {
      CountAll(acts[..|acts| - 1], ks);
    }
  }

  /** The rows planned across all days. */
  function TotalRows(ps: seq<DayPlan>): nat {
    if |ps| == 0 then 0 else |ps[0].rows| + TotalRows(ps[1..])
  }

  lemma {:induction false} DayRowsCount(ps: seq<DayPlan>, keys: seq<int>, acts: seq<ParsedActivity>)
    requires |ps| == |keys| && Distinct(keys)
    requires forall i :: 0 <= i < |ps| ==> |ps[i].rows| == |OfDay(acts, keys[i])|
    ensures TotalRows(ps) == CountIn(acts, keys)
    decreases |ps|
  {
    if |ps| == 0 {
      CountNone(acts, keys);
    } else {
      DayRowsCount(ps[1..], keys[1..], acts);
      assert keys == [keys[0]] + keys[1..];
      CountSplit(acts, keys[0], keys[1..]);
    }
  }

  lemma {:induction false} CountNone(acts: seq<ParsedActivity>, ks: seq<int>)
    requires ks == []
    ensures CountIn(acts, ks) == 0
    decreases |acts|
  {
    if |acts| > 0 {
      CountNone(acts[..|acts| - 1], ks);
    }
  }

  /** A successful save inserts exactly one activity row per activity. */
  lemma {:induction false} SaveRowCount(startDate: string, acts: seq<ParsedActivity>)
    requires PlanSave(startDate, acts).Success?
    ensures TotalRows(PlanSave(startDate, acts).value) == |acts|
  {
    var ps := PlanSave(startDate, acts).value;
    var keys := Keys(acts);
    forall i | 0 <= i < |acts| ensures acts[i].dayNumber in keys {
      assert HasDay(acts, acts[i].dayNumber);
    }
    CountAll(acts, keys);
    DayRowsCount(ps, keys, acts);
  }

  /**
   * With day numbers from 1 to `bound`, a successful save creates one day
   * per day that has activities, in ascending day order.
   */
  lemma {:induction false} SaveDaysAscending(startDate: string, acts: seq<ParsedActivity>, bound: int)
    requires bound <= MaxArrayIndex
    requires forall i :: 0 <= i < |acts| ==> 1 <= acts[i].dayNumber <= bound
    requires PlanSave(startDate, acts).Success?
    ensures var ps := PlanSave(startDate, acts).value;
      && (forall i, j :: 0 <= i < j < |ps| ==> ps[i].dayNumber < ps[j].dayNumber)
      && (forall i :: 0 <= i < |ps| ==> 1 <= ps[i].dayNumber <= bound)
      && (forall d :: HasDay(acts, d) <==> exists i :: 0 <= i < |ps| && ps[i].dayNumber == d)
  {
    KeysAscending(acts);
    var keys := Keys(acts);
    forall i | 0 <= i < |keys| ensures 1 <= keys[i] <= bound {
      assert HasDay(acts, keys[i]);
    }
  }

  /** A successful save gives different days different dates. */
  lemma {:induction false} SaveDatesDistinct(startDate: string, acts: seq<ParsedActivity>)
    requires PlanSave(startDate, acts).Success?
    ensures var ps := PlanSave(startDate, acts).value;
      forall i, j :: 0 <= i < j < |ps| ==> ps[i].date != ps[j].date
  {
    var ps := PlanSave(startDate, acts).value;
    if acts != [] {
      PlanDates(startDate, acts);
      var start := Calendar.ParseDate(startDate).value;
      forall i, j | 0 <= i < j < |ps| ensures ps[i].date != ps[j].date {
        var a := DayDate(start, ps[i].dayNumber);
        var b := DayDate(start, ps[j].dayNumber);
        if ps[i].date == ps[j].date {
          Calendar.FormatInjective(a, b);
        }
      }
    }
  }

  /** A fetched `itinerary_days` row. */
  datatype DayRecord = DayRecord(id: string, date: string)

  /** A fetched `activities` row with its `itinerary_day_id`. */
  datatype StoredActivity = StoredActivity(dayId: string, row: ActivityRow)

  /** `{ ...day, activities }`: a day with its activities attached. */
  datatype LoadedDay = LoadedDay(day: DayRecord, activities: seq<StoredActivity>)

  /** `activities.filter(a => a.itinerary_day_id === id)`. */
  function ForDay(stored: seq<StoredActivity>, id: string): (r: seq<StoredActivity>)
    ensures forall s :: s in r ==> s in stored && s.dayId == id
    ensures forall s :: s in stored && s.dayId == id ==> s in r
    ensures |r| <= |stored|
  {
    if |stored| == 0 then []
    else
      var front := ForDay(stored[..|stored| - 1], id);
      var s := stored[|stored| - 1];
      assert stored == stored[..|stored| - 1] + [s];
      if s.dayId == id then front + [s] else front
  }

  lemma {:induction false} ForDayAppend(xs: seq<StoredActivity>, ys: seq<StoredActivity>, id: string)
    ensures ForDay(xs + ys, id) == ForDay(xs, id) + ForDay(ys, id)
    decreases |ys|
  {
    if |ys| == 0 {
      assert xs + ys == xs;
    } else {
      var ys' := ys[..|ys| - 1];
      assert (xs + ys)[..|xs + ys| - 1] == xs + ys';
      ForDayAppend(xs, ys', id);
    }
  }

  lemma {:induction false} ForDayAll(xs: seq<StoredActivity>, id: string)
    requires forall s :: s in xs ==> s.dayId == id
    ensures ForDay(xs, id) == xs
    decreases |xs|
  {
    if |xs| > 0 {
      ForDayAll(xs[..|xs| - 1], id);
      assert xs == xs[..|xs| - 1] + [xs[|xs| - 1]];
    }
  }

  lemma {:induction false} ForDayNone(xs: seq<StoredActivity>, id: string)
    requires forall s :: s in xs ==> s.dayId != id
    ensures ForDay(xs, id) == []
    decreases |xs|
  {
    if |xs| > 0 {
      ForDayNone(xs[..|xs| - 1], id);
    }
  }

  /** The filter keeps every copy of a row with the day's id and no other row. */
  lemma {:induction false} ForDayCount(xs: seq<StoredActivity>, id: string)
    ensures forall s :: multiset(ForDay(xs, id))[s] == if s.dayId == id then multiset(xs)[s] else 0
    decreases |xs|
  {
    if |xs| > 0 {
      var front := xs[..|xs| - 1];
      ForDayCount(front, id);
      assert xs == front + [xs[|xs| - 1]];
    }
  }

  /** Rows fetched in another order give each day the same rows, in another order. */
  lemma {:induction false} ForDayPermutation(xs: seq<StoredActivity>, ys: seq<StoredActivity>, id: string)
    requires multiset(xs) == multiset(ys)
    ensures multiset(ForDay(xs, id)) == multiset(ForDay(ys, id))
  {
    ForDayCount(xs, id);
    ForDayCount(ys, id);
  }

  /**
   * The pure part of `getTripItinerary` on the rows the two queries
   * return: no days (`null` or empty) gives no itinerary; otherwise every
   * day, in the order fetched, carries the fetched activities with its id,
   * in the order fetched, or none when the activity query returned `null`.
   */
  function LoadItinerary(days: Option<seq<DayRecord>>, stored: Option<seq<StoredActivity>>): (r: seq<LoadedDay>)
    ensures days.None? ==> r == []
    ensures days.Some? ==> |r| == |days.value|
    ensures forall i :: 0 <= i < |r| ==> r[i].day == days.value[i]
    ensures forall i :: 0 <= i < |r| ==> forall s :: s in r[i].activities ==>
      stored.Some? && s in stored.value && s.dayId == r[i].day.id
    ensures stored.Some? ==> forall i :: 0 <= i < |r| ==> forall s :: s in stored.value && s.dayId == r[i].day.id ==>
      s in r[i].activities
    ensures stored.None? ==> forall i :: 0 <= i < |r| ==> r[i].activities == []
    ensures days.Some? && stored.Some? ==> forall i :: 0 <= i < |r| ==> r[i].activities == ForDay(stored.value, r[i].day.id)
  {
    match days
    case None => []
    case Some(ds) =>
      if |ds| == 0 then []
      else
        var all := stored.GetOr([]);
        seq(|ds|, i requires 0 <= i < |ds| => LoadedDay(ds[i], ForDay(all, ds[i].id)))
  }

  /** The activity rows inserted for one day, tagged with its id. */
  function Tag(id: string, rows: seq<ActivityRow>): (r: seq<StoredActivity>)
    ensures |r| == |rows|
    ensures forall i :: 0 <= i < |rows| ==> r[i] == StoredActivity(id, rows[i])
  {
    seq(|rows|, i requires 0 <= i < |rows| => StoredActivity(id, rows[i]))
  }

  /** The `itinerary_days` rows a save creates, given the ids the table hands out. */
  function StoredDays(ps: seq<DayPlan>, ids: seq<string>): (r: seq<DayRecord>)
    requires |ids| == |ps|
    ensures |r| == |ps|
    ensures forall i :: 0 <= i < |ps| ==> r[i] == DayRecord(ids[i], ps[i].date)
  {
    seq(|ps|, i requires 0 <= i < |ps| => DayRecord(ids[i], ps[i].date))
  }

  /** The `activities` rows a save creates, day after day. */
  function StoredRows(ps: seq<DayPlan>, ids: seq<string>): seq<StoredActivity>
    requires |ids| == |ps|
  {
    if |ps| == 0 then [] else Tag(ids[0], ps[0].rows) + StoredRows(ps[1..], ids[1..])
  }

  lemma {:induction false} StoredRowsOfDay(ps: seq<DayPlan>, ids: seq<string>, k: int)
    requires |ids| == |ps| && Distinct(ids) && 0 <= k < |ps|
    ensures ForDay(StoredRows(ps, ids), ids[k]) == Tag(ids[k], ps[k].rows)
    decreases |ps|
  {
    var here := Tag(ids[0], ps[0].rows);
    var rest := StoredRows(ps[1..], ids[1..]);
    ForDayAppend(here, rest, ids[k]);
    if k == 0 {
      ForDayAll(here, ids[0]);
      StoredRowsOther(ps[1..], ids[1..], ids[0]);
    } else {
      assert here == Tag(ids[0], ps[0].rows);
      assert forall s :: s in here ==> s.dayId == ids[0];
      ForDayNone(here, ids[k]);
      StoredRowsOfDay(ps[1..], ids[1..], k - 1);
    }
  }

  lemma {:induction false} StoredRowsOther(ps: seq<DayPlan>, ids: seq<string>, id: string)
    requires |ids| == |ps| && id !in ids
    ensures ForDay(StoredRows(ps, ids), id) == []
    decreases |ps|
  {
    if |ps| > 0 {
      var here := Tag(ids[0], ps[0].rows);
      ForDayAppend(here, StoredRows(ps[1..], ids[1..]), id);
      ForDayNone(here, id);
      StoredRowsOther(ps[1..], ids[1..], id);
    }
  }

  /**
   * Loading what a save stored, with distinct day ids, the days fetched in
   * any order and the rows in any order (as `order("start_time")` returns
   * them), gives every fetched day the rows planned for it, each as often
   * as it was planned.
   */
  lemma {:induction false} SaveLoadAnyOrder(ps: seq<DayPlan>, ids: seq<string>, days: seq<DayRecord>, fetched: seq<StoredActivity>)
    requires |ids| == |ps| && Distinct(ids)
    requires forall d :: d in days ==> d in StoredDays(ps, ids)
    requires multiset(fetched) == multiset(StoredRows(ps, ids))
    ensures var loaded := LoadItinerary(Some(days), Some(fetched));
      && |loaded| == |days|
      && forall i, k :: 0 <= i < |days| && 0 <= k < |ps| && days[i].id == ids[k] ==>
        && loaded[i].day == DayRecord(ids[k], ps[k].date)
        && multiset(loaded[i].activities) == multiset(Tag(ids[k], ps[k].rows))
  {
    var loaded := LoadItinerary(Some(days), Some(fetched));
    var stored := StoredDays(ps, ids);
    forall i, k | 0 <= i < |days| && 0 <= k < |ps| && days[i].id == ids[k]
      ensures loaded[i].day == DayRecord(ids[k], ps[k].date)
      ensures multiset(loaded[i].activities) == multiset(Tag(ids[k], ps[k].rows))
    {
      assert days[i] in stored;
      var j :| 0 <= j < |ps| && stored[j] == days[i];
      assert j == k;
      ForDayPermutation(fetched, StoredRows(ps, ids), ids[k]);
      StoredRowsOfDay(ps, ids, k);
    }
  }

  /**
   * Loading what a save stored, with distinct day ids and the rows
   * returned in insertion order, gives every day exactly the rows planned
   * for it, in order.
   */
  lemma {:induction false} SaveLoadRoundTrip(ps: seq<DayPlan>, ids: seq<string>)
    requires |ids| == |ps| && Distinct(ids)
    ensures var loaded := LoadItinerary(Some(StoredDays(ps, ids)), Some(StoredRows(ps, ids)));
      && |loaded| == |ps|
      && forall i :: 0 <= i < |ps| ==>
        && loaded[i].day == DayRecord(ids[i], ps[i].date)
        && loaded[i].activities == Tag(ids[i], ps[i].rows)
  {
    forall i | 0 <= i < |ps| ensures ForDay(StoredRows(ps, ids), ids[i]) == Tag(ids[i], ps[i].rows) {
      StoredRowsOfDay(ps, ids, i);
    }
  }
}

=== FILE: jstext.dfy ===
/**
 * The JavaScript string operations the application relies on, over `string`
 * (a sequence of UTF-16 code units in JavaScript, `seq<char>` here):
 * the `\s` / `trim` white-space set, ASCII case folding, `startsWith`,
 * `includes`/`indexOf`, and `split` on a one-character separator.
 */
module JsText {
  import opened Wrappers

  /** ECMAScript line terminators: the characters `.` in a regular expression does not match. */
  predicate IsLineTerminator(c: char) {
    c == '\n' || c == '\r' || c == '\U{2028}' || c == '\U{2029}'
  }

  /**
   * ECMAScript white space and line terminators: exactly what `\s` matches
   * and what `String.prototype.trim` removes.
   */
  predicate IsSpace(c: char) {
    || c == '\t' || c == '\U{000B}' || c == '\U{000C}' || c == ' '
    || c == '\U{00A0}' || c == '\U{FEFF}' || c == '\U{1680}'
    || ('\U{2000}' <= c <= '\U{200A}')
    || c == '\U{202F}' || c == '\U{205F}' || c == '\U{3000}'
    || IsLineTerminator(c)
  }

  /** `\d` without the `u` flag: ASCII digits only. */
  predicate IsDigit(c: char) {
    '0' <= c <= '9'
  }

  /** The characters `\b` treats as word characters: `[A-Za-z0-9_]`. */
  predicate IsWordChar(c: char) {
    ('a' <= c <= 'z') || ('A' <= c <= 'Z') || IsDigit(c) || c == '_'
  }

  /** ASCII lower-casing of one character; every other character is kept. */
  function LowerChar(c: char): char {
    if 'A' <= c <= 'Z' then (c as int + 32) as char else c
  }

  /**
   * `String.prototype.toLowerCase` on the ASCII letters: each capital becomes
   * its small letter, every other character stays where it is.
   */
  function ToLower(s: string): (r: string)
    ensures |r| == |s|
    ensures forall i :: 0 <= i < |s| ==> !('A' <= r[i] <= 'Z')
    ensures forall i :: 0 <= i < |s| && !('A' <= s[i] <= 'Z') ==> r[i] == s[i]
    ensures forall i :: 0 <= i < |s| && 'A' <= s[i] <= 'Z' ==> r[i] as int == s[i] as int + 32
  {
    seq(|s|, i requires 0 <= i < |s| => LowerChar(s[i]))
  }

  /** Lower-casing twice is lower-casing once. */
  lemma {:induction false} ToLowerIdempotent(s: string)
    ensures ToLower(ToLower(s)) == ToLower(s)
  {
    var once := ToLower(s);
    var twice := ToLower(once);
    forall i | 0 <= i < |s| ensures twice[i] == once[i] {
      assert !('A' <= once[i] <= 'Z');
    }
  }

  /** A text without capitals is its own lower-case form. */
  lemma {:induction false} ToLowerNoCapitals(s: string)
    requires forall i :: 0 <= i < |s| ==> !('A' <= s[i] <= 'Z')
    ensures ToLower(s) == s
  {
    var r := ToLower(s);
    forall i | 0 <= i < |s| ensures r[i] == s[i] {
      assert !('A' <= s[i] <= 'Z');
    }
  }

  /**
   * `s.length`: the number of UTF-16 code units, where a character outside
   * the Basic Multilingual Plane takes two.
   */
  function Utf16Length(s: string): (n: nat)
    ensures |s| <= n <= 2 * |s|
    ensures (forall i :: 0 <= i < |s| ==> (s[i] as int) < 0x1_0000) ==> n == |s|
    ensures |s| == 1 ==> n == if (s[0] as int) < 0x1_0000 then 1 else 2
  {
    if |s| == 0 then 0
    else Utf16Length(s[..|s| - 1]) + (if (s[|s| - 1] as int) < 0x1_0000 then 1 else 2)
  }

  /** The length of a concatenation is the sum of the lengths. */
  lemma {:induction false} Utf16LengthAppend(x: string, y: string)
    ensures Utf16Length(x + y) == Utf16Length(x) + Utf16Length(y)
    decreases |y|
  {
    if |y| > 0 {
      assert (x + y)[..|x + y| - 1] == x + y[..|y| - 1];
      Utf16LengthAppend(x, y[..|y| - 1]);
    } else {
      assert x + y == x;
    }
  }

  /** The characters of `s` that are not white space, in order. */
  function NonSpace(s: string): (r: string)
    ensures |r| <= |s|
    ensures forall i :: 0 <= i < |r| ==> !IsSpace(r[i])
  {
    if |s| == 0 then []
    else (if IsSpace(s[0]) then [] else [s[0]]) + NonSpace(s[1..])
  }

  lemma {:induction false} NonSpaceAppend(x: string, y: string)
    ensures NonSpace(x + y) == NonSpace(x) + NonSpace(y)
    decreases |x|
  {
    if |x| > 0 {
      assert (x + y)[1..] == x[1..] + y;
      NonSpaceAppend(x[1..], y);
    } else {
      assert x + y == y;
    }
  }

  lemma {:induction false} NonSpaceAllSpace(s: string)
    requires AllSpace(s)
    ensures NonSpace(s) == []
    decreases |s|
  {
    if |s| > 0 {
      NonSpaceAllSpace(s[1..]);
    }
  }

  /**
   * Two texts of the same length that differ only where both hold white
   * space have the same non-space characters.
   */
  lemma {:induction false} NonSpaceUpToSpace(x: string, y: string)
    requires |x| == |y|
    requires forall i :: 0 <= i < |x| ==> x[i] == y[i] || (IsSpace(x[i]) && IsSpace(y[i]))
    ensures NonSpace(x) == NonSpace(y)
    decreases |x|
  {
    if |x| > 0 {
      assert x[0] == y[0] || (IsSpace(x[0]) && IsSpace(y[0]));
      NonSpaceUpToSpace(x[1..], y[1..]);
    }
  }

  /** Trimming removes white space only. */
  lemma {:induction false} NonSpaceTrim(s: string)
    ensures NonSpace(Trim(s)) == NonSpace(s)
  {
    var a := LeadingSpace(s);
    var r := Trim(s);
    assert s == s[..a] + r + s[a + |r|..];
    NonSpaceAppend(s[..a] + r, s[a + |r|..]);
    NonSpaceAppend(s[..a], r);
    NonSpaceAllSpace(s[..a]);
    NonSpaceAllSpace(s[a + |r|..]);
  }

  /** A global replace of one character by another, as `s.replace(/x/g, y)` does: each `x` becomes `y` in place. */
  function ReplaceChar(s: string, x: char, y: char): (r: string)
    ensures |r| == |s|
    ensures x != y ==> x !in r
    ensures forall i :: 0 <= i < |s| && s[i] != x ==> r[i] == s[i]
    ensures forall i :: 0 <= i < |s| && s[i] == x ==> r[i] == y
  {
    seq(|s|, i requires 0 <= i < |s| => if s[i] == x then y else s[i])
  }

  /** A text without the character is left as it is. */
  lemma {:induction false} ReplaceCharAbsent(s: string, x: char, y: char)
    requires x !in s
    ensures ReplaceChar(s, x, y) == s
  {
  }

  predicate StartsWith(s: string, prefix: string) {
    |prefix| <= |s| && s[..|prefix|] == prefix
  }

  predicate EndsWith(s: string, suffix: string) {
    |suffix| <= |s| && s[|s| - |suffix|..] == suffix
  }

  /** Every character of `s` is white space. */
  predicate AllSpace(s: string) {
    forall i :: 0 <= i < |s| ==> IsSpace(s[i])
  }

  /** `s` has no leading and no trailing white space. */
  predicate IsTrimmed(s: string) {
    s == [] || (!IsSpace(s[0]) && !IsSpace(s[|s| - 1]))
  }

  /** The characters at `i` and `i + 1` are both white space. */
  predicate SpacePairAt(s: string, i: int)
    requires 0 <= i < |s| - 1
  {
    IsSpace(s[i]) && IsSpace(s[i + 1])
  }

  /** No two consecutive characters of `s` are both white space. */
  predicate NoAdjacentSpaces(s: string) {
    forall i :: 0 <= i < |s| - 1 ==> !SpacePairAt(s, i)
  }

  /** `part` occurs in `s` at index `at`. */
  predicate OccursAt(part: string, s: string, at: int) {
    0 <= at && at + |part| <= |s| && s[at..at + |part|] == part
  }

  /** JavaScript's `s.includes(part)`. */
  predicate Contains(s: string, part: string) {
    exists at :: 0 <= at <= |s| - |part| && OccursAt(part, s, at)
  }

  /** Occurrence is transitive: a part of a part of `s` is a part of `s`. */
  lemma {:induction false} ContainsTrans(s: string, mid: string, part: string)
    requires Contains(s, mid) && Contains(mid, part)
    ensures Contains(s, part)
  {
    var a :| 0 <= a <= |s| - |mid| && OccursAt(mid, s, a);
    var b :| 0 <= b <= |mid| - |part| && OccursAt(part, mid, b);
    assert mid == s[a..a + |mid|];
    var x, y := s[a + b..a + b + |part|], mid[b..b + |part|];
    assert x == y by {
      forall i | 0 <= i < |part| ensures x[i] == y[i] {
        assert mid[b + i] == s[a..a + |mid|][b + i];
      }
    }
    assert OccursAt(part, s, a + b);
  }

  /** What a text lacks, each part of it lacks too. */
  lemma {:induction false} PartLacks(s: string, part: string, absent: string)
    requires Contains(s, part) && !Contains(s, absent)
    ensures !Contains(part, absent)
  {
    if Contains(part, absent) {
      ContainsTrans(s, part, absent);
    }
  }

  /** A part of `s` holds only characters of `s`. */
  lemma {:induction false} PartChars(s: string, part: string)
    requires Contains(s, part)
    ensures forall c :: c in part ==> c in s
  {
    var a :| 0 <= a <= |s| - |part| && OccursAt(part, s, a);
    forall c | c in part ensures c in s {
      var i :| 0 <= i < |part| && part[i] == c;
      assert s[a..a + |part|][i] == s[a + i];
    }
  }

  /** A part of a text without adjacent white space has none either. */
  lemma {:induction false} PartNoAdjacentSpaces(s: string, part: string)
    requires Contains(s, part) && NoAdjacentSpaces(s)
    ensures NoAdjacentSpaces(part)
  {
    var a :| 0 <= a <= |s| - |part| && OccursAt(part, s, a);
    forall i | 0 <= i < |part| - 1 ensures !SpacePairAt(part, i) {
      assert part[i] == s[a + i] && part[i + 1] == s[a + i + 1];
      assert !SpacePairAt(s, a + i);
    }
  }

  /**
   * In a trimmed text without adjacent white space, what precedes a
   * separator that starts with white space is itself trimmed.
   */
  lemma {:induction false} BeforeSpaceTrimmed(s: string, p: string, sep: string)
    requires IsTrimmed(s) && NoAdjacentSpaces(s)
    requires |sep| > 0 && IsSpace(sep[0]) && OccursAt(p + sep, s, 0)
    ensures IsTrimmed(p)
  {
    if |p| > 0 {
      assert s[..|p + sep|] == p + sep;
      assert s[0] == p[0];
      assert s[|p| - 1] == p[|p| - 1] && s[|p|] == sep[0];
      assert !SpacePairAt(s, |p| - 1);
    }
  }

  /** A prefix is a part. */
  lemma {:induction false} PrefixIsPart(s: string, n: nat)
    requires n <= |s|
    ensures Contains(s, s[..n])
  {
    assert OccursAt(s[..n], s, 0);
  }

  /** The index of the first `c` at or after `from`, or `|s|` when there is none. */
  function NextChar(s: string, from: nat, c: char): (k: nat)
    requires from <= |s|
    ensures from <= k <= |s|
    ensures forall i :: from <= i < k ==> s[i] != c
    ensures k < |s| ==> s[k] == c
    decreases |s| - from
  {
    if from == |s| || s[from] == c then from else NextChar(s, from + 1, c)
  }

  /** The end of the run of white space that starts at index `from` (greedy `\s*`). */
  function SpaceRunEnd(s: string, from: nat): (k: nat)
    requires from <= |s|
    ensures from <= k <= |s|
    ensures forall i :: from <= i < k ==> IsSpace(s[i])
    ensures k == |s| || !IsSpace(s[k])
    decreases |s| - from
  {
    if from < |s| && IsSpace(s[from]) then SpaceRunEnd(s, from + 1) else from
  }

  /** The length of the run of white space at the start of `s`. */
  function LeadingSpace(s: string): (n: nat)
    ensures n <= |s|
    ensures AllSpace(s[..n])
    ensures n == |s| || !IsSpace(s[n])
  {
    if |s| > 0 && IsSpace(s[0]) then
      var n := 1 + LeadingSpace(s[1..]);
      assert s[..n] == [s[0]] + s[1..][..n - 1];
      n
    else 0
  }

  /** The length of the run of white space at the end of `s`. */
  function TrailingSpace(s: string): (n: nat)
    ensures n <= |s|
    ensures AllSpace(s[|s| - n..])
    ensures n == |s| || !IsSpace(s[|s| - n - 1])
  {
    if |s| > 0 && IsSpace(s[|s| - 1]) then
      var n := 1 + TrailingSpace(s[..|s| - 1]);
      assert s[|s| - n..] == s[..|s| - 1][|s| - n..] + [s[|s| - 1]];
      n
    else 0
  }

  /**
   * `String.prototype.trim`: `s` without its leading and trailing white
   * space, everything between kept as it is.
   */
  function Trim(s: string): (r: string)
    ensures IsTrimmed(r)
    ensures |r| <= |s|
    ensures OccursAt(r, s, LeadingSpace(s))
    ensures AllSpace(s[..LeadingSpace(s)]) && AllSpace(s[LeadingSpace(s) + |r|..])
    ensures AllSpace(s) <==> r == []
  {
    var a := LeadingSpace(s);
    if a == |s| then
      assert s[..a] == s;
      []
    else
      var b := |s| - TrailingSpace(s);
      assert !IsSpace(s[a]);
      forall k | b <= k < |s| ensures IsSpace(s[k]) {
        assert s[k] == s[b..][k - b];
      }
      assert s[a..b][0] == s[a];
      assert s[a..b][b - a - 1] == s[b - 1];
      assert s[a + (b - a)..] == s[|s| - TrailingSpace(s)..];
      assert !AllSpace(s) by { assert !IsSpace(s[a]); }
      s[a..b]
  }

  /** Trimming leaves a trimmed text as it is. */
  lemma {:induction false} TrimTrimmed(s: string)
    requires IsTrimmed(s)
    ensures Trim(s) == s
  {
    if |s| > 0 {
      assert LeadingSpace(s) == 0;
      assert TrailingSpace(s) == 0;
    }
  }

  /** The first index at which `part` occurs in `s` (`s.indexOf(part)`), if any. */
  function IndexOf(s: string, part: string): (r: Option<nat>)
    ensures r.Some? ==> OccursAt(part, s, r.value)
    ensures r.Some? ==> forall j :: 0 <= j < r.value ==> !OccursAt(part, s, j)
    ensures r.None? <==> !Contains(s, part)
  {
    IndexFrom(s, part, 0)
  }

  function IndexFrom(s: string, part: string, from: nat): (r: Option<nat>)
    requires forall j :: 0 <= j < from ==> !OccursAt(part, s, j)
    ensures r.Some? ==> OccursAt(part, s, r.value)
    ensures r.Some? ==> forall j :: 0 <= j < r.value ==> !OccursAt(part, s, j)
    ensures r.None? ==> forall j :: !OccursAt(part, s, j)
    decreases |s| - from
  {
    if from + |part| > |s| then None
    else if s[from..from + |part|] == part then Some(from)
    else IndexFrom(s, part, from + 1)
  }

  /**
   * `s.split(sep)[0]` for a non-empty separator: the text before the first
   * occurrence of `sep`, or all of `s` when it does not occur.
   */
  function BeforeFirst(s: string, sep: string): (r: string)
    requires |sep| > 0
    ensures Contains(s, sep) ==> OccursAt(r + sep, s, 0) && !Contains(r, sep)
    ensures !Contains(s, sep) ==> r == s
  {
    match IndexOf(s, sep)
    case None => s
    case Some(i) =>
      assert s[..i + |sep|] == s[..i] + sep;
      assert !Contains(s[..i], sep) by {
        forall j | OccursAt(sep, s[..i], j) ensures false {
          assert s[j..j + |sep|] == s[..i][j..j + |sep|];
          assert OccursAt(sep, s, j);
        }
      }
      s[..i]
  }

  /**
   * What precedes the first separator is a part of `s` without the
   * separator; when `s` is trimmed, has no adjacent white space and the
   * separator starts with white space, so is that part.
   */
  lemma {:induction false} BeforeFirstPart(s: string, sep: string)
    requires |sep| > 0
    ensures Contains(s, BeforeFirst(s, sep)) && !Contains(BeforeFirst(s, sep), sep)
    ensures IsTrimmed(s) && NoAdjacentSpaces(s) && IsSpace(sep[0]) ==>
      IsTrimmed(BeforeFirst(s, sep)) && NoAdjacentSpaces(BeforeFirst(s, sep))
  {
    var r := BeforeFirst(s, sep);
    if Contains(s, sep) {
      assert s[..|r|] == r;
      PrefixIsPart(s, |r|);
      if IsTrimmed(s) && NoAdjacentSpaces(s) && IsSpace(sep[0]) {
        BeforeSpaceTrimmed(s, r, sep);
      }
    } else {
      assert s[..|s|] == s;
      PrefixIsPart(s, |s|);
    }
    if NoAdjacentSpaces(s) {
      PartNoAdjacentSpaces(s, r);
    }
  }

  /** The first index of character `c` in `s`. */
  function FirstIndexOf(s: string, c: char): (i: nat)
    requires c in s
    ensures i < |s| && s[i] == c && c !in s[..i]
  {
    if s[0] == c then 0
    else
      var i := 1 + FirstIndexOf(s[1..], c);
      assert s[..i] == [s[0]] + s[1..][..i - 1];
      i
  }

  /** Glues `parts` back together with `sep` between consecutive parts. */
  function Join(parts: seq<string>, sep: char): string {
    if |parts| == 0 then []
    else if |parts| == 1 then parts[0]
    else parts[0] + [sep] + Join(parts[1..], sep)
  }

  /**
   * `s.split(sep)` for a one-character separator: the pieces between the
   * occurrences of `sep`, in order; `"".split(",")` is `[""]`.
   */
  function Split(s: string, sep: char): (r: seq<string>)
    ensures |r| >= 1
    ensures forall i :: 0 <= i < |r| ==> sep !in r[i]
    ensures Join(r, sep) == s
    decreases |s|
  {
    if sep in s then
      var i := FirstIndexOf(s, sep);
      var rest := Split(s[i + 1..], sep);
      assert s == s[..i] + [sep] + s[i + 1..];
      [s[..i]] + rest
    else [s]
  }

  /** The pieces of `Split` are the only separator-free pieces that join back to `s`. */
  lemma {:induction false} SplitUnique(s: string, sep: char, parts: seq<string>)
    requires |parts| >= 1
    requires forall i :: 0 <= i < |parts| ==> sep !in parts[i]
    requires Join(parts, sep) == s
    ensures parts == Split(s, sep)
    decreases |s|
  {
    if |parts| == 1 {
      assert sep !in s;
    } else {
      var tail := Join(parts[1..], sep);
      assert s == parts[0] + [sep] + tail;
      assert s[|parts[0]|] == sep;
      assert sep in s;
      var i := FirstIndexOf(s, sep);
      assert i == |parts[0]|;
      assert s[..i] == parts[0];
      assert s[i + 1..] == tail;
      SplitUnique(tail, sep, parts[1..]);
      assert parts == [parts[0]] + parts[1..];
    }
  }
}

=== FILE: onboarding.dfy ===
/**
 * The profile-completion swiper (components/OnboardingSwiper.tsx): five
 * steps (welcome, full name, date of birth, profile picture, all set),
 * moved through with Next and Previous. Next checks the current step's
 * field first; Next on the last step completes onboarding, which rewrites
 * the date of birth from `MM-DD-YYYY` to `YYYY-MM-DD` and uploads the
 * avatar when it is a local file.
 *
 * Alerts, the image picker and the storage and table calls are left out;
 * the picker's answer and the upload's public URL are parameters.
 */
module Onboarding {
  import opened Wrappers
  import opened JsText

  /** Welcome, full name, date of birth, profile picture, all set. */
  const StepCount: nat := 5
  const LastStep: nat := StepCount - 1

  datatype Form = Form(fullName: string, dob: string, avatarUrl: string)

  /** The form the swiper opens with: the profile's name and avatar, or `''`, and no date of birth. */
  function InitialForm(fullName: string, avatarUrl: string): (f: Form)
    ensures f.fullName == fullName && f.avatarUrl == avatarUrl
    ensures f.dob == []
  {
    Form(fullName, [], avatarUrl)
  }

  /** `/^\d{2}-\d{2}-\d{4}$/`: two digits, a dash, two digits, a dash, four digits, and nothing else. */
  predicate IsDobFormat(dob: string) {
    && |dob| == 10
    && dob[2] == '-' && dob[5] == '-'
    && (forall i :: 0 <= i < 10 && i != 2 && i != 5 ==> IsDigit(dob[i]))
  }

  const NameMissing: string := "Please enter your full name"
  const DobMissing: string := "Please enter your date of birth"
  const DobMalformed: string := "Please enter date of birth in MM-DD-YYYY format"

  /** The opening form cannot leave the date-of-birth step until a date is typed. */
  lemma {:induction false} InitialFormNeedsDob(fullName: string, avatarUrl: string)
    ensures ValidateStep(2, InitialForm(fullName, avatarUrl)) == Some(DobMissing)
  {
    assert AllSpace([]);
  }

  /** A date of birth in the expected format is never blank. */
  lemma {:induction false} DobFormatNotBlank(dob: string)
    requires IsDobFormat(dob)
    ensures Trim(dob) != []
  {
    assert !IsSpace(dob[0]);
  }

  /** `validateStep`: the alert shown, or `None` when the step may be left. */
  function ValidateStep(step: int, form: Form): (r: Option<string>)
    ensures step == 1 ==> (r.None? <==> Trim(form.fullName) != [])
    ensures step == 2 ==> (r.None? <==> IsDobFormat(form.dob))
    ensures step != 1 && step != 2 ==> r == None
    ensures r.Some? ==> r.value == NameMissing || r.value == DobMissing || r.value == DobMalformed
  {
    if step == 1 then
      if Trim(form.fullName) == [] then Some(NameMissing) else None
    else if step == 2 then
      if Trim(form.dob) == [] then Some(DobMissing)
      else if !IsDobFormat(form.dob) then Some(DobMalformed)
      else None
    else None
  }

  /** What pressing Next does. */
  datatype Transition = Rejected(message: string) | MoveTo(step: int) | Complete

  /** `handleNext`. */
  function Next(step: int, form: Form): (t: Transition)
    requires 0 <= step <= LastStep
    ensures t.Rejected? <==> ValidateStep(step, form).Some?
    ensures t.MoveTo? ==> step < LastStep && t.step == step + 1
    ensures t.Complete? <==> step == LastStep
  {
    match ValidateStep(step, form)
    case Some(message) => Rejected(message)
    case None => if step < LastStep then MoveTo(step + 1) else Complete
  }

  /** `handlePrevious`. */
  function Previous(step: int): (s: int)
    ensures step > 0 ==> s == step - 1
    ensures step <= 0 ==> s == step
    ensures 0 <= step <= LastStep ==> 0 <= s <= LastStep
  {
    if step > 0 then step - 1 else step
  }

  /** What the user does. Each field can only be edited on the step that shows it. */
  datatype Event = PressNext | PressPrevious | TypeName(value: string) | TypeDob(value: string) | PickImage(uri: Option<string>)

  datatype State = State(step: int, form: Form)

  /** The state after one event; a picker that was cancelled answers `None`. */
  function Apply(s: State, e: Event): (r: State)
    requires 0 <= s.step <= LastStep
    ensures 0 <= r.step <= LastStep
    ensures r.step != s.step ==> r.form == s.form
  {
    match e
    case PressNext =>
      (match Next(s.step, s.form)
       case MoveTo(step) => s.(step := step)
       case _ => s)
    case PressPrevious => s.(step := Previous(s.step))
    case TypeName(v) => if s.step == 1 then s.(form := s.form.(fullName := v)) else s
    case TypeDob(v) => if s.step == 2 then s.(form := s.form.(dob := v)) else s
    case PickImage(uri) =>
      if s.step == 3 && uri.Some? then s.(form := s.form.(avatarUrl := uri.value)) else s
  }

  /** Onboarding completes on this event exactly when Next is pressed on the last step. */
  predicate Completes(s: State, e: Event)
    requires 0 <= s.step <= LastStep
  {
    e.PressNext? && Next(s.step, s.form).Complete?
  }

  /** The state after a series of events. */
  function Run(s: State, events: seq<Event>): (r: State)
    requires 0 <= s.step <= LastStep
    ensures 0 <= r.step <= LastStep
    decreases |events|
  {
    if |events| == 0 then s else Run(Apply(s, events[0]), events[1..])
  }

  /** Every step already passed was passed with a valid field. */
  predicate Passed(s: State) {
    && 0 <= s.step <= LastStep
    && (s.step > 1 ==> Trim(s.form.fullName) != [])
    && (s.step > 2 ==> IsDobFormat(s.form.dob))
  }

  lemma {:induction false} ApplyKeepsPassed(s: State, e: Event)
    requires Passed(s)
    ensures Passed(Apply(s, e))
  {
  }

  /** Whatever the user does, the swiper stays on one of its steps and never skips a check. */
  lemma {:induction false} RunKeepsPassed(s: State, events: seq<Event>)
    requires Passed(s)
    ensures Passed(Run(s, events))
    decreases |events|
  {
    if |events| > 0 {
      ApplyKeepsPassed(s, events[0]);
      RunKeepsPassed(Apply(s, events[0]), events[1..]);
    }
  }

  /** Onboarding only completes with a non-blank name and a date of birth in the expected format. */
  lemma {:induction false} CompletionHasValidForm(s: State, e: Event)
    requires Passed(s) && Completes(s, e)
    ensures Trim(s.form.fullName) != [] && IsDobFormat(s.form.dob)
  {
  }

  /** The value of a destructured piece: a missing one is `undefined`, which the template prints as such. */
  function Piece(parts: seq<string>, i: nat): string {
    if i < |parts| then parts[i] else "undefined"
  }

  /** `const [month, day, year] = dob.split('-')` and `${year}-${month}-${day}`. */
  function ReformatDob(dob: string): (r: string)
    ensures IsDobFormat(dob) ==> r == dob[6..] + "-" + dob[..2] + "-" + dob[3..5]
    ensures '-' !in dob ==> r == "undefined-" + dob + "-undefined"
  {
    DobPieces(dob);
    var parts := Split(dob, '-');
    Piece(parts, 2) + "-" + Piece(parts, 0) + "-" + Piece(parts, 1)
  }

  /** A date of birth in the expected format splits into month, day and year. */
  lemma {:induction false} DobPieces(dob: string)
    ensures IsDobFormat(dob) ==> Split(dob, '-') == [dob[..2], dob[3..5], dob[6..]]
  {
    if IsDobFormat(dob) {
      var parts := [dob[..2], dob[3..5], dob[6..]];
      assert Join(parts[1..][1..], '-') == dob[6..];
      assert Join(parts[1..], '-') == dob[3..5] + "-" + dob[6..];
      assert dob == dob[..2] + "-" + dob[3..5] + "-" + dob[6..];
      SplitUnique(dob, '-', parts);
    }
  }

  /** A `YYYY-MM-DD` date read back in the order the swiper asks for it. */
  function IsoToUs(iso: string): string
    requires |iso| == 10
  {
    iso[5..7] + "-" + iso[8..] + "-" + iso[..4]
  }

  /** The reformatted date of birth holds the same three fields: reading it back gives the typed text. */
  lemma {:induction false} ReformatRoundTrip(dob: string)
    requires IsDobFormat(dob)
    ensures |ReformatDob(dob)| == 10
    ensures IsoToUs(ReformatDob(dob)) == dob
  {
    var r := ReformatDob(dob);
    assert r[5..7] == dob[..2];
    assert r[8..] == dob[3..5];
    assert r[..4] == dob[6..];
  }

  /** `avatarUrl && avatarUrl.startsWith('file://')`: only a local file is uploaded. */
  predicate ShouldUpload(avatarUrl: string) {
    avatarUrl != [] && StartsWith(avatarUrl, "file://")
  }

  /** The profile row written on completion. */
  datatype Profile = Profile(fullName: string, dob: string, avatarUrl: string)

  /**
   * `completeOnboarding`: `uploaded` is the public URL when an upload was
   * made and succeeded, `None` when it failed.
   */
  function CompleteProfile(form: Form, uploaded: Option<string>): (p: Profile)
    ensures p.fullName == form.fullName
    ensures p.dob == ReformatDob(form.dob)
    ensures p.avatarUrl != form.avatarUrl ==> ShouldUpload(form.avatarUrl) && uploaded == Some(p.avatarUrl)
    ensures ShouldUpload(form.avatarUrl) && uploaded.Some? ==> p.avatarUrl == uploaded.value
  {
    var avatar := if ShouldUpload(form.avatarUrl) && uploaded.Some? then uploaded.value else form.avatarUrl;
    Profile(form.fullName, ReformatDob(form.dob), avatar)
  }

  /** An avatar that is already a remote URL is kept as it is. */
  lemma {:induction false} RemoteAvatarKept(form: Form, uploaded: Option<string>)
    requires StartsWith(form.avatarUrl, "https://")
    ensures CompleteProfile(form, uploaded).avatarUrl == form.avatarUrl
  {
    assert form.avatarUrl[4] != "file://"[4];
  }
}

=== FILE: scan.dfy ===
/**
 * Left-to-right scanning of a text with a recogniser, as JavaScript's
 * `String.prototype.split` and global `replace` do with a regular
 * expression that never matches the empty string. A recogniser is given as
 * a `Matcher` for one fixed text: at each index it yields the end of the
 * match starting there, if any. Keeping the recogniser abstract here lets
 * the proofs below hold for every regular expression the application uses.
 */
module Scan {
  import opened Wrappers

  type Matcher = nat -> Option<nat>

  /** Every match of `f` in a text of length `n` is non-empty and ends inside the text. */
  ghost predicate Sound(f: Matcher, n: nat) {
    forall q: nat :: f(q).Some? ==> q < f(q).value <= n
  }

  /** No match of `f` starts at an index in `[from, to)`. */
  ghost predicate NoMatchIn(f: Matcher, from: nat, to: nat) {
    forall p :: from <= p < to ==> f(p).None?
  }

  datatype Span = Span(start: nat, end: nat)

  /** The leftmost match starting at or after `from`. */
  function NextMatch(f: Matcher, n: nat, from: nat): (r: Option<Span>)
    requires Sound(f, n) && from <= n
    ensures r.Some? ==> from <= r.value.start < r.value.end <= n && f(r.value.start) == Some(r.value.end)
    ensures r.Some? ==> NoMatchIn(f, from, r.value.start)
    ensures r.None? ==> NoMatchIn(f, from, n)
    decreases n - from
  {
    if from == n then None
    else match f(from)
      case Some(e) => Some(Span(from, e))
      case None => NextMatch(f, n, from + 1)
  }

  /**
   * One separator match and the text after it: the match is
   * `[start, sepEnd)`, the following text `[sepEnd, end)`.
   */
  datatype Block = Block(start: nat, sepEnd: nat, end: nat)

  predicate InBounds(n: nat, b: Block) {
    b.start <= b.sepEnd <= b.end <= n
  }

  ghost predicate ValidBlock(f: Matcher, n: nat, b: Block) {
    && b.start < b.sepEnd <= b.end <= n
    && f(b.start) == Some(b.sepEnd)
    && NoMatchIn(f, b.sepEnd, b.end)
  }

  /** Block `i` ends where block `i + 1` starts. */
  predicate Linked(bs: seq<Block>, i: int)
    requires 0 <= i < |bs| - 1
  {
    bs[i].end == bs[i + 1].start
  }

  /** `bs` are valid consecutive blocks, the first starting at `start`, the last reaching `n`. */
  ghost predicate ChainFrom(f: Matcher, n: nat, bs: seq<Block>, start: nat) {
    && |bs| >= 1
    && bs[0].start == start
    && (forall i :: 0 <= i < |bs| ==> ValidBlock(f, n, bs[i]))
    && (forall i :: 0 <= i < |bs| - 1 ==> Linked(bs, i))
    && bs[|bs| - 1].end == n
  }

  /**
   * The specification of splitting on a separator: after a prefix holding
   * no match, the text is cut into consecutive blocks, each opened by a
   * match and holding no other match start.
   */
  ghost predicate IsSplit(f: Matcher, n: nat, bs: seq<Block>) {
    if |bs| == 0 then NoMatchIn(f, 0, n)
    else NoMatchIn(f, 0, bs[0].start) && ChainFrom(f, n, bs, bs[0].start)
  }

  function SplitFrom(f: Matcher, n: nat, m: Span): (bs: seq<Block>)
    requires Sound(f, n) && m.start < m.end <= n && f(m.start) == Some(m.end)
    ensures |bs| >= 1 && bs[0].start == m.start
    ensures forall i :: 0 <= i < |bs| ==> InBounds(n, bs[i])
    decreases n - m.start
  {
    match NextMatch(f, n, m.end)
    case None => [Block(m.start, m.end, n)]
    case Some(next) => [Block(m.start, m.end, next.start)] + SplitFrom(f, n, next)
  }

  lemma {:induction false} SplitFromIsChain(f: Matcher, n: nat, m: Span)
    requires Sound(f, n) && m.start < m.end <= n && f(m.start) == Some(m.end)
    ensures ChainFrom(f, n, SplitFrom(f, n, m), m.start)
    decreases n - m.start
  {
    var bs := SplitFrom(f, n, m);
    match NextMatch(f, n, m.end)
    case None =>
    case Some(next) =>
      SplitFromIsChain(f, n, next);
      var rest := SplitFrom(f, n, next);
      assert bs == [Block(m.start, m.end, next.start)] + rest;
      forall i | 0 <= i < |bs| - 1 ensures Linked(bs, i) {
        if i > 0 {
          assert Linked(rest, i - 1);
        }
      }
      forall i | 0 <= i < |bs| ensures ValidBlock(f, n, bs[i]) {
        if i > 0 {
          assert bs[i] == rest[i - 1];
        }
      }
  }

  /** `split` with a capturing separator, read as separator/text pairs; the text before the first separator is dropped. */
  function Split(f: Matcher, n: nat): (bs: seq<Block>)
    requires Sound(f, n)
    ensures forall i :: 0 <= i < |bs| ==> InBounds(n, bs[i])
  {
    match NextMatch(f, n, 0)
    case None => []
    case Some(m) => SplitFrom(f, n, m)
  }

  /** `Split` meets the specification of splitting. */
  lemma {:induction false} SplitIsSplit(f: Matcher, n: nat)
    requires Sound(f, n)
    ensures IsSplit(f, n, Split(f, n))
  {
    match NextMatch(f, n, 0)
    case None =>
    case Some(m) => SplitFromIsChain(f, n, m);
  }

  lemma {:induction false} ChainTail(f: Matcher, n: nat, bs: seq<Block>, start: nat)
    requires ChainFrom(f, n, bs, start) && |bs| > 1
    ensures ChainFrom(f, n, bs[1..], bs[1].start)
  {
    var rest := bs[1..];
    forall i | 0 <= i < |rest| - 1 ensures Linked(rest, i) {
      assert Linked(bs, i + 1);
      assert rest[i] == bs[i + 1] && rest[i + 1] == bs[i + 2];
    }
  }

  /** A chain opened by match `m` has one block exactly when no match follows `m`; otherwise its first block ends at the next match. */
  lemma {:induction false} FirstBlockOfChain(f: Matcher, n: nat, bs: seq<Block>, m: Span)
    requires Sound(f, n) && m.start < m.end <= n && f(m.start) == Some(m.end)
    requires ChainFrom(f, n, bs, m.start)
    ensures bs[0] == Block(m.start, m.end, bs[0].end)
    ensures NextMatch(f, n, m.end).None? ==> |bs| == 1
    ensures NextMatch(f, n, m.end).Some? ==> |bs| > 1 && bs[0].end == NextMatch(f, n, m.end).value.start
  {
    assert ValidBlock(f, n, bs[0]);
    if |bs| > 1 {
      assert ValidBlock(f, n, bs[1]);
      assert Linked(bs, 0);
    }
  }

  lemma {:induction false} SplitFromUnique(f: Matcher, n: nat, bs: seq<Block>, m: Span)
    requires Sound(f, n) && m.start < m.end <= n && f(m.start) == Some(m.end)
    requires ChainFrom(f, n, bs, m.start)
    ensures bs == SplitFrom(f, n, m)
    decreases n - m.start
  {
    FirstBlockOfChain(f, n, bs, m);
    match NextMatch(f, n, m.end)
    case None =>
    case Some(next) =>
      ChainTail(f, n, bs, m.start);
      assert Linked(bs, 0);
      assert bs[1..][0] == bs[1];
      SplitFromUnique(f, n, bs[1..], next);
      assert bs == [bs[0]] + bs[1..];
  }

  /** Splitting has exactly one outcome: every split meeting the specification is `Split(f, n)`. */
  lemma {:induction false} SplitUnique(f: Matcher, n: nat, bs: seq<Block>)
    requires Sound(f, n)
    requires IsSplit(f, n, bs)
    ensures bs == Split(f, n)
  {
    match NextMatch(f, n, 0)
    case None =>
    case Some(m) =>
      if |bs| > 0 {
        assert ValidBlock(f, n, bs[0]);
        SplitFromUnique(f, n, bs, m);
      }
  }

  /**
   * Global `replace(regex, rep)` from index `from`: each match, taken
   * left to right and never overlapping, becomes `rep`; every other
   * character is copied.
   */
  function ReplaceFrom(f: Matcher, s: string, from: nat, rep: string): (r: string)
    requires Sound(f, |s|) && from <= |s|
    ensures forall c :: c in r ==> c in s[from..] || c in rep
    decreases |s| - from
  {
    if from == |s| then []
    else match f(from)
      case Some(e) =>
        var rest := ReplaceFrom(f, s, e, rep);
        assert forall c :: c in s[e..] ==> c in s[from..] by {
          assert s[e..] == s[from..][e - from..];
        }
        rep + rest
      case None =>
        var rest := ReplaceFrom(f, s, from + 1, rep);
        assert s[from..] == [s[from]] + s[from + 1..];
        [s[from]] + rest
  }

  /** The text after each block's separator, each preceded by `rep`. */
  function Glue(s: string, bs: seq<Block>, rep: string): string
    requires forall i :: 0 <= i < |bs| ==> InBounds(|s|, bs[i])
  {
    if |bs| == 0 then []
    else
      assert InBounds(|s|, bs[0]);
      rep + s[bs[0].sepEnd..bs[0].end] + Glue(s, bs[1..], rep)
  }

  /**
   * `s` read through its blocks with every separator replaced by `rep`:
   * the text before the first block, then `rep` and the text of each block.
   */
  function Spliced(s: string, bs: seq<Block>, rep: string): string
    requires forall i :: 0 <= i < |bs| ==> InBounds(|s|, bs[i])
  {
    if |bs| == 0 then s
    else
      assert InBounds(|s|, bs[0]);
      s[..bs[0].start] + Glue(s, bs, rep)
  }

  /** A stretch without a match start is copied as it is. */
  lemma {:induction false} ReplaceFromSkip(f: Matcher, s: string, from: nat, until: nat, rep: string)
    requires Sound(f, |s|) && from <= until <= |s|
    requires NoMatchIn(f, from, until)
    ensures ReplaceFrom(f, s, from, rep) == s[from..until] + ReplaceFrom(f, s, until, rep)
    decreases until - from
  {
    if from < until {
      assert f(from).None?;
      var rest := ReplaceFrom(f, s, from + 1, rep);
      assert ReplaceFrom(f, s, from, rep) == [s[from]] + rest;
      ReplaceFromSkip(f, s, from + 1, until, rep);
      assert s[from..until] == [s[from]] + s[from + 1..until];
    } else {
      assert s[from..until] == [];
    }
  }

  /** From a match on, replacing glues `rep` and the text of each block of the chain that match opens. */
  lemma {:induction false} ReplaceFromChain(f: Matcher, s: string, m: Span, rep: string)
    requires Sound(f, |s|) && m.start < m.end <= |s| && f(m.start) == Some(m.end)
    ensures ReplaceFrom(f, s, m.start, rep) == Glue(s, SplitFrom(f, |s|, m), rep)
    decreases |s| - m.start
  {
    var bs := SplitFrom(f, |s|, m);
    assert ReplaceFrom(f, s, m.start, rep) == rep + ReplaceFrom(f, s, m.end, rep);
    match NextMatch(f, |s|, m.end)
    case None =>
      ReplaceFromSkip(f, s, m.end, |s|, rep);
      assert bs == [Block(m.start, m.end, |s|)];
      assert bs[1..] == [];
      assert Glue(s, bs, rep) == rep + s[m.end..|s|] + Glue(s, [], rep);
    case Some(next) =>
      ReplaceFromSkip(f, s, m.end, next.start, rep);
      ReplaceFromChain(f, s, next, rep);
      assert bs == [Block(m.start, m.end, next.start)] + SplitFrom(f, |s|, next);
      assert bs[1..] == SplitFrom(f, |s|, next);
      assert Glue(s, bs, rep) == rep + s[m.end..next.start] + Glue(s, bs[1..], rep);
  }

  /**
   * Global replace: the text before the first match is kept, and each
   * match of the leftmost split (`SplitIsSplit`, `SplitUnique`) becomes
   * `rep` while the text between matches is kept.
   */
  function ReplaceAll(f: Matcher, s: string, rep: string): (r: string)
    requires Sound(f, |s|)
    ensures forall c :: c in r ==> c in s || c in rep
    ensures r == Spliced(s, Split(f, |s|), rep)
  {
    assert s[0..] == s;
    match NextMatch(f, |s|, 0)
    case None =>
      ReplaceFromSkip(f, s, 0, |s|, rep);
      ReplaceFrom(f, s, 0, rep)
    case Some(m) =>
      ReplaceFromSkip(f, s, 0, m.start, rep);
      ReplaceFromChain(f, s, m, rep);
      ReplaceFrom(f, s, 0, rep)
  }

  /** Where the expression matches nowhere, replacing leaves the text as it is. */
  lemma {:induction false} ReplaceFromNoMatch(f: Matcher, s: string, from: nat, rep: string)
    requires Sound(f, |s|) && from <= |s|
    requires NoMatchIn(f, from, |s|)
    ensures ReplaceFrom(f, s, from, rep) == s[from..]
    decreases |s| - from
  {
    if from < |s| {
      ReplaceFromNoMatch(f, s, from + 1, rep);
      assert s[from..] == [s[from]] + s[from + 1..];
    }
  }

  lemma {:induction false} ReplaceAllNoMatch(f: Matcher, s: string, rep: string)
    requires Sound(f, |s|)
    requires NoMatchIn(f, 0, |s|)
    ensures ReplaceAll(f, s, rep) == s
  {
    ReplaceFromNoMatch(f, s, 0, rep);
  }
}

=== FILE: wrappers.dfy ===
/** Failure-carrying wrappers shared by every module of the model. */
module Wrappers {

  /** A value that may be absent: JavaScript's `undefined`/`null` on an optional field. */
  datatype Option<+T> = None | Some(value: T) {

    /** The wrapped value, or `default` when absent (JavaScript's `x ?? default`). */
    function GetOr(default: T): T {
      match this
      case Some(v) => v
      case None => default
    }
  }

  /** The outcome of an operation that may throw: its value, or the error it raised. */
  datatype Result<+R, +E> = Success(value: R) | Failure(error: E)
}
